=== FILE: README.md ===
# CVFS in Dafny

A model of the core of CVFS, a header-only C++ library (`VFS.hpp`) that keeps
a file system in memory. Directories hold their children sorted by name and
find them by binary search. Files keep their content in 4096-byte chunks
together with a separate byte count. A stream reads and writes one file
through mode bits and a cursor. The `CVFS` facade resolves `/`-separated paths
and creates, lists, opens, renames, moves, deletes and copies nodes.

The model is functional:

- A node is a value: `Dir(name, children)` or `File(name, data)`. File data
  is a sequence of chunks plus a recorded size.
- Every facade operation takes the root and returns a new root, an error kind
  (`VFSError`, VFS.hpp:48-58), or `Undefined` where the C++ code has
  undefined behaviour. Examples are a null dereference, an index past the end
  of a vector, or a `memcpy` from memory that was never written.
- A `shared_ptr` to a node becomes the node's index path from the root.
  Updating the object it points to becomes a functional update at that path.
  When a `Move` erases a child, the destination pointer's path is shifted the
  way the erase shifts the vector.

The modules follow the library's classes:

| file | module | models |
|---|---|---|
| results.dfy | Results | `VFSError`, and the result of an operation: value, error or undefined behaviour |
| names.dfy | Names | `std::string` ordering of names |
| paths.dfy | Paths | `SplitPath`, `ExtractPath`, `ExtractName` |
| nodes.dfy | Nodes | nodes, sortedness of child lists, deep copy |
| directory.dfy | Directory | `CVFSDir`: binary search, sorted insert, remove, rename |
| content.dfy, content_lemmas.dfy | FileContent, ContentProperties | `CVFSFile`: chunks, `ReserveChunks`, `Clear`, `Write`, `Read`, copy |
| stream.dfy, stream_lemmas.dfy | Stream, StreamProperties | `CVFSFileStream` |
| tree.dfy | Tree | paths into the tree standing for `shared_ptr`s |
| facade.dfy, facade_lemmas.dfy, facade_effects.dfy | Vfs, VfsProperties, VfsEffects | `CVFS` and `CVFS::Open` |

The model keeps these behaviours of the code as written. Where a comment or a
natural reading of the library suggests otherwise, the code wins:

- `Write` copies `min(Free, Size)` with the *total* size. It also allocates
  chunks only when every chunk is full. A write longer than the free room
  of the last chunk stays inside the caller's buffer only when its length
  is that room plus a whole number of chunks, and enough chunks are there
  to take them. Any other longer write copies from past the caller's buffer
  or runs past the chunk list: `Undefined`.
- `Read(Buf, Size, CurPos)` never advances its position inside the loop. A
  read that goes on past the first chunk copies from the wrong place:
  `Undefined`.
- `Clear` discards the chunks but keeps the recorded size (VFS.hpp:484-489).
- The stream constructor clears the file unless `APPEND` is set, even for
  a read-only open.
- `Read()` (the whole content) reads from the cursor, not from offset 0. It
  returns `Size()` characters, and those not read stay `'\0'`.
- `Seek` computes in `size_t`, so a target below 0 ends at `Size()`, not 0.
- `FileSize` dereferences the node before its null check. So `FileSize(null)`
  is `Undefined`, and a directory gives 0.
- `ExtractPath("/x")` is `""`, which resolves to no node. So `Rename`,
  `Move` and `Delete` of a top-level node dereference null, and so does
  `Copy` to a top-level name. `Open` of a new top-level file creates nothing
  and returns a null stream.
- `Move` does not check the destination for a child of the same name.
  Child lists are therefore sorted but may hold a name twice. `Copy` does
  check, because it rejects an existing destination path.
- `Move` does not reject a destination inside the moved node. The node is
  dropped from the tree when the erase removes that very node. It stays in
  the tree when the erase removes something else. That happens when the
  erase removes a sibling of the same name, or when `ExtractPath(From)` is
  the node itself (a `From` without a leading `/`, or one ending in `//`).
  In that case the erase searches the node's own children.

## Model

| member | source | states |
|---|---|---|
| Paths.SplitPath | VFS.hpp:798-822 | every segment is non-empty and free of `/`, and the segments in order spell the path with every `/` removed |
| Paths.SplitPathOfRoot | VFS.hpp:798-822 | `""` and `"/"` split into no segments |
| Paths.SplitPathJoin | VFS.hpp:798-822 | splitting `/s1/.../sn`, with or without one trailing `/`, gives back exactly `s1 ... sn` |
| Paths.FindFirst | VFS.hpp:810 | `find`: the first position of the character, with no earlier occurrence; none when the string does not hold it |
| Paths.FindLast | VFS.hpp:829-831 | `find_last_of` below a bound: the last position before the bound, with no later occurrence; none when there is none |
| Paths.ExtractJoin | VFS.hpp:827-850 | for `/s1/.../sn`, with or without one trailing `/`, `ExtractPath` gives `/s1/.../s(n-1)` (`""` when n is 1) and `ExtractName` gives `sn` |
| Paths.ExtractPlain | VFS.hpp:827-850 | `parent + "/" + x` splits back into `parent` and `x`, for any parent string |
| Paths.ExtractTrailing | VFS.hpp:827-850 | `parent + "/" + x + "/"` splits back into `parent` and `x`: one trailing slash is tolerated |
| Names.Trichotomy | VFS.hpp:759-763 | name comparison is a strict total order: exactly one of equal, less, greater |
| Names.LessTransitive | VFS.hpp:759-763 | name comparison is transitive |
| Nodes.CopyNode | VFS.hpp:646-653 | the deep copy of a node equals the node: same name, same children in the same order, same content |
| FileContent.ReserveChunks | VFS.hpp:620-625 | appends `count` empty chunks after the existing ones; the size and the content bytes are unchanged |
| FileContent.Clear | VFS.hpp:484-489 | leaves exactly four empty chunks and no content bytes, and keeps the recorded size |
| FileContent.Write | VFS.hpp:499-526 | never throws; when defined it returns the full length and the size grows by it |
| FileContent.Read | VFS.hpp:537-563 | never throws; when defined it returns at most the requested count, taken from inside the chunk list |
| FileContent.CopyData | VFS.hpp:463-479 | the copied content equals the original: chunk by chunk, fill by fill, and the size |
| ContentProperties.WriteLoopAppends | VFS.hpp:511-522 | when the copy loop is defined, it leaves the fills consistent with the size and appends exactly the bytes not yet written |
| ContentProperties.WriteAppends | VFS.hpp:499-526 | a defined write to a consistent file keeps it consistent; the new content is the old content followed by the data |
| ContentProperties.WriteFitsDefined | VFS.hpp:499-526 | a write that fits in the free room of the last chunk is defined |
| ContentProperties.WriteThenRead | VFS.hpp:499-563 | a write of 1 to `CHUNK_SIZE - size % CHUNK_SIZE` bytes returns n, grows the size by n, keeps the earlier bytes, and a read of n bytes at the old size returns exactly those bytes |
| ContentProperties.ReadWithinChunk | VFS.hpp:537-563 | a read that stays inside one chunk and below the size returns exactly the content bytes at that offset |
| ContentProperties.ReadAtEnd | VFS.hpp:537-563 | a read at the size returns nothing |
| ContentProperties.ReadSound | VFS.hpp:537-563 | whatever a defined read returns is the content at that offset and lies below the size |
| ContentProperties.ClearKeepsSize | VFS.hpp:484-489 | after `Clear` the size is unchanged and no bytes are left, so the file is consistent exactly when its size was 0 |
| ContentProperties.WriteOverCopies | VFS.hpp:513-517 | a write of `CHUNK_SIZE + 1` bytes into a new file copies past the caller's buffer: undefined |
| ContentProperties.ReadSecondPassUndefined | VFS.hpp:549-556 | a read past a short first chunk copies from the wrong place on the second pass: undefined |
| Directory.BinSearch | VFS.hpp:750-767 | the position is 0 or inside the range; on a sorted list it holds the name whenever some child in the range does |
| Directory.Search | VFS.hpp:673-686 | a found child carries exactly that name; on a sorted list a child is found if and only if one has the name, so never on an empty list |
| Directory.SearchUnique | VFS.hpp:673-686 | on a list with distinct sorted names, the search for a child's name finds that child |
| Directory.SearchNamesOnly | VFS.hpp:673-686 | the search depends on the children's names only |
| Directory.InsertPos | VFS.hpp:779-783 | the insertion point is the first child whose name is strictly greater |
| Directory.InsertChild | VFS.hpp:774-786 | one more element, the old list plus the child as a multiset, inserted before the first strictly greater name, and sorted if the list was |
| Directory.InsertKeepsSorted | VFS.hpp:774-786 | inserting before the first strictly greater name keeps a sorted list sorted |
| Directory.RemoveChild | VFS.hpp:713-720 | either the list is unchanged or one child with the given name is removed; on a sorted list that happens exactly when the name is present, and the list stays sorted |
| Directory.RenameChild | VFS.hpp:694-706 | the count is kept; either nothing changes or one child with the old name is replaced by a renamed copy; a sorted list stays sorted and holds the new name if it held the old |
| Tree.PutAt | VFS.hpp:391-392 | after an update through a pointer, the pointer leads to the new node |
| Tree.ShiftAfterRemove | VFS.hpp:388-392 | after a child is erased, a pointer outside the erased subtree, with its path shifted, still leads to a node of the same name and kind; to the very same node unless it lay below the erasing directory |
| Tree.RemoveAtSorted | VFS.hpp:713-720 | erasing a child anywhere keeps a sorted tree sorted |
| Stream.Construct | VFS.hpp:861-865 | the cursor starts at 0 and the mode is kept; with `APPEND` the content is kept, otherwise it is cleared to four empty chunks with the size kept |
| Stream.Write | VFS.hpp:903-911 | without `WRITE` it returns 0 and changes nothing; with it, it returns the length and grows the size by it; the cursor never moves |
| Stream.WriteLine | VFS.hpp:874-881 | returns the line length plus one with `WRITE` and 0 without; the cursor does not move |
| Stream.Read | VFS.hpp:955-965 | without `READ`, or on an empty file, it reads nothing and keeps the cursor; otherwise the cursor advances by the count read, which is at most the count asked for |
| Stream.ReadLine | VFS.hpp:918-931 | the cursor never moves back and the content is unchanged |
| Stream.ReadAll | VFS.hpp:938-945 | the string has `Size()` characters, and those past what the cursor read are `'\0'` |
| Stream.Seek | VFS.hpp:973-997 | no-op on an empty file; otherwise the cursor ends at or below the size: at the target if it lies in `[0, Size()]`, else at `Size()`, negative targets included |
| StreamProperties.ReadOneByte | VFS.hpp:955-965 | a one-byte read returns the byte at the cursor and moves past it, or nothing at the end |
| StreamProperties.ReadLineFromSpec | VFS.hpp:918-931 | the read loop appends the bytes from the cursor up to the next newline, and leaves the cursor just past it or at the size |
| StreamProperties.ReadLineReturnsLine | VFS.hpp:918-931 | `ReadLine` returns the bytes from the cursor up to but excluding the next `'\n'`, and leaves the cursor just past it, or at `Size()` when there is none |
| StreamProperties.ReadKeepsValid | VFS.hpp:955-965 | a read keeps the cursor within the size and returns the content between the old and new cursor |
| StreamProperties.WriteKeepsValid | VFS.hpp:903-911 | a write keeps the stream consistent and appends the data at the end when `WRITE` is set, wherever the cursor is |
| StreamProperties.WriteLineAppends | VFS.hpp:874-881 | a line that fits in the last chunk is appended followed by one `'\n'`, and the count is its length plus one |
| StreamProperties.ConstructValid | VFS.hpp:861-865 | a fresh stream is consistent exactly when it was opened with `APPEND` or the file was empty, because clearing keeps the size |
| StreamProperties.ReadAllFromCursor | VFS.hpp:938-945 | when the read is defined, `Read()` returns the content from the cursor on, padded with `'\0'` to `Size()`, and leaves the cursor at `Size()` |
| StreamProperties.SeekClamps | VFS.hpp:973-1021 | after `Seek`, `0 <= Tell() <= Size()`, the cursor is the clamped target, and `IsEOF()` holds exactly when `Tell() == Size()` |
| StreamProperties.SeekKeepsValid | VFS.hpp:973-997 | `Seek` keeps a consistent stream consistent |
| StreamProperties.TwoLinesScenario | VFS.hpp:874-931 | on a fresh read-write stream, writing `"ab\ncd\n"` and reading two lines gives `"ab"`, then `"cd"`, then end of file |
| Vfs.Walk | VFS.hpp:259-274 | a walk that succeeds visits one node per name, through directories, and ends at a node carrying the last name |
| Vfs.Locate | VFS.hpp:251-277 | a located path leads into the tree; `"/"` is the root |
| Vfs.GetNodeInfo | VFS.hpp:251-277 | `"/"` gives the root itself, any other path without a name gives null, and a node found for a path with names carries the path's last name |
| Vfs.CreateIn | VFS.hpp:219-245 | the only error is `CANT_CREATE_DIR`, and the result is a directory of the same name |
| Vfs.CreateDir | VFS.hpp:214-246 | never undefined; the only error is `CANT_CREATE_DIR`; the root stays the root |
| Vfs.List | VFS.hpp:292-315 | throws `NODE_IS_FILE` exactly for a file; a missing node gives the empty list; a directory gives its children, sorted in a sorted tree |
| Vfs.FileSize | VFS.hpp:330-341 | null is a null dereference; a file gives its size; a directory gives 0 |
| Vfs.Open | VFS.hpp:1039-1062 | `CANT_CREATE_FILE` exactly for a directory; `CANT_OPEN_FILE` exactly for a missing node without `WRITE`; a stream starts at 0 with the given mode and, without `APPEND`, empty; no stream means no change |
| Vfs.Rename | VFS.hpp:351-365 | `NODE_DOESNT_EXISTS` exactly when the node is missing; `NODE_ALREADY_EXISTS` exactly when it exists and `ExtractPath(Path) + "/" + Name` exists too |
| Vfs.EraseIndex | VFS.hpp:716-719 | the index of the child the erase removes, carrying the name, or none when nothing is removed |
| Vfs.Delete | VFS.hpp:400-409 | throws exactly for a missing node, with `NODE_DOESNT_EXISTS` |
| Vfs.Move | VFS.hpp:375-393 | throws exactly when a node is missing (`NODE_DOESNT_EXISTS`) or the destination is a file (`NODE_IS_FILE`) |
| Vfs.MoveNode | VFS.hpp:387-392 | once both nodes are located, the move never throws and keeps the root a directory |
| Vfs.AppendMoved | VFS.hpp:391-392 | appending a node that stays in the tree is undefined exactly when the destination lies inside it, which would make a cycle |
| Vfs.Copy | VFS.hpp:419-438 | `NODE_DOESNT_EXISTS` exactly for a missing source; `NODE_ALREADY_EXISTS` exactly for an existing destination; undefined exactly when the destination's parent is missing; `NODE_IS_FILE` exactly when that parent is a file; success exactly when it is a directory |
| Vfs.CopySorted | VFS.hpp:434-435 | a renamed deep copy of a subtree of a sorted tree is sorted |
| Vfs.AppendSorted | VFS.hpp:660-664 | appending a sorted node to a directory keeps a sorted tree sorted |
| Vfs.RenamedSorted | VFS.hpp:694-706 | renaming a child keeps a sorted tree sorted |
| VfsProperties.CreateDirKeepsSorted | VFS.hpp:214-246 | `CreateDir` keeps every child list sorted |
| VfsProperties.OpenKeepsSorted | VFS.hpp:1039-1062 | `Open` keeps every child list sorted |
| VfsProperties.RenameKeepsSorted | VFS.hpp:351-365 | `Rename` keeps every child list sorted |
| VfsProperties.DeleteKeepsSorted | VFS.hpp:400-409 | `Delete` keeps every child list sorted |
| VfsProperties.CopyKeepsSorted | VFS.hpp:419-438 | `Copy` keeps every child list sorted |
| VfsProperties.MoveKeepsSorted | VFS.hpp:375-393 | `Move` keeps every child list sorted |
| VfsProperties.WalkSnoc | VFS.hpp:259-274 | resolving one more name is resolving the prefix and then one step into a directory |
| VfsProperties.LocateJoin | VFS.hpp:251-277 | the path `/s1/.../sn` resolves by walking `s1 ... sn` from the root |
| VfsProperties.WalkThroughPut | VFS.hpp:259-274 | after a directory is replaced by one of the same name, paths through it resolve into the replacement |
| VfsProperties.CreateInMakesPath | VFS.hpp:219-245 | after the creation loop succeeds, the names walk to a directory |
| VfsProperties.CreateDirMakesPath | VFS.hpp:214-277 | if `CreateDir(P)` returns normally and P has a segment, `GetNodeInfo(P)` is a directory |
| VfsProperties.CreateInFails | VFS.hpp:219-245 | the loop throws exactly when some prefix of the names ends at a file, or, without Force, when the parent path is missing |
| VfsProperties.CreateInNeverFails | VFS.hpp:219-245 | with Force, creation below an empty directory always succeeds |
| VfsProperties.CreateDirFails | VFS.hpp:214-246 | `CreateDir` throws `CANT_CREATE_DIR` exactly when a segment names a file, or, without Force, when a non-final segment is missing |
| VfsProperties.InsertedFound | VFS.hpp:774-786 | after a child with a new name is inserted into a sorted list, the search for that name finds it |
| VfsEffects.DeleteRemovesChild | VFS.hpp:400-409 | deleting `/s1/.../sn/x` succeeds, `x` no longer resolves, and the parent lists exactly its old children without `x` |
| VfsEffects.RenameFound | VFS.hpp:694-706 | after renaming `x` to a free `y` in a list with distinct names, the search for `y` finds the old child with only its name changed, and no child is called `x` |
| VfsEffects.RenameRenamesChild | VFS.hpp:351-365 | renaming `/s1/.../sn/x` to a free `y` succeeds; `/s1/.../sn/y` is the old node with only its name changed, and `x` no longer resolves |
| VfsEffects.CopyCopiesNode | VFS.hpp:419-438 | copying to a free `/s1/.../sn/y` succeeds; the copy resolves there, equal to the source but for its name, and the parent lists its old children with the copy inserted |
| VfsEffects.OpenCreatesFile | VFS.hpp:1047-1057 | opening a missing `/s1/.../sn/x` with `WRITE` creates an empty file `x` there and returns a stream over it at offset 0 |
| VfsEffects.OpenExistingFile | VFS.hpp:1042-1044 | opening an existing file returns a stream over it from offset 0, and the tree's file holds what the stream starts with (cleared unless `APPEND`) |
| VfsEffects.WalkPutFile | VFS.hpp:1042-1044 | replacing a file by a file of the same name leaves every path resolving as before |
| VfsEffects.MoveToRoot | VFS.hpp:375-393 | moving a nested node into `/`, which has no child of that name, succeeds and the node then resolves at `/x` unchanged |
| VfsEffects.MoveToDir | VFS.hpp:375-393 | moving a nested node into a nested directory outside its own subtree, which has no child of that name, succeeds: the node resolves at `/t1/.../tm/x` unchanged and no longer at its old path |
| VfsEffects.MoveIntoOwnSubtree | VFS.hpp:375-393 | moving a node into a directory in its own subtree is not rejected: the node is erased with its destination, the tree equals `Delete` of the node, and the old path no longer resolves |
| VfsEffects.TopLevelParent | VFS.hpp:827-834 | the parent of `/x` is `""`, which resolves to no node |
| VfsEffects.DeleteTopLevelUndefined | VFS.hpp:400-409 | deleting an existing top-level node dereferences a null parent |
| VfsEffects.RenameTopLevelUndefined | VFS.hpp:351-365 | renaming an existing top-level node throws `NODE_ALREADY_EXISTS` if the new name is taken, and otherwise dereferences a null parent |
| VfsEffects.MoveTopLevelUndefined | VFS.hpp:375-393 | moving an existing top-level node into a directory dereferences a null parent |
| VfsEffects.CopyToTopLevelUndefined | VFS.hpp:419-438 | copying to a free top-level name dereferences a null parent |
| VfsEffects.OpenTopLevelNoStream | VFS.hpp:1047-1057 | opening a missing top-level file with `WRITE` creates nothing and returns no stream, without an error |

## Left out

- main.cpp: a demonstration program that reads a host file and prints a tree; it is I/O only.
- Mutexes and `lock_guard`: the model is single-threaded.
- Timestamps (`m_Modified`, `m_Accessed`, `system_clock`): they are nondeterministic and no operation depends on them.
- `bad_alloc` and `OUT_OF_MEM`: allocation cannot fail in the model. The error kind is declared but never produced.
- Exception messages: only the `VFSError` kind is kept.
- Garbage bytes from `memcpy`: a copy from unwritten memory or past the caller's buffer is `Undefined`, with no attempt to say which bytes result.
- Shared streams: a stream holds a file value. Writes through a stream are not reflected in the tree, and the tree's later changes are not seen by the stream. `Open` itself does update the tree with the truncation it causes.
- Shared nodes: when the erase in `Move` does not remove the moved node itself, the moved node is both kept and appended. Either the erase removes a different child of the same name, which is possible after a duplicate `Move`, or `ExtractPath(From)` is the node itself, so the erase searches the node's own children. The model appends an equal value, where the C++ code shares one object between two parents.
- Cycles: `Move` of a node into its own subtree is not rejected. The C++ code first erases the node from its parent, so the destination pointer lies in a detached subtree and the moved node drops out of the tree; the model returns the tree after the erasure (VfsEffects.MoveIntoOwnSubtree). When the erase does not remove the moved node itself, the node stays in the tree below its own destination, a cycle a tree value cannot hold. Either the erase removes a different child of the same name, or `ExtractPath(From)` is the node itself. The model gives `Undefined` there.
- Bytes: a Dafny `char` stands for one byte (0 to 255) of the C++ `char` buffers. Chunk and size arithmetic counts characters as bytes, and the name order compares characters as `std::string` compares unsigned bytes.
- `size_t` overflow of the content size and cursor: sizes are unbounded naturals except in `Seek`, which wraps explicitly.
- Stream.Seek: the exact resulting cursor is stated only for sizes below 2^63, where the signed offset and the size fit in `size_t` arithmetic without a second wrap.
- StreamProperties.ReadAllFromCursor: stated for reads that are defined (cursor at the end, a one-chunk file read from 0, or a read from the last chunk); the others reach the `Read` loop defect and are `Undefined`.
- ContentProperties.WriteThenRead: stated for writes that fit in the last chunk. Reading back more than the rest of one chunk reaches the `Read` second-pass defect. A longer write can be defined, but no single read returns all of it.

=== FILE: content.dfy ===
/** Chunked file content (`CVFSFile`): a list of 4096-byte chunks, each with
    a fill count, and a separately kept total size `m_Size`.

    A chunk is modelled by its filled bytes only, so its fill count is its
    length; the unfilled remainder of the 4096-byte buffer holds no content. */
module FileContent {
  import opened Results

  const CHUNK_SIZE: nat := 4096

  type Chunk = c: seq<char> | |c| <= CHUNK_SIZE

  /** `m_Data` and `m_Size`. */
  datatype FileData = FileData(chunks: seq<Chunk>, size: nat)

  /** A freshly constructed file: no chunks at all, size 0. */
  const NewFile: FileData := FileData([], 0)

  /** All file content, chunk after chunk. */
  function Flatten(cs: seq<Chunk>): seq<char>
  {
    if |cs| == 0 then [] else cs[0] + Flatten(cs[1..])
  }

  function Bytes(f: FileData): seq<char>
  {
    Flatten(f.chunks)
  }

  /** How full chunk `i` is in a file of `size` bytes whose chunks are
      filled front to back. */
  function Fill(size: nat, i: nat): nat
  {
    if size >= (i + 1) * CHUNK_SIZE then CHUNK_SIZE
    else if size >= i * CHUNK_SIZE then size - i * CHUNK_SIZE
    else 0
  }

  /** The layout every write relies on: the chunks hold `size` bytes, filled
      front to back, so that chunk `size / CHUNK_SIZE` is the one to append to. */
  predicate Consistent(f: FileData)
  {
    && f.size <= |f.chunks| * CHUNK_SIZE
    && forall i :: 0 <= i < |f.chunks| ==> |f.chunks[i]| == Fill(f.size, i)
  }

  function EmptyChunks(count: nat): (cs: seq<Chunk>)
    ensures |cs| == count
    ensures forall i :: 0 <= i < count ==> cs[i] == []
  {
    if count == 0 then [] else [[]] + EmptyChunks(count - 1)
  }

  /** `ReserveChunks`: appends `count` empty chunks. */
  function ReserveChunks(f: FileData, count: nat): (r: FileData)
    ensures r.size == f.size
    ensures |r.chunks| == |f.chunks| + count && r.chunks[..|f.chunks|] == f.chunks
    ensures forall i :: |f.chunks| <= i < |r.chunks| ==> r.chunks[i] == []
    ensures Bytes(r) == Bytes(f)
  {
    var r := f.(chunks := f.chunks + EmptyChunks(count));
    FlattenAppend(f.chunks, EmptyChunks(count));
    FlattenEmpty(EmptyChunks(count));
    r
  }

  /** `Clear`: drops every chunk and reserves four empty ones. The size is
      left as it was. */
  function Clear(f: FileData): (r: FileData)
    ensures |r.chunks| == 4 && forall i :: 0 <= i < 4 ==> r.chunks[i] == []
    ensures Bytes(r) == []
    ensures r.size == f.size
  {
    ReserveChunks(f.(chunks := []), 4)
  }

  /** The bytes one pass of `Write`'s loop copies into chunk `c`:
      `min(Free, Size)`, with `Size` the length of the whole input. */
  function PassCount(c: Chunk, total: nat): nat
  {
    var free := CHUNK_SIZE - |c|;
    if total >= free then free else total
  }

  /** The copy loop of `Write`, from chunk `pos` on with `written` bytes of
      `data` already stored. Each pass copies `min(Free, Size)` bytes, where
      `Size` is the whole input length and not what is left of it. The pass
      is `Undefined` when chunk `pos` does not exist or when the copy would
      read past the end of the input. */
  function WriteLoop(chunks: seq<Chunk>, size: nat, data: seq<char>, written: nat, pos: nat)
    : (r: Result<(FileData, nat)>)
    requires written <= |data|
    ensures r.Ok? ==> r.value.1 == |data| && r.value.0.size == size + |data| - written
    ensures r.Ok? ==> |r.value.0.chunks| == |chunks|
    ensures !r.Err?
    decreases |data| - written, |chunks| - pos
  {
    if written >= |data| then Ok((FileData(chunks, size), written))
    else if pos >= |chunks| then Undefined
    else
      var c := chunks[pos];
      var count := PassCount(c, |data|);
      if written + count > |data| then Undefined
      else WriteLoop(chunks[pos := c + data[written..written + count]], size + count, data, written + count, pos + 1)
  }

  /** `Write`: appends `data` at the end of the content. New chunks, as many
      as `data` needs, are reserved only when every existing chunk is full.
      Returns the new content and the number of bytes written. */
  function Write(f: FileData, data: seq<char>): (r: Result<(FileData, nat)>)
    ensures r.Ok? ==> r.value.1 == |data| && r.value.0.size == f.size + |data|
    ensures !r.Err?
  {
    var count := |data| / CHUNK_SIZE + (if |data| % CHUNK_SIZE > 0 then 1 else 0);
    var g := if f.size == |f.chunks| * CHUNK_SIZE then ReserveChunks(f, count) else f;
    WriteLoop(g.chunks, g.size, data, 0, f.size / CHUNK_SIZE)
  }

  /** `Read(Buf, n, cur)`: the bytes copied into the buffer. The loop never
      advances its position, so a second pass recomputes the in-chunk offset
      from the original `cur` and copies from outside the chunk: that pass is
      `Undefined`, as is a first pass whose offset lies past the chunk's fill. */
  function Read(f: FileData, n: nat, cur: nat): (r: Result<seq<char>>)
    ensures r.Ok? ==> |r.value| <= n
    ensures r.Ok? && |r.value| > 0 ==> cur + |r.value| <= |f.chunks| * CHUNK_SIZE
    ensures !r.Err?
  {
    var p := cur / CHUNK_SIZE;
    if n == 0 || p >= |f.chunks| then Ok([])
    else
      var c := f.chunks[p];
      var pos := cur - p * CHUNK_SIZE;
      if pos > |c| then Undefined
      else
        var count := if |c| - pos > n then n else |c| - pos;
        if count == 0 then Ok([])
        else if count >= n || p + 1 >= |f.chunks| then Ok(c[pos..pos + count])
        else Undefined
  }

  /** The copy constructor: reserves as many chunks as the source has and
      copies each chunk's filled bytes and the size. */
  function CopyData(f: FileData): (r: FileData)
    ensures r == f
  {
    var blank := ReserveChunks(FileData([], f.size), |f.chunks|);
    var copied := seq(|f.chunks|, i requires 0 <= i < |f.chunks| => blank.chunks[i] + f.chunks[i]);
    assert copied == f.chunks by {
      forall i | 0 <= i < |f.chunks|
        ensures copied[i] == f.chunks[i]
      {
        assert blank.chunks[i] == [];
      }
    }
    FileData(copied, f.size)
  }

  // ---------------------------------------------------------------------
  // Facts about Flatten
  // ---------------------------------------------------------------------

  lemma {:induction false} FlattenAppend(a: seq<Chunk>, b: seq<Chunk>)
    ensures Flatten(a + b) == Flatten(a) + Flatten(b)
    decreases |a|
  {
    if |a| == 0 {
      assert a + b == b;
    } else {
      assert (a + b)[1..] == a[1..] + b;
      FlattenAppend(a[1..], b);
    }
  }

  lemma {:induction false} FlattenEmpty(cs: seq<Chunk>)
    requires forall i :: 0 <= i < |cs| ==> cs[i] == []
    ensures Flatten(cs) == []
    decreases |cs|
  {
    if |cs| > 0 {
      FlattenEmpty(cs[1..]);
    }
  }

  lemma {:induction false} FlattenFull(cs: seq<Chunk>)
    requires forall i :: 0 <= i < |cs| ==> |cs[i]| == CHUNK_SIZE
    ensures |Flatten(cs)| == |cs| * CHUNK_SIZE
    decreases |cs|
  {
    if |cs| > 0 {
      FlattenFull(cs[1..]);
    }
  }

  /** The content of a consistent file, cut at the chunk `p` that holds
      offset `size` or lies before it. */
  lemma SplitAt(f: FileData, p: nat)
    requires Consistent(f) && p < |f.chunks| && p * CHUNK_SIZE <= f.size
    ensures |Flatten(f.chunks[..p])| == p * CHUNK_SIZE
    ensures Bytes(f) == Flatten(f.chunks[..p]) + f.chunks[p] + Flatten(f.chunks[p + 1..])
  {
    var cs := f.chunks;
    forall i | 0 <= i < p
      ensures |cs[..p][i]| == CHUNK_SIZE
    {
      assert f.size >= (i + 1) * CHUNK_SIZE by {
        assert i + 1 <= p;
        assert (i + 1) * CHUNK_SIZE <= p * CHUNK_SIZE;
      }
    }
    FlattenFull(cs[..p]);
    assert cs == cs[..p] + ([cs[p]] + cs[p + 1..]);
    FlattenAppend(cs[..p], [cs[p]] + cs[p + 1..]);
    assert ([cs[p]] + cs[p + 1..])[1..] == cs[p + 1..];
  }

  /** In a consistent file the chunks after `size / CHUNK_SIZE` are empty. */
  lemma TailEmpty(f: FileData, p: nat)
    requires Consistent(f) && p == f.size / CHUNK_SIZE && p < |f.chunks|
    ensures |f.chunks[p]| == f.size - p * CHUNK_SIZE
    ensures Flatten(f.chunks[p + 1..]) == []
  {
    forall j | p + 1 <= j < |f.chunks|
      ensures f.chunks[j] == []
    {
      assert f.size < j * CHUNK_SIZE by {
        assert f.size < (p + 1) * CHUNK_SIZE;
        assert (p + 1) * CHUNK_SIZE <= j * CHUNK_SIZE;
      }
      assert |f.chunks[j]| == 0;
    }
    FlattenEmpty(f.chunks[p + 1..]);
  }

  /** A consistent file's content is exactly `size` bytes long. */
  lemma ConsistentLength(f: FileData)
    requires Consistent(f)
    ensures |Bytes(f)| == f.size
  {
    var p := f.size / CHUNK_SIZE;
    if p < |f.chunks| {
      SplitAt(f, p);
      TailEmpty(f, p);
    } else {
      assert p == |f.chunks| && f.size == p * CHUNK_SIZE;
      forall i | 0 <= i < |f.chunks|
        ensures |f.chunks[i]| == CHUNK_SIZE
      {
        assert (i + 1) * CHUNK_SIZE <= p * CHUNK_SIZE;
      }
      FlattenFull(f.chunks);
    }
  }
}

=== FILE: content_lemmas.dfy ===
/** What `CVFSFile::Write` and `CVFSFile::Read` do on consistent content, and
    where they stop being defined. */
module ContentProperties {
  import opened Results
  import opened FileContent

  /** Appending to the last non-empty chunk appends to the content. */
  lemma {:induction false} FlattenGrowAt(cs: seq<Chunk>, pos: nat, d: seq<char>)
    requires pos < |cs| && |cs[pos]| + |d| <= CHUNK_SIZE
    requires forall j :: pos < j < |cs| ==> cs[j] == []
    ensures Flatten(cs[pos := cs[pos] + d]) == Flatten(cs) + d
    decreases pos
  {
    var grown: Chunk := cs[pos] + d;
    if pos == 0 {
      FlattenEmpty(cs[1..]);
      assert cs[pos := grown][1..] == cs[1..];
    } else {
      assert cs[pos := grown][1..] == cs[1..][pos - 1 := grown];
      FlattenGrowAt(cs[1..], pos - 1, d);
    }
  }

  /** One pass of the write loop keeps the layout consistent and appends
      the copied bytes. */
  lemma WriteStep(chunks: seq<Chunk>, size: nat, pos: nat, d: seq<char>)
    requires Consistent(FileData(chunks, size)) && pos == size / CHUNK_SIZE && pos < |chunks|
    requires |d| <= CHUNK_SIZE - |chunks[pos]|
    ensures |chunks[pos]| == size - pos * CHUNK_SIZE < CHUNK_SIZE
    ensures Consistent(FileData(chunks[pos := chunks[pos] + d], size + |d|))
    ensures Flatten(chunks[pos := chunks[pos] + d]) == Flatten(chunks) + d
  {
    var f := FileData(chunks, size);
    TailEmpty(f, pos);
    forall j | pos < j < |chunks|
      ensures chunks[j] == []
    {
      assert chunks[pos + 1..][j - pos - 1] == chunks[j];
      assert size < j * CHUNK_SIZE by {
        assert (pos + 1) * CHUNK_SIZE <= j * CHUNK_SIZE;
      }
    }
    FlattenGrowAt(chunks, pos, d);
    GrowKeepsFills(chunks, size, pos, d);
  }

  /** Growing chunk `size / CHUNK_SIZE` within its room keeps every chunk's
      fill in line with the grown size. */
  lemma GrowKeepsFills(chunks: seq<Chunk>, size: nat, pos: nat, d: seq<char>)
    requires Consistent(FileData(chunks, size)) && pos == size / CHUNK_SIZE && pos < |chunks|
    requires |chunks[pos]| == size - pos * CHUNK_SIZE && |d| <= CHUNK_SIZE - |chunks[pos]|
    ensures Consistent(FileData(chunks[pos := chunks[pos] + d], size + |d|))
  {
    var grown: Chunk := chunks[pos] + d;
    var nc := chunks[pos := grown];
    var size' := size + |d|;
    assert size' <= (pos + 1) * CHUNK_SIZE;
    forall i | 0 <= i < |nc|
      ensures |nc[i]| == Fill(size', i)
    {
      if i < pos {
        assert (i + 1) * CHUNK_SIZE <= pos * CHUNK_SIZE;
      } else if i > pos {
        assert (pos + 1) * CHUNK_SIZE <= i * CHUNK_SIZE;
      }
    }
  }

  /** Filling the current chunk of consistent content moves to the next one. */
  lemma NextChunk(size: nat, pos: nat, count: nat)
    requires pos == size / CHUNK_SIZE && count == CHUNK_SIZE - (size - pos * CHUNK_SIZE)
    ensures (size + count) / CHUNK_SIZE == pos + 1
  {
    assert size + count == (pos + 1) * CHUNK_SIZE;
  }

  /** A run of the write loop that, when it returns, leaves consistent
      content holding exactly `bytes`. */
  predicate StoresBytes(r: Result<(FileData, nat)>, bytes: seq<char>)
  {
    r.Ok? ==> Consistent(r.value.0) && Bytes(r.value.0) == bytes
  }

  /** The write loop, started at chunk `size / CHUNK_SIZE` of consistent
      content, either is undefined or leaves consistent content that ends
      with the rest of the input. */
  lemma {:induction false} WriteLoopAppends(chunks: seq<Chunk>, size: nat, data: seq<char>, written: nat, pos: nat)
    requires written <= |data|
    requires Consistent(FileData(chunks, size)) && pos == size / CHUNK_SIZE
    ensures StoresBytes(WriteLoop(chunks, size, data, written, pos), Flatten(chunks) + data[written..])
    decreases |data| - written
  {
    if written >= |data| {
      WriteLoopDone(chunks, size, data, written, pos);
    } else if pos < |chunks| {
      var count := PassCount(chunks[pos], |data|);
      if written + count <= |data| {
        var nc := WritePass(chunks, size, data, written, pos);
        if written + count < |data| {
          WriteLoopAppends(nc, size + count, data, written + count, pos + 1);
        } else {
          WriteLoopDone(nc, size + count, data, written + count, pos + 1);
        }
      }
    }
  }

  /** One pass of the write loop over chunk `pos` of consistent content
      keeps it consistent, stores the next bytes of the input and, unless
      the input is used up, moves on to the next chunk. */
  lemma WritePass(chunks: seq<Chunk>, size: nat, data: seq<char>, written: nat, pos: nat) returns (nc: seq<Chunk>)
    requires Consistent(FileData(chunks, size)) && pos == size / CHUNK_SIZE && pos < |chunks|
    requires written < |data| && written + PassCount(chunks[pos], |data|) <= |data|
    ensures var count := PassCount(chunks[pos], |data|);
            && count > 0 && |nc| == |chunks|
            && Consistent(FileData(nc, size + count))
            && (written + count < |data| ==> (size + count) / CHUNK_SIZE == pos + 1)
            && (StoresBytes(WriteLoop(nc, size + count, data, written + count, pos + 1), Flatten(nc) + data[written + count..])
                ==> StoresBytes(WriteLoop(chunks, size, data, written, pos), Flatten(chunks) + data[written..]))
  {
    var count := PassCount(chunks[pos], |data|);
    nc := PassStores(chunks, size, data, written, pos);
    WriteLoopUnfold(chunks, size, data, written, pos, nc);
    SliceSplit(Flatten(chunks), data, written, written + count);
    if written + count < |data| {
      NextChunk(size, pos, count);
    }
    StoresSame(WriteLoop(nc, size + count, data, written + count, pos + 1), WriteLoop(chunks, size, data, written, pos),
               Flatten(nc) + data[written + count..], Flatten(chunks) + data[written..]);
  }

  /** `StoresBytes` of equal runs and equal contents. */
  lemma StoresSame(r: Result<(FileData, nat)>, r': Result<(FileData, nat)>, bytes: seq<char>, bytes': seq<char>)
    requires r == r' && bytes == bytes'
    ensures StoresBytes(r, bytes) ==> StoresBytes(r', bytes')
  {
  }

  /** The chunks after one pass: consistent, with the copied bytes appended. */
  lemma PassStores(chunks: seq<Chunk>, size: nat, data: seq<char>, written: nat, pos: nat) returns (nc: seq<Chunk>)
    requires Consistent(FileData(chunks, size)) && pos == size / CHUNK_SIZE && pos < |chunks|
    requires written + PassCount(chunks[pos], |data|) <= |data|
    ensures var count := PassCount(chunks[pos], |data|);
            && |chunks[pos]| + count <= CHUNK_SIZE
            && nc == chunks[pos := chunks[pos] + data[written..written + count]]
            && Consistent(FileData(nc, size + count))
            && Flatten(nc) == Flatten(chunks) + data[written..written + count]
  {
    var d := data[written..written + PassCount(chunks[pos], |data|)];
    WriteStep(chunks, size, pos, d);
    nc := chunks[pos := chunks[pos] + d];
  }

  /** One pass of the write loop, unfolded. */
  lemma WriteLoopUnfold(chunks: seq<Chunk>, size: nat, data: seq<char>, written: nat, pos: nat, nc: seq<Chunk>)
    requires written < |data| && pos < |chunks|
    requires written + PassCount(chunks[pos], |data|) <= |data|
    requires |chunks[pos]| + PassCount(chunks[pos], |data|) <= CHUNK_SIZE
    requires nc == chunks[pos := chunks[pos] + data[written..written + PassCount(chunks[pos], |data|)]]
    ensures var count := PassCount(chunks[pos], |data|);
            WriteLoop(chunks, size, data, written, pos) == WriteLoop(nc, size + count, data, written + count, pos + 1)
  {
  }

  /** The write loop returns once the whole input is stored. */
  lemma WriteLoopDone(chunks: seq<Chunk>, size: nat, data: seq<char>, written: nat, pos: nat)
    requires written == |data| && Consistent(FileData(chunks, size))
    ensures WriteLoop(chunks, size, data, written, pos) == Ok((FileData(chunks, size), written))
    ensures StoresBytes(WriteLoop(chunks, size, data, written, pos), Flatten(chunks) + data[written..])
  {
    assert data[written..] == [];
    assert Flatten(chunks) + [] == Flatten(chunks);
  }

  /** Consecutive slices of the input, appended in turn, append the whole
      rest of it. */
  lemma SliceSplit(a: seq<char>, data: seq<char>, i: nat, j: nat)
    requires i <= j <= |data|
    ensures a + data[i..j] + data[j..] == a + data[i..]
  {
    assert data[i..] == data[i..j] + data[j..];
  }

  /** A write that returns on consistent content appends exactly the input:
      the size grows by its length, earlier bytes are unchanged and the
      layout stays consistent. */
  lemma WriteAppends(f: FileData, data: seq<char>)
    requires Consistent(f) && Write(f, data).Ok?
    ensures var g := Write(f, data).value.0;
            Consistent(g) && Bytes(g) == Bytes(f) + data && g.size == f.size + |data|
  {
    var count := |data| / CHUNK_SIZE + (if |data| % CHUNK_SIZE > 0 then 1 else 0);
    var g := if f.size == |f.chunks| * CHUNK_SIZE then ReserveChunks(f, count) else f;
    if f.size == |f.chunks| * CHUNK_SIZE {
      forall i | 0 <= i < |g.chunks|
        ensures |g.chunks[i]| == Fill(g.size, i)
      {
        if i < |f.chunks| {
          assert g.chunks[i] == g.chunks[..|f.chunks|][i];
        } else {
          assert |f.chunks| * CHUNK_SIZE <= i * CHUNK_SIZE;
        }
      }
    }
    WriteLoopAppends(g.chunks, g.size, data, 0, f.size / CHUNK_SIZE);
    assert data[0..] == data;
    assert StoresBytes(Write(f, data), Bytes(f) + data);
  }

  /** A write that fits in the room left in the current chunk always
      returns, whether or not new chunks have to be reserved first. */
  lemma WriteFitsDefined(f: FileData, data: seq<char>)
    requires Consistent(f) && |data| <= CHUNK_SIZE - f.size % CHUNK_SIZE
    ensures Write(f, data).Ok?
  {
    if |data| > 0 {
      var count := |data| / CHUNK_SIZE + (if |data| % CHUNK_SIZE > 0 then 1 else 0);
      var g := if f.size == |f.chunks| * CHUNK_SIZE then ReserveChunks(f, count) else f;
      var pos := f.size / CHUNK_SIZE;
      if f.size == |f.chunks| * CHUNK_SIZE {
        assert count == 1;
        assert pos == |f.chunks|;
        assert g.chunks[pos] == [];
      } else {
        assert pos < |f.chunks|;
        assert |f.chunks[pos]| == Fill(f.size, pos) == f.size % CHUNK_SIZE;
      }
      var c := g.chunks[pos];
      var cnt := PassCount(c, |data|);
      assert cnt == |data|;
      var nc := g.chunks[pos := c + data[0..cnt]];
      assert WriteLoop(nc, g.size + cnt, data, cnt, pos + 1).Ok?;
    }
  }

  /** On consistent content, a `Write` of at
      most the room left in the current chunk returns its length, grows the
      size by it, keeps every earlier byte, and reading back at the old size
      returns exactly the written bytes. */
  lemma WriteThenRead(f: FileData, data: seq<char>)
    requires Consistent(f) && 1 <= |data| <= CHUNK_SIZE - f.size % CHUNK_SIZE
    ensures Write(f, data).Ok?
    ensures var (g, n) := Write(f, data).value;
            && n == |data| && g.size == f.size + |data|
            && f.size <= |Bytes(g)| && Bytes(g)[..f.size] == Bytes(f)
            && Read(g, |data|, f.size) == Ok(data)
  {
    WriteFitsDefined(f, data);
    var g := Write(f, data).value.0;
    WriteAppends(f, data);
    ConsistentLength(f);
    ReadWithinChunk(g, |data|, f.size);
    assert Bytes(g)[f.size..f.size + |data|] == data;
  }

  /** A read that stays inside one chunk and inside the content returns
      exactly the bytes at that offset. */
  lemma ReadWithinChunk(f: FileData, n: nat, cur: nat)
    requires Consistent(f) && cur + n <= f.size && cur % CHUNK_SIZE + n <= CHUNK_SIZE
    ensures cur + n <= |Bytes(f)| && Read(f, n, cur) == Ok(Bytes(f)[cur..cur + n])
  {
    ConsistentLength(f);
    if n > 0 {
      var p := cur / CHUNK_SIZE;
      assert p * CHUNK_SIZE <= cur;
      assert p < |f.chunks|;
      var c := f.chunks[p];
      var pos := cur - p * CHUNK_SIZE;
      assert pos == cur % CHUNK_SIZE;
      assert |c| == Fill(f.size, p);
      assert |c| >= pos + n by {
        if f.size < (p + 1) * CHUNK_SIZE {
          assert |c| == f.size - p * CHUNK_SIZE;
        }
      }
      var count := if |c| - pos > n then n else |c| - pos;
      assert count == n;
      assert Read(f, n, cur) == Ok(c[pos..pos + n]);
      SplitAt(f, p);
      var before := Flatten(f.chunks[..p]);
      var after := Flatten(f.chunks[p + 1..]);
      assert Bytes(f) == before + c + after;
      assert Bytes(f)[cur..cur + n] == c[pos..pos + n];
    } else {
      assert Bytes(f)[cur..cur + n] == [];
    }
  }

  /** A read at the end of consistent content returns nothing. */
  lemma ReadAtEnd(f: FileData, n: nat)
    requires Consistent(f)
    ensures Read(f, n, f.size) == Ok([])
  {
    var p := f.size / CHUNK_SIZE;
    if n > 0 && p < |f.chunks| {
      assert |f.chunks[p]| == Fill(f.size, p) == f.size - p * CHUNK_SIZE;
    }
  }

  /** Whatever a read returns from consistent content is the content at
      that offset. */
  lemma ReadSound(f: FileData, n: nat, cur: nat)
    requires Consistent(f) && Read(f, n, cur).Ok? && |Read(f, n, cur).value| > 0
    ensures var b := Read(f, n, cur).value;
            cur + |b| <= f.size == |Bytes(f)| && b == Bytes(f)[cur..cur + |b|]
  {
    ConsistentLength(f);
    var p := cur / CHUNK_SIZE;
    var c := f.chunks[p];
    var pos := cur - p * CHUNK_SIZE;
    var b := Read(f, n, cur).value;
    assert |c| > 0;
    assert p * CHUNK_SIZE < f.size;
    SplitAt(f, p);
    var before := Flatten(f.chunks[..p]);
    var after := Flatten(f.chunks[p + 1..]);
    assert Bytes(f) == before + c + after;
    assert b == c[pos..pos + |b|];
    assert Bytes(f)[cur..cur + |b|] == c[pos..pos + |b|];
  }

  /** `Clear` keeps the size, so cleared content with a non-zero size no
      longer has its size equal to the sum of its fills. */
  lemma ClearKeepsSize(f: FileData)
    ensures Clear(f).size == f.size && |Bytes(Clear(f))| == 0
    ensures Consistent(Clear(f)) <==> f.size == 0
  {
    var g := Clear(f);
    if f.size > 0 {
      assert |g.chunks[0]| == 0 != Fill(f.size, 0);
    } else {
      forall i | 0 <= i < 4
        ensures |g.chunks[i]| == Fill(0, i)
      {
      }
    }
  }

  /** `Write` copies `min(Free, Size)` with the whole input length: from an
      exhausted file, an input of one chunk and one byte fills two whole
      chunks and would read past the end of the input. */
  lemma WriteOverCopies(data: seq<char>)
    requires |data| == CHUNK_SIZE + 1
    ensures Write(NewFile, data) == Undefined
  {
    var e: Chunk := [];
    var cs: seq<Chunk> := [e, e];
    assert EmptyChunks(2) == cs;
    assert ReserveChunks(NewFile, 2).chunks == cs;
    assert Write(NewFile, data) == WriteLoop(cs, 0, data, 0, 0);
    FirstPassFillsChunk(data);
  }

  lemma FirstPassFillsChunk(data: seq<char>)
    requires |data| == CHUNK_SIZE + 1
    ensures WriteLoop([[], []], 0, data, 0, 0) == Undefined
  {
    var e: Chunk := [];
    var first: Chunk := data[0..CHUNK_SIZE];
    var cs: seq<Chunk> := [e, e];
    assert cs[0 := first] == [first, e];
    assert WriteLoop(cs, 0, data, 0, 0) == WriteLoop([first, e], CHUNK_SIZE, data, CHUNK_SIZE, 1);
  }

  /** A read that runs off the end of the first chunk while a further chunk
      exists takes a second pass, which is undefined: for instance reading
      one byte more than a small file holds, right after it was cleared and
      written. */
  lemma ReadSecondPassUndefined(f: FileData)
    requires Consistent(f) && |f.chunks| >= 2 && 0 < f.size < CHUNK_SIZE
    ensures Read(f, f.size + 1, 0) == Undefined
  {
    assert |f.chunks[0]| == f.size;
  }
}

=== FILE: directory.dfy ===
/** `CVFSDir`: the children of a directory, kept in ascending name order,
    with binary search, sorted insertion, removal and rename-and-reorder. */
module Directory {
  import opened Results
  import opened Names
  import opened Nodes

  /** The child names of two lists agree position by position. */
  predicate SameNames(cs: seq<Node>, ds: seq<Node>)
  {
    |cs| == |ds| && forall i :: 0 <= i < |cs| ==> cs[i].name == ds[i].name
  }

  predicate HasChild(cs: seq<Node>, name: string)
  {
    exists i :: 0 <= i < |cs| && cs[i].name == name
  }

  /** The private recursive binary search over the frame `[start, end]`.
      `end` is a `size_t`: `Middle - 1` with `Middle == 0` wraps to `npos`,
      written here as `-1`, and such a frame counts as empty. An empty frame
      yields position 0, which the callers then compare by name. */
  function BinSearch(cs: seq<Node>, name: string, start: int, end: int): (pos: nat)
    requires 0 <= start && -1 <= end < |cs|
    ensures pos == 0 || start <= pos <= end
    ensures Sorted(cs) && (exists i :: start <= i <= end && cs[i].name == name) ==> cs[pos].name == name
    decreases end - start
  {
    if end < start then 0
    else if end == start then end
    else
      var middle := start + (end - start) / 2;
      var posName := cs[middle].name;
      if posName == name then middle
      else if Less(posName, name) then
        NarrowRight(cs, name, start, end, middle);
        BinSearch(cs, name, middle + 1, end)
      else if Less(name, posName) then
        NarrowLeft(cs, name, start, end, middle);
        BinSearch(cs, name, start, middle - 1)
      else
        Trichotomy(posName, name);
        middle
  }

  lemma NarrowRight(cs: seq<Node>, name: string, start: nat, end: nat, m: nat)
    requires start <= m <= end < |cs| && Less(cs[m].name, name)
    ensures Sorted(cs) && (exists i :: start <= i <= end && cs[i].name == name) ==>
              exists i :: m + 1 <= i <= end && cs[i].name == name
  {
    if Sorted(cs) && exists i :: start <= i <= end && cs[i].name == name {
      var i :| start <= i <= end && cs[i].name == name;
      if i <= m {
        assert LessEq(cs[i].name, cs[m].name);
        Trichotomy(name, cs[m].name);
        assert false;
      }
    }
  }

  lemma NarrowLeft(cs: seq<Node>, name: string, start: nat, end: nat, m: nat)
    requires start <= m <= end < |cs| && Less(name, cs[m].name)
    ensures Sorted(cs) && (exists i :: start <= i <= end && cs[i].name == name) ==>
              exists i :: start <= i <= m - 1 && cs[i].name == name
  {
    if Sorted(cs) && exists i :: start <= i <= end && cs[i].name == name {
      var i :| start <= i <= end && cs[i].name == name;
      if i >= m {
        assert LessEq(cs[m].name, cs[i].name);
        Trichotomy(name, cs[m].name);
        assert false;
      }
    }
  }

  /** The public `Search`: the position of the child it returns, or `None`
      for a null result. On a sorted list it finds a child with the name
      whenever one exists, including for the empty list. */
  function Search(cs: seq<Node>, name: string): (r: Option<nat>)
    ensures r.Some? ==> r.value < |cs| && cs[r.value].name == name
    ensures Sorted(cs) ==> (r.Some? <==> HasChild(cs, name))
  {
    if |cs| == 0 then None
    else
      var pos := BinSearch(cs, name, 0, |cs| - 1);
      if cs[pos].name == name then Some(pos) else None
  }

  /** The scan of `InternalAppendChild`: the first position from `from` on
      whose name is strictly greater than `name`, or the end of the list. */
  function InsertPos(cs: seq<Node>, name: string, from: nat): (pos: nat)
    requires from <= |cs|
    ensures from <= pos <= |cs|
    ensures forall i :: from <= i < pos ==> !Less(name, cs[i].name)
    ensures pos < |cs| ==> Less(name, cs[pos].name)
    decreases |cs| - from
  {
    if from == |cs| then from
    else if Less(name, cs[from].name) then from
    else InsertPos(cs, name, from + 1)
  }

  /** `InternalAppendChild`: inserts the child just before the first child
      with a strictly greater name. */
  function InsertChild(cs: seq<Node>, child: Node): (r: seq<Node>)
    ensures |r| == |cs| + 1 && multiset(r) == multiset(cs) + multiset{child}
    ensures exists p :: 0 <= p <= |cs| && r == cs[..p] + [child] + cs[p..]
              && (forall i :: 0 <= i < p ==> !Less(child.name, cs[i].name))
              && (p < |cs| ==> Less(child.name, cs[p].name))
    ensures Sorted(cs) ==> Sorted(r)
  {
    var p := InsertPos(cs, child.name, 0);
    var r := cs[..p] + [child] + cs[p..];
    assert cs == cs[..p] + cs[p..];
    InsertKeepsSorted(cs, child, p);
    r
  }

  lemma InsertKeepsSorted(cs: seq<Node>, child: Node, p: nat)
    requires p <= |cs|
    requires forall i :: 0 <= i < p ==> !Less(child.name, cs[i].name)
    requires p < |cs| ==> Less(child.name, cs[p].name)
    ensures Sorted(cs) ==> Sorted(cs[..p] + [child] + cs[p..])
  {
    if Sorted(cs) {
      var r := cs[..p] + [child] + cs[p..];
      forall i, j | 0 <= i < j < |r|
        ensures LessEq(r[i].name, r[j].name)
      {
        if i < p && j == p {
          Trichotomy(child.name, cs[i].name);
        } else if i == p && j > p {
          assert r[j] == cs[j - 1];
          if j - 1 > p {
            assert LessEq(cs[p].name, cs[j - 1].name);
            LessEqTransitive(child.name, cs[p].name, cs[j - 1].name);
          }
        } else if i < p && j > p {
          assert r[j] == cs[j - 1];
        } else if i > p {
          assert r[i] == cs[i - 1] && r[j] == cs[j - 1];
        }
      }
    }
  }

  /** `RemoveChild`, defined for a non-empty list only (on an empty one the
      C++ code indexes element 0 of an empty vector): removes the child the
      binary search lands on if it has the name, and nothing otherwise. */
  function RemoveChild(cs: seq<Node>, name: string): (r: seq<Node>)
    requires |cs| > 0
    ensures |r| == |cs| ==> r == cs
    ensures |r| != |cs| ==> exists k :: 0 <= k < |cs| && cs[k].name == name && r == cs[..k] + cs[k + 1..]
    ensures Sorted(cs) ==> Sorted(r)
    ensures Sorted(cs) ==> (|r| == |cs| - 1 <==> HasChild(cs, name))
  {
    var pos := BinSearch(cs, name, 0, |cs| - 1);
    if cs[pos].name == name then
      RemoveKeepsSorted(cs, pos);
      cs[..pos] + cs[pos + 1..]
    else cs
  }

  lemma RemoveKeepsSorted(cs: seq<Node>, k: nat)
    requires k < |cs|
    ensures Sorted(cs) ==> Sorted(cs[..k] + cs[k + 1..])
  {
    if Sorted(cs) {
      var r := cs[..k] + cs[k + 1..];
      forall i, j | 0 <= i < j < |r|
        ensures LessEq(r[i].name, r[j].name)
      {
        var i' := if i < k then i else i + 1;
        var j' := if j < k then j else j + 1;
        assert r[i] == cs[i'] && r[j] == cs[j'];
      }
    }
  }

  /** Erasing a child keeps the names strictly increasing. */
  lemma RemoveKeepsStrict(cs: seq<Node>, k: nat)
    requires k < |cs| && StrictlySorted(cs)
    ensures StrictlySorted(cs[..k] + cs[k + 1..])
  {
    var r := cs[..k] + cs[k + 1..];
    forall i, j | 0 <= i < j < |r|
      ensures Less(r[i].name, r[j].name)
    {
      var i' := if i < k then i else i + 1;
      var j' := if j < k then j else j + 1;
      assert r[i] == cs[i'] && r[j] == cs[j'];
    }
  }

  /** Inserting a child with a new name keeps the names strictly
      increasing; old child `k` is then found at `k2`. */
  lemma InsertKeepsStrict(cs: seq<Node>, child: Node, k: nat) returns (k2: nat)
    requires StrictlySorted(cs) && !HasChild(cs, child.name) && k < |cs|
    ensures StrictlySorted(InsertChild(cs, child))
    ensures k2 < |InsertChild(cs, child)| && InsertChild(cs, child)[k2] == cs[k]
    ensures Search(InsertChild(cs, child), cs[k].name) == Some(k2)
  {
    var r := InsertChild(cs, child);
    var p :| 0 <= p <= |cs| && r == cs[..p] + [child] + cs[p..];
    k2 := if k < p then k else k + 1;
    assert r[k2] == cs[k];
    InsertedStrict(cs, child, p, r);
    SearchUnique(r, k2);
  }

  lemma InsertedStrict(cs: seq<Node>, child: Node, p: nat, r: seq<Node>)
    requires StrictlySorted(cs) && !HasChild(cs, child.name) && p <= |cs|
    requires r == cs[..p] + [child] + cs[p..] && Sorted(r)
    ensures StrictlySorted(r)
  {
    forall i, j | 0 <= i < j < |r|
      ensures Less(r[i].name, r[j].name)
    {
      var i' := if i < p then i else i - 1;
      var j' := if j < p then j else j - 1;
      if i == p {
        assert r[i] == child && r[j] == cs[j'];
      } else if j == p {
        assert r[j] == child && r[i] == cs[i'];
      } else {
        assert r[i] == cs[i'] && r[j] == cs[j'];
      }
    }
  }

  /** After child `j` of a list with distinct names is erased, another
      child `k` is found by its name one place lower when it was past `j`. */
  lemma RemovedIndex(cs: seq<Node>, j: nat, k: nat)
    requires StrictlySorted(cs) && j < |cs| && k < |cs| && k != j
    ensures var k1 := if k < j then k else k - 1;
            var cs1 := cs[..j] + cs[j + 1..];
            k1 < |cs1| && cs1[k1] == cs[k] && Search(cs1, cs[k].name) == Some(k1)
  {
    var cs1 := cs[..j] + cs[j + 1..];
    var k1 := if k < j then k else k - 1;
    RemoveKeepsStrict(cs, j);
    assert cs1[k1] == cs[k];
    SearchUnique(cs1, k1);
  }

  /** `RenameChild`, defined for a non-empty list only: takes out the child
      the binary search lands on if it has the name, renames it and inserts
      it again in order. */
  function RenameChild(cs: seq<Node>, name: string, newName: string): (r: seq<Node>)
    requires |cs| > 0
    ensures |r| == |cs|
    ensures Sorted(cs) ==> Sorted(r)
    ensures r == cs || exists k :: (0 <= k < |cs| && cs[k].name == name
              && multiset(r) == multiset(cs[..k] + cs[k + 1..]) + multiset{cs[k].(name := newName)})
    ensures Sorted(cs) && HasChild(cs, name) ==> HasChild(r, newName)
    ensures Sorted(cs) && !HasChild(cs, name) ==> r == cs
  {
    var pos := BinSearch(cs, name, 0, |cs| - 1);
    var child := cs[pos];
    if child.name == name then
      var rest := cs[..pos] + cs[pos + 1..];
      RemoveKeepsSorted(cs, pos);
      var r := InsertChild(rest, child.(name := newName));
      assert child.(name := newName) in multiset(r);
      r
    else cs
  }

  /** The binary search looks at names only. */
  lemma {:induction false} BinSearchNamesOnly(cs: seq<Node>, ds: seq<Node>, name: string, start: int, end: int)
    requires SameNames(cs, ds) && 0 <= start && -1 <= end < |cs|
    ensures BinSearch(cs, name, start, end) == BinSearch(ds, name, start, end)
    decreases end - start
  {
    if start < end {
      var middle := start + (end - start) / 2;
      var posName := cs[middle].name;
      assert posName == ds[middle].name;
      if posName == name {
      } else if Less(posName, name) {
        BinSearchNamesOnly(cs, ds, name, middle + 1, end);
      } else if Less(name, posName) {
        BinSearchNamesOnly(cs, ds, name, start, middle - 1);
      }
    }
  }

  /** So does `Search`: replacing children by ones with the same names does
      not change which position it finds. */
  lemma SearchNamesOnly(cs: seq<Node>, ds: seq<Node>, name: string)
    requires SameNames(cs, ds)
    ensures Search(cs, name) == Search(ds, name)
  {
    if |cs| > 0 {
      BinSearchNamesOnly(cs, ds, name, 0, |cs| - 1);
    }
  }

  /** In a strictly sorted list the child with a given name is unique, so
      `Search` finds exactly that one. */
  lemma SearchUnique(cs: seq<Node>, k: nat)
    requires StrictlySorted(cs) && k < |cs|
    ensures Search(cs, cs[k].name) == Some(k)
  {
    var name := cs[k].name;
    var r := Search(cs, name);
    assert HasChild(cs, name);
    var j := r.value;
    if j != k {
      if j < k {
        assert Less(cs[j].name, cs[k].name);
      } else {
        assert Less(cs[k].name, cs[j].name);
      }
      Trichotomy(name, name);
    }
  }
}

=== FILE: facade.dfy ===
/** `CVFS`: the filesystem facade over a root directory named `"/"`.
    Every operation takes the root and returns the new root, or the error
    kind of the `CVFSException` it throws, or `Undefined` where the C++
    code dereferences a null or wrongly cast pointer. No operation changes
    the tree before it throws, so an error carries no tree. */
module Vfs {
  import opened Results
  import opened FileContent
  import opened Nodes
  import opened Directory
  import opened Tree
  import opened Paths
  import opened Stream

  /** The tree a new `CVFS` starts with. */
  const NewRoot: Node := Dir("/", [])

  /** The lookup loop of `GetNodeInfo` below directory `n`: each name is
      searched among the children of the current directory; the walk goes
      on through directories, and a file ends it only as the last name. */
  function Walk(n: Node, segs: seq<string>): (r: Option<seq<nat>>)
    requires n.Dir?
    ensures r.Some? ==> |r.value| == |segs| && ValidPath(n, r.value)
    ensures r.Some? && |segs| > 0 ==> At(n, r.value).name == segs[|segs| - 1]
    decreases |segs|
  {
    if |segs| == 0 then Some([])
    else
      match Search(n.children, segs[0])
      case None => None
      case Some(k) =>
        var c := n.children[k];
        if c.Dir? then
          var sub := Walk(c, segs[1..]);
          if sub.Some? then
            assert ([k] + sub.value)[1..] == sub.value;
            Some([k] + sub.value)
          else None
        else if |segs| == 1 then Some([k])
        else None
  }

  /** `GetNodeInfo` as a path: the root only for the path `"/"` itself,
      otherwise the walk over the path's names. */
  function Locate(root: Node, path: string): (r: Option<seq<nat>>)
    requires root.Dir?
    ensures r.Some? ==> ValidPath(root, r.value)
    ensures path == "/" ==> r == Some([])
  {
    var segs := SplitPath(path);
    if |segs| == 0 then
      if path == "/" then Some([]) else None
    else Walk(root, segs)
  }

  /** `GetNodeInfo`: the node at a path, or null. `"/"` is the root itself;
      any other path without a name is null; a node found for a path with
      names carries the path's last name. */
  function GetNodeInfo(root: Node, path: string): (r: Option<Node>)
    requires root.Dir?
    ensures path == "/" ==> r == Some(root)
    ensures |SplitPath(path)| == 0 && path != "/" ==> r.None?
    ensures r.Some? && |SplitPath(path)| > 0 ==> r.value.name == SplitPath(path)[|SplitPath(path)| - 1]
  {
    var p := Locate(root, path);
    if p.Some? then Some(At(root, p.value)) else None
  }

  predicate NodeExists(root: Node, path: string)
    requires root.Dir?
  {
    GetNodeInfo(root, path).Some?
  }

  /** The loop of `CreateDir` below directory `n`: a missing name becomes a
      new empty directory when `force` is set or it is the last name; a
      missing name before the last without `force`, or a file on the way,
      throws `CANT_CREATE_DIR`. */
  function CreateIn(n: Node, segs: seq<string>, force: bool): (r: Result<Node>)
    requires n.Dir?
    ensures r.Ok? ==> r.value.Dir? && r.value.name == n.name
    ensures r.Err? ==> r.error == CANT_CREATE_DIR
    ensures !r.Undefined?
    decreases |segs|
  {
    if |segs| == 0 then Ok(n)
    else
      match Search(n.children, segs[0])
      case None =>
        if force || |segs| == 1 then
          var made := CreateIn(Dir(segs[0], []), segs[1..], force);
          if made.Ok? then Ok(n.(children := InsertChild(n.children, made.value))) else made
        else Err(CANT_CREATE_DIR)
      case Some(k) =>
        var c := n.children[k];
        if !c.Dir? then Err(CANT_CREATE_DIR)
        else
          var sub := CreateIn(c, segs[1..], force);
          if sub.Ok? then Ok(n.(children := n.children[k := sub.value])) else sub
  }

  /** `CreateDir(Path, Force)`. */
  function CreateDir(root: Node, path: string, force: bool): (r: Result<Node>)
    requires root.Dir?
    ensures r.Ok? ==> r.value.Dir? && r.value.name == root.name
    ensures r.Err? ==> r.error == CANT_CREATE_DIR
    ensures !r.Undefined?
  {
    CreateIn(root, SplitPath(path), force)
  }

  /** `List(Path)`: the children of a directory, nothing for a missing
      node, and `NODE_IS_FILE` for a file. */
  function List(root: Node, path: string): (r: Result<seq<Node>>)
    requires root.Dir?
    ensures r.Err? <==> GetNodeInfo(root, path).Some? && GetNodeInfo(root, path).value.File?
    ensures r.Err? ==> r.error == NODE_IS_FILE
    ensures GetNodeInfo(root, path).None? ==> r == Ok([])
    ensures r.Ok? && GetNodeInfo(root, path).Some? ==> r.value == GetNodeInfo(root, path).value.children
    ensures SortedTree(root) && r.Ok? ==> Sorted(r.value)
    ensures !r.Undefined?
  {
    var p := Locate(root, path);
    if p.None? then Ok([])
    else
      var node := At(root, p.value);
      if node.Dir? then
        SubtreeSorted(root, p.value);
        Ok(node.children)
      else Err(NODE_IS_FILE)
  }

  /** `FileSize(node)`: a file's size; 0 for a directory, because the branch
      meant to throw `NODE_IS_DIR` repeats the file test and is never taken;
      a null node is dereferenced before any test. */
  function FileSize(node: Option<Node>): (r: Result<nat>)
    ensures node.None? <==> r.Undefined?
    ensures node.Some? && node.value.File? ==> r == Ok(node.value.data.size)
    ensures node.Some? && node.value.Dir? ==> r == Ok(0)
  {
    match node
    case None => Undefined
    case Some(n) => if n.File? then Ok(n.data.size) else Ok(0)
  }

  /** `Open(Path, mode)`: an existing file gets a stream (whose constructor
      clears the file in the tree unless `APPEND` is set); a directory
      throws `CANT_CREATE_FILE`; a missing file throws `CANT_OPEN_FILE`
      without `WRITE`, and with `WRITE` is created in the directory named by
      `ExtractPath(Path)`, or no stream is returned when that directory is
      missing. */
  function Open(root: Node, path: string, mode: Mode): (r: Result<(Node, Option<FileStream>)>)
    requires root.Dir?
    ensures r.Ok? ==> r.value.0.Dir? && r.value.0.name == root.name
    ensures r == Err(CANT_CREATE_FILE) <==> GetNodeInfo(root, path).Some? && GetNodeInfo(root, path).value.Dir?
    ensures r == Err(CANT_OPEN_FILE) <==> GetNodeInfo(root, path).None? && !Has(mode, WRITE)
    ensures r.Ok? && r.value.1.Some? ==> r.value.1.value.mode == mode && r.value.1.value.cursor == 0
    ensures r.Ok? && r.value.1.None? ==> r.value.0 == root
    ensures r.Ok? && r.value.1.Some? && !Has(mode, APPEND) ==> Bytes(r.value.1.value.data) == []
  {
    var p := Locate(root, path);
    if p.Some? then
      var node := At(root, p.value);
      if node.File? then
        var s := Construct(node.name, node.data, mode);
        Ok((Put(root, p.value, node.(data := s.data)), Some(s)))
      else Err(CANT_CREATE_FILE)
    else if Has(mode, WRITE) then
      var pp := Locate(root, ExtractPath(path));
      if pp.None? then Ok((root, None))
      else
        var parent := At(root, pp.value);
        if !parent.Dir? then Undefined
        else
          var name := ExtractName(path);
          var s := Construct(name, NewFile, mode);
          Ok((WithChildren(root, pp.value, InsertChild(parent.children, File(name, s.data))), Some(s)))
    else Err(CANT_OPEN_FILE)
  }

  /** `Rename(Path, Name)`: throws `NODE_DOESNT_EXISTS` for a missing node
      and `NODE_ALREADY_EXISTS` when `ExtractPath(Path) + "/" + Name`
      exists; otherwise renames, in the directory `ExtractPath(Path)`, the
      child the binary search finds under `ExtractName(Path)`. */
  function Rename(root: Node, path: string, name: string): (r: Result<Node>)
    requires root.Dir?
    ensures r.Ok? ==> r.value.Dir? && r.value.name == root.name
    ensures r == Err(NODE_DOESNT_EXISTS) <==> !NodeExists(root, path)
    ensures r == Err(NODE_ALREADY_EXISTS) <==> NodeExists(root, path) && NodeExists(root, ExtractPath(path) + "/" + name)
  {
    if !NodeExists(root, path) then Err(NODE_DOESNT_EXISTS)
    else if NodeExists(root, ExtractPath(path) + "/" + name) then Err(NODE_ALREADY_EXISTS)
    else
      var pp := Locate(root, ExtractPath(path));
      if pp.None? then Undefined
      else
        var parent := At(root, pp.value);
        if !parent.Dir? || |parent.children| == 0 then Undefined
        else
          var cs := RenameChild(parent.children, ExtractName(path), name);
          Ok(WithChildren(root, pp.value, cs))
  }

  /** `RemoveChild` on the directory at `p`, with the index it erases:
      nothing is erased when the child the binary search finds has another
      name. */
  function EraseIndex(cs: seq<Node>, name: string): (r: Option<nat>)
    requires |cs| > 0
    ensures r.Some? ==> r.value < |cs| && cs[r.value].name == name
    ensures r.Some? ==> RemoveChild(cs, name) == cs[..r.value] + cs[r.value + 1..]
    ensures r.None? ==> RemoveChild(cs, name) == cs
  {
    var pos := BinSearch(cs, name, 0, |cs| - 1);
    if cs[pos].name == name then Some(pos) else None
  }

  /** `Delete(Path)`: throws `NODE_DOESNT_EXISTS` for a missing node;
      otherwise removes a child with the node's name from the directory
      `ExtractPath(Path)`. */
  function Delete(root: Node, path: string): (r: Result<Node>)
    requires root.Dir?
    ensures r.Ok? ==> r.value.Dir? && r.value.name == root.name
    ensures r.Err? <==> !NodeExists(root, path)
    ensures r.Err? ==> r.error == NODE_DOESNT_EXISTS
  {
    var p := Locate(root, path);
    if p.None? then Err(NODE_DOESNT_EXISTS)
    else
      var node := At(root, p.value);
      var pp := Locate(root, ExtractPath(path));
      if pp.None? then Undefined
      else
        var parent := At(root, pp.value);
        if !parent.Dir? || |parent.children| == 0 then Undefined
        else
          var k := EraseIndex(parent.children, node.name);
          if k.None? then Ok(root)
          else Ok(RemoveAt(root, pp.value, k.value))
  }

  /** `Move(From, To)`: both nodes must exist and `To` must be a directory;
      then a child with the moved node's name is erased from the directory
      `ExtractPath(From)`, and the moved node is appended to the destination
      directory. Both are pointers, so the erasure shifts the destination's
      path, and a destination inside the erased subtree is no longer part
      of the tree: the append then changes nothing visible. Appending a node
      that is still in the tree below itself would make a cycle, which a
      tree value cannot hold. */
  function Move(root: Node, from: string, to: string): (r: Result<Node>)
    requires root.Dir?
    ensures r.Ok? ==> r.value.Dir? && r.value.name == root.name
    ensures r.Err? <==> !NodeExists(root, from) || !NodeExists(root, to) || GetNodeInfo(root, to).value.File?
    ensures r.Err? ==> r.error == (if NodeExists(root, from) && NodeExists(root, to) then NODE_IS_FILE else NODE_DOESNT_EXISTS)
  {
    var src := Locate(root, from);
    var dst := Locate(root, to);
    if src.None? || dst.None? then Err(NODE_DOESNT_EXISTS)
    else if !At(root, dst.value).Dir? then Err(NODE_IS_FILE)
    else
      var pp := Locate(root, ExtractPath(from));
      if pp.None? then Undefined
      else MoveNode(root, src.value, dst.value, pp.value)
  }

  /** `Move` once the node at `q`, the destination directory at `d` and the
      directory `pp` named by `ExtractPath(From)` are located. */
  function MoveNode(root: Node, q: seq<nat>, d: seq<nat>, pp: seq<nat>): (r: Result<Node>)
    requires root.Dir? && ValidPath(root, q) && ValidPath(root, d) && At(root, d).Dir? && ValidPath(root, pp)
    ensures !r.Err?
    ensures r.Ok? ==> r.value.Dir? && r.value.name == root.name
  {
    var node := At(root, q);
    var parent := At(root, pp);
    if !parent.Dir? || |parent.children| == 0 then Undefined
    else
      var k := EraseIndex(parent.children, node.name);
      if k.None? then
        AppendMoved(root, q, d)
      else
        var removed := RemoveAt(root, pp, k.value);
        var d' := Shift(d, pp, k.value);
        var s := Shift(q, pp, k.value);
        if d'.None? then Ok(removed)
        else
          ShiftAfterRemove(root, pp, k.value, d);
          if s.None? then
            AppendNode(removed, node, d'.value)
          else
            ShiftAfterRemove(root, pp, k.value, q);
            AppendMoved(removed, s.value, d'.value)
  }

  /** Appends the node at `s` to the directory at `d`, where the node stays
      as well; a cycle when `d` lies inside the node. */
  function AppendMoved(root: Node, s: seq<nat>, d: seq<nat>): (r: Result<Node>)
    requires ValidPath(root, s) && ValidPath(root, d) && At(root, d).Dir?
    ensures r.Ok? ==> r.value.Dir? == root.Dir? && r.value.name == root.name
    ensures r.Undefined? <==> IsPrefix(s, d)
  {
    if IsPrefix(s, d) then Undefined
    else AppendNode(root, At(root, s), d)
  }

  /** `AppendChild` of a node to the directory at `d`. */
  function AppendNode(root: Node, node: Node, d: seq<nat>): (r: Result<Node>)
    requires ValidPath(root, d) && At(root, d).Dir?
    ensures r.Ok?
    ensures r.value.name == root.name && r.value.Dir?
  {
    Ok(WithChildren(root, d, InsertChild(At(root, d).children, node)))
  }

  /** `Copy(From, To)`: throws `NODE_DOESNT_EXISTS` for a missing source,
      `NODE_ALREADY_EXISTS` for an existing destination and `NODE_IS_FILE`
      when `ExtractPath(To)` is a file; a missing `ExtractPath(To)` is
      dereferenced. Otherwise a deep copy named `ExtractName(To)` is
      appended to that directory. */
  function Copy(root: Node, from: string, to: string): (r: Result<Node>)
    requires root.Dir?
    ensures r.Ok? ==> r.value.Dir? && r.value.name == root.name
    ensures r == Err(NODE_DOESNT_EXISTS) <==> !NodeExists(root, from)
    ensures r == Err(NODE_ALREADY_EXISTS) <==> NodeExists(root, from) && NodeExists(root, to)
    ensures r.Undefined? <==> NodeExists(root, from) && !NodeExists(root, to) && !NodeExists(root, ExtractPath(to))
    ensures r == Err(NODE_IS_FILE) <==>
              && NodeExists(root, from) && !NodeExists(root, to)
              && GetNodeInfo(root, ExtractPath(to)).Some? && GetNodeInfo(root, ExtractPath(to)).value.File?
    ensures r.Ok? <==>
              && NodeExists(root, from) && !NodeExists(root, to)
              && GetNodeInfo(root, ExtractPath(to)).Some? && GetNodeInfo(root, ExtractPath(to)).value.Dir?
  {
    if !NodeExists(root, from) then Err(NODE_DOESNT_EXISTS)
    else if NodeExists(root, to) then Err(NODE_ALREADY_EXISTS)
    else
      var dp := Locate(root, ExtractPath(to));
      if dp.None? then Undefined
      else if !At(root, dp.value).Dir? then Err(NODE_IS_FILE)
      else
        var node := At(root, Locate(root, from).value);
        var copy := CopyNode(node).(name := ExtractName(to));
        AppendNode(root, copy, dp.value)
  }

  // Sortedness facts the operations above rely on.

  /** A renamed copy of a subtree of a sorted tree is sorted: a node's own
      name takes no part in its order. */
  lemma CopySorted(root: Node, p: seq<nat>, name: string)
    requires ValidPath(root, p)
    ensures SortedTree(root) ==> SortedTree(CopyNode(At(root, p)).(name := name))
  {
    if SortedTree(root) {
      SubtreeSorted(root, p);
    }
  }

  /** Appending a sorted tree keeps a sorted tree sorted. */
  lemma AppendSorted(root: Node, node: Node, d: seq<nat>)
    requires ValidPath(root, d) && At(root, d).Dir?
    ensures SortedTree(root) && SortedTree(node) ==>
              SortedTree(WithChildren(root, d, InsertChild(At(root, d).children, node)))
  {
    if SortedTree(root) && SortedTree(node) {
      var cs := At(root, d).children;
      SubtreeSorted(root, d);
      InsertedSorted(cs, node);
      WithChildrenSorted(root, d, InsertChild(cs, node));
    }
  }

  /** Inserting a sorted tree into a sorted list of sorted trees. */
  lemma InsertedSorted(cs: seq<Node>, child: Node)
    requires Sorted(cs) && SortedTree(child) && forall i :: 0 <= i < |cs| ==> SortedTree(cs[i])
    ensures var r := InsertChild(cs, child); Sorted(r) && forall i :: 0 <= i < |r| ==> SortedTree(r[i])
  {
    var r := InsertChild(cs, child);
    forall i | 0 <= i < |r|
      ensures SortedTree(r[i])
    {
      assert r[i] in multiset(cs) + multiset{child};
      if r[i] != child {
        assert r[i] in cs;
      }
    }
  }

  /** Renaming a child keeps a sorted tree sorted. */
  lemma RenamedSorted(root: Node, p: seq<nat>, name: string, newName: string)
    requires ValidPath(root, p) && At(root, p).Dir? && |At(root, p).children| > 0
    ensures SortedTree(root) ==> SortedTree(WithChildren(root, p, RenameChild(At(root, p).children, name, newName)))
  {
    if SortedTree(root) {
      SubtreeSorted(root, p);
      var cs := At(root, p).children;
      var r := RenameChild(cs, name, newName);
      if r != cs {
        var k :| 0 <= k < |cs| && cs[k].name == name
                 && multiset(r) == multiset(cs[..k] + cs[k + 1..]) + multiset{cs[k].(name := newName)};
        RenamedChildrenSorted(cs, k, r, newName);
      }
      WithChildrenSorted(root, p, r);
    }
  }

  /** A list holding the children of a list but one, plus that one renamed,
      holds sorted trees when the original did. */
  lemma RenamedChildrenSorted(cs: seq<Node>, k: nat, r: seq<Node>, newName: string)
    requires k < |cs| && multiset(r) == multiset(cs[..k] + cs[k + 1..]) + multiset{cs[k].(name := newName)}
    requires forall i :: 0 <= i < |cs| ==> SortedTree(cs[i])
    ensures forall i :: 0 <= i < |r| ==> SortedTree(r[i])
  {
    var rest := cs[..k] + cs[k + 1..];
    forall i | 0 <= i < |r|
      ensures SortedTree(r[i])
    {
      assert r[i] in multiset(r);
      if r[i] != cs[k].(name := newName) {
        assert r[i] in multiset(rest);
        var m :| 0 <= m < |rest| && rest[m] == r[i];
        if m < k { assert rest[m] == cs[m]; } else { assert rest[m] == cs[m + 1]; }
      } else {
        assert SortedTree(cs[k]);
      }
    }
  }
}

=== FILE: facade_effects.dfy ===
/** What the facade operations do to the tree on well-formed paths
    `/s1/.../sn/x` below an existing directory `/s1/.../sn`, and what they
    do on a top-level path `/x`, whose parent `ExtractPath` gives as `""`. */
module VfsEffects {
  import opened Results
  import opened FileContent
  import opened Names
  import opened Nodes
  import opened Directory
  import opened Tree
  import opened Paths
  import opened Stream
  import opened Vfs
  import opened VfsProperties

  // ---- Helpers ----

  lemma AppendEmpty<T>(s: seq<T>)
    ensures s + [] == s
  {
  }

  lemma SnocParts(ps: seq<string>, x: string)
    ensures (ps + [x])[..|ps|] == ps && (ps + [x])[|ps|] == x && |ps + [x]| == |ps| + 1
  {
  }

  lemma SegmentsSnoc(ps: seq<string>, x: string)
    requires Segments(ps) && Segment(x)
    ensures Segments(ps + [x])
  {
  }

  /** One index more on a path goes one level deeper. */
  lemma {:induction false} AtSnoc(n: Node, p: seq<nat>, k: nat)
    requires ValidPath(n, p) && At(n, p).Dir? && k < |At(n, p).children|
    ensures ValidPath(n, p + [k]) && At(n, p + [k]) == At(n, p).children[k]
    decreases |p|
  {
    if |p| > 0 {
      AtSnoc(n.children[p[0]], p[1..], k);
      assert (p + [k])[0] == p[0] && (p + [k])[1..] == p[1..] + [k];
    } else {
      assert p + [k] == [k];
    }
  }

  /** A walk over one name. */
  lemma WalkOne(m: Node, x: string)
    requires m.Dir?
    ensures Walk(m, [x]) == (var j := Search(m.children, x); if j.Some? then Some([j.value]) else None)
  {
    WalkSnoc(m, [], x);
    assert [] + [x] == [x];
    var j := Search(m.children, x);
    if j.Some? {
      assert [] + [j.value] == [j.value];
    }
  }

  /** Siblings with strictly increasing names carry distinct names. */
  lemma NoOtherWithName(cs: seq<Node>, e: nat)
    requires StrictlySorted(cs) && e < |cs|
    ensures forall i :: 0 <= i < |cs| && i != e ==> cs[i].name != cs[e].name
    ensures !HasChild(cs[..e] + cs[e + 1..], cs[e].name)
  {
    forall i | 0 <= i < |cs| && i != e
      ensures cs[i].name != cs[e].name
    {
      LessIrreflexive(cs[e].name);
    }
    var rest := cs[..e] + cs[e + 1..];
    forall i | 0 <= i < |rest|
      ensures rest[i].name != cs[e].name
    {
      if i < e { assert rest[i] == cs[i]; } else { assert rest[i] == cs[i + 1]; }
    }
  }

  lemma StrictlySortedIsSorted(cs: seq<Node>)
    requires StrictlySorted(cs)
    ensures Sorted(cs)
  {
  }

  /** The paths `/s1/.../sn` and `/s1/.../sn/x` below the directory the
      names `ps` walk to. */
  lemma ChildLookup(root: Node, ps: seq<string>, p: seq<nat>, x: string)
    requires root.Dir? && Segments(ps) && |ps| > 0 && Segment(x)
    requires Walk(root, ps) == Some(p) && At(root, p).Dir?
    ensures ExtractPath(Join(ps + [x])) == Join(ps) && ExtractName(Join(ps + [x])) == x
    ensures Locate(root, Join(ps)) == Some(p)
    ensures var j := Search(At(root, p).children, x);
            Locate(root, Join(ps + [x])) == (if j.Some? then Some(p + [j.value]) else None)
    ensures var j := Search(At(root, p).children, x);
            j.Some? ==> ValidPath(root, p + [j.value]) && At(root, p + [j.value]) == At(root, p).children[j.value]
  {
    SegmentsSnoc(ps, x);
    SnocParts(ps, x);
    ExtractJoin(ps + [x]);
    LocateJoin(root, ps);
    LocateJoin(root, ps + [x]);
    WalkSnoc(root, ps, x);
    var j := Search(At(root, p).children, x);
    if j.Some? {
      AtSnoc(root, p, j.value);
    }
  }

  /** After the child list of the directory at `/s1/.../sn` is replaced by
      `cs`, that path still leads to it and `/s1/.../sn/x` leads to the
      child the search finds in `cs`. */
  lemma AfterUpdate(root: Node, ps: seq<string>, p: seq<nat>, cs: seq<Node>, x: string)
    requires root.Dir? && Segments(ps) && |ps| > 0 && Segment(x)
    requires Walk(root, ps) == Some(p) && At(root, p).Dir?
    ensures var r := WithChildren(root, p, cs);
            && Locate(r, Join(ps)) == Some(p) && At(r, p) == At(root, p).(children := cs)
            && GetNodeInfo(r, Join(ps + [x]))
               == (var j := Search(cs, x); if j.Some? then Some(cs[j.value]) else None)
  {
    var m := At(root, p).(children := cs);
    var r := WithChildren(root, p, cs);
    WalkThroughPut(root, ps, p, m, []);
    AppendEmpty(ps);
    AppendEmpty(p);
    PutAt(root, p, m);
    ChildLookup(r, ps, p, x);
  }

  // ---- Operations on /s1/.../sn/x ----

  /** `Delete` of an existing child removes it, and only it, from its
      directory. */
  lemma DeleteRemovesChild(root: Node, ps: seq<string>, p: seq<nat>, x: string)
    requires root.Dir? && Segments(ps) && |ps| > 0 && Segment(x)
    requires Walk(root, ps) == Some(p) && At(root, p).Dir?
    requires StrictlySorted(At(root, p).children) && HasChild(At(root, p).children, x)
    ensures var r := Delete(root, Join(ps + [x]));
            && r.Ok?
            && !NodeExists(r.value, Join(ps + [x]))
            && List(r.value, Join(ps)) == Ok(RemoveChild(At(root, p).children, x))
  {
    var cs := At(root, p).children;
    StrictlySortedIsSorted(cs);
    ChildLookup(root, ps, p, x);
    var j := Search(cs, x).value;
    DeleteUnfold(root, Join(ps + [x]), p + [j], p);
    RemovedGone(cs, j);
    RemoveAtChildren(root, p, j);
    AfterUpdate(root, ps, p, RemoveChild(cs, x), x);
  }

  /** The erasure `Delete` makes is `RemoveChild` on the directory's list. */
  lemma RemoveAtChildren(root: Node, pp: seq<nat>, k: nat)
    requires ValidPath(root, pp) && At(root, pp).Dir? && k < |At(root, pp).children|
    requires EraseIndex(At(root, pp).children, At(root, pp).children[k].name) == Some(k)
    ensures var cs := At(root, pp).children;
            RemoveAt(root, pp, k) == WithChildren(root, pp, RemoveChild(cs, cs[k].name))
  {
    RemoveAtUnfold(root, pp, k);
  }

  /** In a list with distinct names, the binary search of `RemoveChild`
      erases child `j` and no child of its name remains. */
  lemma RemovedGone(cs: seq<Node>, j: nat)
    requires StrictlySorted(cs) && j < |cs|
    ensures EraseIndex(cs, cs[j].name) == Some(j)
    ensures Sorted(RemoveChild(cs, cs[j].name)) && !HasChild(RemoveChild(cs, cs[j].name), cs[j].name)
  {
    StrictlySortedIsSorted(cs);
    NoOtherWithName(cs, j);
    assert 0 <= j <= |cs| - 1 && cs[j].name == cs[j].name;
  }

  /** `Delete` once the node and its parent directory are found. */
  lemma DeleteUnfold(root: Node, path: string, q: seq<nat>, pp: seq<nat>)
    requires root.Dir? && Locate(root, path) == Some(q) && Locate(root, ExtractPath(path)) == Some(pp)
    requires At(root, pp).Dir? && |At(root, pp).children| > 0
    ensures var cs := At(root, pp).children;
            var k := EraseIndex(cs, At(root, q).name);
            Delete(root, path) == if k.None? then Ok(root) else Ok(RemoveAt(root, pp, k.value))
  {
  }

  /** Every node of a list the child `k` was renamed to `y` in is that
      renamed child or one of the others, whose names are neither the old
      name nor `y`. */
  lemma RenamedNames(cs: seq<Node>, k: nat, rc: seq<Node>, y: string)
    requires k < |cs| && StrictlySorted(cs) && !HasChild(cs, y)
    requires multiset(rc) == multiset(cs[..k] + cs[k + 1..]) + multiset{cs[k].(name := y)}
    ensures forall i :: 0 <= i < |rc| ==> rc[i].name != cs[k].name
    ensures forall i :: 0 <= i < |rc| && rc[i].name == y ==> rc[i] == cs[k].(name := y)
  {
    NoOtherWithName(cs, k);
    RenamedNamesDistinct(cs, k, rc, y);
  }

  lemma RenamedNamesDistinct(cs: seq<Node>, k: nat, rc: seq<Node>, y: string)
    requires k < |cs| && !HasChild(cs, y)
    requires forall i :: 0 <= i < |cs| && i != k ==> cs[i].name != cs[k].name
    requires multiset(rc) == multiset(cs[..k] + cs[k + 1..]) + multiset{cs[k].(name := y)}
    ensures forall i :: 0 <= i < |rc| ==> rc[i].name != cs[k].name
    ensures forall i :: 0 <= i < |rc| && rc[i].name == y ==> rc[i] == cs[k].(name := y)
  {
    var rest := cs[..k] + cs[k + 1..];
    forall i | 0 <= i < |rc|
      ensures rc[i].name != cs[k].name
      ensures rc[i].name == y ==> rc[i] == cs[k].(name := y)
    {
      assert rc[i] in multiset(rc);
      if rc[i] != cs[k].(name := y) {
        assert rc[i] in multiset(rest);
        var m :| 0 <= m < |rest| && rest[m] == rc[i];
        if m < k { assert rest[m] == cs[m]; } else { assert rest[m] == cs[m + 1]; }
      }
    }
  }

  /** Renaming the child `x` of a strictly sorted list to a free name `y`:
      the search for `y` finds the child with only its name changed, and no
      child is called `x` any more. */
  lemma RenameFound(cs: seq<Node>, x: string, y: string)
    requires |cs| > 0 && StrictlySorted(cs) && HasChild(cs, x) && !HasChild(cs, y)
    ensures var rc := RenameChild(cs, x, y);
            && Search(rc, y).Some? && Search(cs, x).Some?
            && rc[Search(rc, y).value] == cs[Search(cs, x).value].(name := y)
            && !HasChild(rc, x) && Sorted(rc)
  {
    StrictlySortedIsSorted(cs);
    var j := Search(cs, x).value;
    NoOtherWithName(cs, j);
    var rc := RenameChild(cs, x, y);
    assert rc != cs;
    var k :| 0 <= k < |cs| && cs[k].name == x
             && multiset(rc) == multiset(cs[..k] + cs[k + 1..]) + multiset{cs[k].(name := y)};
    assert k == j;
    RenamedNames(cs, k, rc, y);
  }

  /** `Rename` to a free name: the node is found under the new name, with
      everything but its name unchanged, and no longer under the old one. */
  lemma RenameRenamesChild(root: Node, ps: seq<string>, p: seq<nat>, x: string, y: string)
    requires root.Dir? && Segments(ps) && |ps| > 0 && Segment(x) && Segment(y)
    requires Walk(root, ps) == Some(p) && At(root, p).Dir?
    requires StrictlySorted(At(root, p).children)
    requires HasChild(At(root, p).children, x) && !HasChild(At(root, p).children, y)
    ensures NodeExists(root, Join(ps + [x]))
    ensures var r := Rename(root, Join(ps + [x]), y);
            && r.Ok?
            && GetNodeInfo(r.value, Join(ps + [y])) == Some(GetNodeInfo(root, Join(ps + [x])).value.(name := y))
            && !NodeExists(r.value, Join(ps + [x]))
  {
    var cs := At(root, p).children;
    StrictlySortedIsSorted(cs);
    ChildLookup(root, ps, p, x);
    ChildLookup(root, ps, p, y);
    JoinAppend(ps, y);
    var rc := RenameChild(cs, x, y);
    RenameFound(cs, x, y);
    assert Rename(root, Join(ps + [x]), y) == Ok(WithChildren(root, p, rc));
    AfterUpdate(root, ps, p, rc, y);
    AfterUpdate(root, ps, p, rc, x);
  }

  /** `Copy` to a free name below an existing directory: the copy is found
      there, equal to the source but for its name. */
  lemma CopyCopiesNode(root: Node, from: string, ps: seq<string>, p: seq<nat>, y: string)
    requires root.Dir? && Segments(ps) && |ps| > 0 && Segment(y)
    requires Walk(root, ps) == Some(p) && At(root, p).Dir?
    requires NodeExists(root, from)
    requires Sorted(At(root, p).children) && !HasChild(At(root, p).children, y)
    ensures var r := Copy(root, from, Join(ps + [y]));
            && r.Ok?
            && GetNodeInfo(r.value, Join(ps + [y])) == Some(GetNodeInfo(root, from).value.(name := y))
            && List(r.value, Join(ps)) == Ok(InsertChild(At(root, p).children, GetNodeInfo(root, from).value.(name := y)))
  {
    var cs := At(root, p).children;
    ChildLookup(root, ps, p, y);
    var copy := GetNodeInfo(root, from).value.(name := y);
    var ins := InsertChild(cs, copy);
    assert Copy(root, from, Join(ps + [y])) == Ok(WithChildren(root, p, ins));
    InsertedFound(cs, copy);
    AfterUpdate(root, ps, p, ins, y);
  }

  /** `Open` with `WRITE` of a missing file below an existing directory
      creates an empty file there and returns a stream over it. */
  lemma OpenCreatesFile(root: Node, ps: seq<string>, p: seq<nat>, x: string, mode: Mode)
    requires root.Dir? && Segments(ps) && |ps| > 0 && Segment(x) && Has(mode, WRITE)
    requires Walk(root, ps) == Some(p) && At(root, p).Dir?
    requires Sorted(At(root, p).children) && !HasChild(At(root, p).children, x)
    ensures var o := Open(root, Join(ps + [x]), mode);
            && o.Ok? && o.value.1.Some?
            && var s := o.value.1.value;
            && s.name == x && s.cursor == 0 && Bytes(s.data) == []
            && GetNodeInfo(o.value.0, Join(ps + [x])) == Some(File(x, s.data))
  {
    var cs := At(root, p).children;
    ChildLookup(root, ps, p, x);
    var s := Construct(x, NewFile, mode);
    var ins := InsertChild(cs, File(x, s.data));
    assert Open(root, Join(ps + [x]), mode) == Ok((WithChildren(root, p, ins), Some(s)));
    InsertedFound(cs, File(x, s.data));
    AfterUpdate(root, ps, p, ins, x);
  }

  /** Replacing a file by a file of the same name changes no walk. */
  lemma {:induction false} WalkPutFile(n: Node, q: seq<nat>, f: Node, segs: seq<string>)
    requires n.Dir? && ValidPath(n, q) && At(n, q).File? && f.File? && f.name == At(n, q).name
    ensures |q| > 0 && Put(n, q, f).Dir?
    ensures Walk(Put(n, q, f), segs) == Walk(n, segs)
    decreases |segs|
  {
    var c := n.children[q[0]];
    var pc := Put(c, q[1..], f);
    var nn := n.(children := n.children[q[0] := pc]);
    assert Put(n, q, f) == nn;
    assert pc.name == c.name && pc.Dir? == c.Dir? by {
      if |q| == 1 {
        assert At(c, q[1..]) == c;
      }
    }
    assert SameNames(n.children, nn.children);
    if |segs| > 0 {
      SearchNamesOnly(n.children, nn.children, segs[0]);
      if c.Dir? && Search(n.children, segs[0]) == Some(q[0]) {
        WalkPutFile(c, q[1..], f, segs[1..]);
      }
    }
  }

  /** `Open` of an existing file returns a stream over it from offset 0,
      and the file in the tree holds the content the stream starts with:
      cleared unless `APPEND` is set. */
  lemma OpenExistingFile(root: Node, path: string, mode: Mode)
    requires root.Dir? && GetNodeInfo(root, path).Some? && GetNodeInfo(root, path).value.File?
    ensures var f := GetNodeInfo(root, path).value;
            var o := Open(root, path, mode);
            && o.Ok? && o.value.1 == Some(Construct(f.name, f.data, mode))
            && GetNodeInfo(o.value.0, path) == Some(f.(data := o.value.1.value.data))
  {
    var q := Locate(root, path).value;
    var f := At(root, q);
    var g := f.(data := Construct(f.name, f.data, mode).data);
    WalkPutFile(root, q, g, SplitPath(path));
    PutAt(root, q, g);
  }

  /** The top-level path `/x` leads to the root's child named `x`. */
  lemma TopLevelLookup(r: Node, x: string)
    requires r.Dir? && Segment(x)
    ensures GetNodeInfo(r, "/" + x)
            == (var j := Search(r.children, x); if j.Some? then Some(r.children[j.value]) else None)
  {
    LocateJoin(r, [x]);
    assert Join([x]) == "/" + x;
    WalkOne(r, x);
    var j := Search(r.children, x);
    if j.Some? {
      assert At(r, [j.value]) == r.children[j.value];
    }
  }

  /** A child list replaced below the root keeps the names of the root's
      own children. */
  lemma TopNamesKept(n: Node, p: seq<nat>, cs: seq<Node>)
    requires |p| > 0 && ValidPath(n, p) && At(n, p).Dir?
    ensures SameNames(n.children, WithChildren(n, p, cs).children)
  {
    var c := n.children[p[0]];
    assert At(n, p) == At(c, p[1..]);
    var pc := Put(c, p[1..], At(c, p[1..]).(children := cs));
    assert WithChildren(n, p, cs).children == n.children[p[0] := pc];
    if |p[1..]| == 0 {
      assert At(c, p[1..]) == c;
    }
  }

  /** The tree `Move` of the nested node `/s1/.../sn/x` into the root
      directory builds: the node erased from its directory, then inserted
      among the root's children. */
  lemma MoveToRootValue(root: Node, ps: seq<string>, p: seq<nat>, x: string)
    requires root.Dir? && Segments(ps) && |ps| > 0 && Segment(x)
    requires Walk(root, ps) == Some(p) && At(root, p).Dir?
    requires StrictlySorted(At(root, p).children) && HasChild(At(root, p).children, x)
    ensures NodeExists(root, Join(ps + [x]))
    ensures var cs := At(root, p).children;
            && Search(cs, x).Some?
            && GetNodeInfo(root, Join(ps + [x])) == Some(cs[Search(cs, x).value])
            && var removed := RemoveAt(root, p, Search(cs, x).value);
               Move(root, Join(ps + [x]), "/")
               == Ok(removed.(children := InsertChild(removed.children, cs[Search(cs, x).value])))
  {
    var cs := At(root, p).children;
    StrictlySortedIsSorted(cs);
    ChildLookup(root, ps, p, x);
    var j := Search(cs, x).value;
    MoveUnfold(root, Join(ps + [x]), "/", p + [j], [], p);
    MoveNodeToRoot(root, p, j);
  }

  /** `Move` once both nodes and the source's parent directory are found. */
  lemma MoveUnfold(root: Node, from: string, to: string, q: seq<nat>, d: seq<nat>, pp: seq<nat>)
    requires root.Dir? && Locate(root, from) == Some(q) && Locate(root, to) == Some(d)
    requires At(root, d).Dir? && Locate(root, ExtractPath(from)) == Some(pp)
    ensures Move(root, from, to) == MoveNode(root, q, d, pp)
  {
  }

  /** `MoveNode` of child `j` of the directory at `p`, whose children carry
      distinct names, into the root: the child is erased, then inserted
      among the root's children. */
  lemma MoveNodeToRoot(root: Node, p: seq<nat>, j: nat)
    requires root.Dir? && ValidPath(root, p) && At(root, p).Dir? && |p| > 0
    requires StrictlySorted(At(root, p).children) && j < |At(root, p).children|
    ensures ValidPath(root, p + [j])
    ensures var cs := At(root, p).children;
            var removed := RemoveAt(root, p, j);
            MoveNode(root, p + [j], [], p) == Ok(removed.(children := InsertChild(removed.children, cs[j])))
  {
    var cs := At(root, p).children;
    AtSnoc(root, p, j);
    NoOtherWithName(cs, j);
    StrictlySortedIsSorted(cs);
    assert 0 <= j <= |cs| - 1 && cs[j].name == cs[j].name;
    var e := EraseIndex(cs, cs[j].name);
    assert e == Some(j);
    var removed := RemoveAt(root, p, j);
    assert Shift([], p, j) == Some([]);
    assert Shift(p + [j], p, j) == None by {
      assert (p + [j])[..|p|] == p && (p + [j])[|p|] == j;
    }
    assert At(removed, []) == removed;
  }

  /** `Move` of a nested node into the root directory, which holds no node
      of that name: the node is found at the top level, unchanged. */
  lemma MoveToRoot(root: Node, ps: seq<string>, p: seq<nat>, x: string)
    requires root.Dir? && SortedTree(root) && Segments(ps) && |ps| > 0 && Segment(x)
    requires Walk(root, ps) == Some(p) && At(root, p).Dir?
    requires StrictlySorted(At(root, p).children) && HasChild(At(root, p).children, x)
    requires !HasChild(root.children, x)
    ensures NodeExists(root, Join(ps + [x]))
    ensures var r := Move(root, Join(ps + [x]), "/");
            r.Ok? && GetNodeInfo(r.value, "/" + x) == GetNodeInfo(root, Join(ps + [x]))
  {
    MoveToRootValue(root, ps, p, x);
    var cs := At(root, p).children;
    var e := Search(cs, x).value;
    var node := cs[e];
    var removed := RemoveAt(root, p, e);
    TopNamesKept(root, p, cs[..e] + cs[e + 1..]);
    RemoveAtSorted(root, p, e);
    SearchNamesOnly(root.children, removed.children, x);
    InsertedAtTop(removed, node, x);
  }

  /** A node inserted among the root's children, none of which has its
      name, is found at the top level. */
  lemma InsertedAtTop(root: Node, node: Node, x: string)
    requires root.Dir? && Sorted(root.children) && Search(root.children, x).None?
    requires node.name == x && Segment(x)
    ensures GetNodeInfo(root.(children := InsertChild(root.children, node)), "/" + x) == Some(node)
  {
    InsertedFound(root.children, node);
    TopLevelLookup(root.(children := InsertChild(root.children, node)), x);
  }

  /** Strictly increasing names, and the absence of a name, depend on the
      names only. */
  lemma SameNamesKeep(a: seq<Node>, b: seq<Node>, x: string)
    requires SameNames(a, b)
    ensures StrictlySorted(a) <==> StrictlySorted(b)
    ensures HasChild(a, x) <==> HasChild(b, x)
  {
  }

  /** `MoveNode` of child `j` of the directory at `p`, whose children carry
      distinct names, to a directory at `d` outside the child's subtree:
      the child is erased, then appended to the destination at its shifted
      path. */
  lemma MoveNodeErase(root: Node, p: seq<nat>, j: nat, d: seq<nat>)
    requires root.Dir? && ValidPath(root, p) && At(root, p).Dir? && StrictlySorted(At(root, p).children)
    requires j < |At(root, p).children| && ValidPath(root, d) && At(root, d).Dir?
    requires !IsPrefix(p + [j], d)
    ensures ValidPath(root, p + [j]) && Shift(d, p, j).Some?
    ensures var removed := RemoveAt(root, p, j);
            var d1 := Shift(d, p, j).value;
            && ValidPath(removed, d1) && At(removed, d1).Dir?
            && MoveNode(root, p + [j], d, p) == AppendNode(removed, At(root, p).children[j], d1)
  {
    var cs := At(root, p).children;
    AtSnoc(root, p, j);
    RemovedGone(cs, j);
    assert Shift(p + [j], p, j) == None by {
      assert (p + [j])[..|p|] == p && (p + [j])[|p|] == j;
    }
    ShiftAfterRemove(root, p, j, d);
  }

  /** After child `j` of the directory at `p` is erased, a walk to another
      directory `d` outside that child's subtree reaches it at its shifted
      path, and its children keep their names. */
  lemma DestAfterRemove(root: Node, p: seq<nat>, j: nat, ts: seq<string>, d: seq<nat>)
    requires root.Dir? && ValidPath(root, p) && At(root, p).Dir? && StrictlySorted(At(root, p).children)
    requires j < |At(root, p).children| && Walk(root, ts) == Some(d) && At(root, d).Dir?
    requires d != p && !IsPrefix(p + [j], d)
    ensures Shift(d, p, j).Some?
    ensures var removed := RemoveAt(root, p, j);
            var d1 := Shift(d, p, j).value;
            && removed.Dir? && Walk(removed, ts) == Some(d1) && At(removed, d1).Dir?
            && SameNames(At(removed, d1).children, At(root, d).children)
  {
    if IsPrefix(p, d) && |d| > |p| {
      DestBelowRemoved(root, p, j, ts, d);
    } else {
      DestBesideRemoved(root, p, j, ts, d);
    }
  }

  /** `DestAfterRemove` for a destination below a sibling of the erased
      child: its index under `p` moves down past `j`. */
  lemma DestBelowRemoved(root: Node, p: seq<nat>, j: nat, ts: seq<string>, d: seq<nat>)
    requires root.Dir? && ValidPath(root, p) && At(root, p).Dir? && StrictlySorted(At(root, p).children)
    requires j < |At(root, p).children| && Walk(root, ts) == Some(d)
    requires IsPrefix(p, d) && |d| > |p| && d[|p|] != j
    ensures Shift(d, p, j).Some? && Walk(RemoveAt(root, p, j), ts) == Shift(d, p, j)
    ensures ValidPath(root, d) && ValidPath(RemoveAt(root, p, j), Shift(d, p, j).value)
    ensures At(RemoveAt(root, p, j), Shift(d, p, j).value) == At(root, d)
  {
    var cs := At(root, p).children;
    var cs1 := cs[..j] + cs[j + 1..];
    var k := d[|p|];
    var k1 := if k < j then k else k - 1;
    PathThrough(root, p, d);
    RemovedIndex(cs, j, k);
    WalkReindex(root, p, cs1, k1, ts, d);
    ShiftBelow(d, p, j, k1);
    RemoveAtUnfold(root, p, j);
  }

  /** `DestAfterRemove` for a destination not below the directory at `p`:
      its path is unchanged. */
  lemma DestBesideRemoved(root: Node, p: seq<nat>, j: nat, ts: seq<string>, d: seq<nat>)
    requires root.Dir? && ValidPath(root, p) && At(root, p).Dir?
    requires j < |At(root, p).children| && Walk(root, ts) == Some(d) && At(root, d).Dir?
    requires !IsPrefix(p, d)
    ensures Shift(d, p, j) == Some(d)
    ensures var removed := RemoveAt(root, p, j);
            && removed.Dir? && Walk(removed, ts) == Some(d) && At(removed, d).Dir?
            && SameNames(At(removed, d).children, At(root, d).children)
  {
    var cs := At(root, p).children;
    var m1 := At(root, p).(children := cs[..j] + cs[j + 1..]);
    WalkBeside(root, p, m1, ts, d);
    AtAfterPut(root, p, m1, d);
  }

  /** Appending `node` to a directory reached by the names `ts`, whose
      children carry distinct names none of which is the node's: the node
      is then found at `/t1/.../tm/x`. */
  lemma DestReceives(removed: Node, d1: seq<nat>, node: Node, ts: seq<string>, x: string)
    requires removed.Dir? && Segments(ts) && |ts| > 0 && Segment(x) && node.name == x
    requires Walk(removed, ts) == Some(d1) && At(removed, d1).Dir?
    requires StrictlySorted(At(removed, d1).children) && !HasChild(At(removed, d1).children, x)
    ensures var r := AppendNode(removed, node, d1).value;
            r.Dir? && GetNodeInfo(r, Join(ts + [x])) == Some(node)
  {
    var dcs := At(removed, d1).children;
    var ins := InsertChild(dcs, node);
    var m2 := At(removed, d1).(children := ins);
    var r := WithChildren(removed, d1, ins);
    StrictlySortedIsSorted(dcs);
    WalkBeside(removed, d1, m2, ts, d1);
    PutAt(removed, d1, m2);
    InsertedFound(dcs, node);
    SegmentsSnoc(ts, x);
    LocateJoin(r, ts + [x]);
    WalkSnoc(r, ts, x);
    AtSnoc(r, d1, Search(ins, x).value);
  }

  /** Appending a node to a directory other than the one at `p`, whose
      children carry distinct names none of which is `x`: `/s1/.../sn/x`
      then resolves to nothing. */
  lemma SourceGone(removed: Node, p: seq<nat>, d1: seq<nat>, node: Node, ps: seq<string>, x: string)
    requires removed.Dir? && Segments(ps) && |ps| > 0 && Segment(x) && node.name == x
    requires Walk(removed, ps) == Some(p) && At(removed, p).Dir?
    requires StrictlySorted(At(removed, p).children) && !HasChild(At(removed, p).children, x)
    requires ValidPath(removed, d1) && At(removed, d1).Dir? && d1 != p
    requires StrictlySorted(At(removed, d1).children) && !HasChild(At(removed, d1).children, x)
    ensures var r := AppendNode(removed, node, d1).value;
            r.Dir? && !NodeExists(r, Join(ps + [x]))
  {
    var pcs := At(removed, p).children;
    var dcs := At(removed, d1).children;
    var ins := InsertChild(dcs, node);
    var m2 := At(removed, d1).(children := ins);
    var r := WithChildren(removed, d1, ins);
    var p2: seq<nat>;
    if IsPrefix(d1, p) && |p| > |d1| {
      PathThrough(removed, d1, p);
      var k2 := InsertKeepsStrict(dcs, node, p[|d1|]);
      WalkReindex(removed, d1, ins, k2, ps, p);
      p2 := p[|d1| := k2];
      assert At(r, p2).children == pcs;
    } else {
      assert !IsPrefix(d1, p);
      WalkBeside(removed, d1, m2, ps, p);
      AtAfterPut(removed, d1, m2, p);
      p2 := p;
      SameNamesKeep(At(r, p2).children, pcs, x);
    }
    assert Walk(r, ps) == Some(p2) && At(r, p2).Dir?;
    StrictlySortedIsSorted(At(r, p2).children);
    SegmentsSnoc(ps, x);
    LocateJoin(r, ps + [x]);
    WalkSnoc(r, ps, x);
  }

  /** `Move` of `/s1/.../sn/x` into a directory `/t1/.../tm` outside the
      node's subtree, whose children carry distinct names none of which is
      `x`: the node is erased from its directory and found, unchanged, at
      `/t1/.../tm/x`. */
  lemma MoveToDir(root: Node, ps: seq<string>, p: seq<nat>, x: string, ts: seq<string>)
    requires root.Dir? && Segments(ps) && |ps| > 0 && Segment(x) && Segments(ts) && |ts| > 0
    requires Walk(root, ps) == Some(p) && At(root, p).Dir?
    requires StrictlySorted(At(root, p).children) && HasChild(At(root, p).children, x)
    requires var dst := GetNodeInfo(root, Join(ts)); dst.Some? && dst.value.Dir? && StrictlySorted(dst.value.children)
    requires !NodeExists(root, Join(ts + [x]))
    requires !(|ps| < |ts| && ts[..|ps| + 1] == ps + [x])
    ensures NodeExists(root, Join(ps + [x]))
    ensures var r := Move(root, Join(ps + [x]), Join(ts));
            && r.Ok?
            && GetNodeInfo(r.value, Join(ts + [x])) == GetNodeInfo(root, Join(ps + [x]))
            && !NodeExists(r.value, Join(ps + [x]))
  {
    var cs := At(root, p).children;
    StrictlySortedIsSorted(cs);
    ChildLookup(root, ps, p, x);
    var j := Search(cs, x).value;
    var q := p + [j];
    LocateJoin(root, ts);
    var d := Walk(root, ts).value;
    DestLacksName(root, ts, d, x);
    assert !IsPrefix(q, d) by {
      if IsPrefix(q, d) {
        WalkPrefix(root, ts, d, |q|);
        SegmentsSnoc(ps, x);
        LocateJoin(root, ps + [x]);
        WalkInjective(root, ts[..|q|], ps + [x], q);
      }
    }
    MoveUnfold(root, Join(ps + [x]), Join(ts), q, d, p);
    MoveNodeToDir(root, ps, p, j, ts, d, x);
  }

  /** `MoveNode` of child `x` of the directory at `p` into the directory at
      `d`, reached by `ts`, outside the child's subtree and without a child
      `x`. */
  lemma MoveNodeToDir(root: Node, ps: seq<string>, p: seq<nat>, j: nat, ts: seq<string>, d: seq<nat>, x: string)
    requires root.Dir? && Segments(ps) && |ps| > 0 && Segment(x) && Segments(ts) && |ts| > 0
    requires Walk(root, ps) == Some(p) && At(root, p).Dir? && StrictlySorted(At(root, p).children)
    requires j < |At(root, p).children| && At(root, p).children[j].name == x
    requires Walk(root, ts) == Some(d) && At(root, d).Dir? && StrictlySorted(At(root, d).children)
    requires !HasChild(At(root, d).children, x) && !IsPrefix(p + [j], d)
    ensures ValidPath(root, p + [j])
    ensures var r := MoveNode(root, p + [j], d, p);
            && r.Ok?
            && GetNodeInfo(r.value, Join(ts + [x])) == Some(At(root, p).children[j])
            && !NodeExists(r.value, Join(ps + [x]))
  {
    var node := At(root, p).children[j];
    assert d != p;
    MoveNodeErase(root, p, j, d);
    DestAfterRemove(root, p, j, ts, d);
    var removed := RemoveAt(root, p, j);
    var d1 := Shift(d, p, j).value;
    SameNamesKeep(At(removed, d1).children, At(root, d).children, x);
    DestReceives(removed, d1, node, ts, x);
    SourceAfterRemove(root, ps, p, j);
    assert d1 != p by {
      if |d| <= |p| {
        assert d1 == d;
      }
    }
    SourceGone(removed, p, d1, node, ps, x);
  }

  /** After child `j` of the directory at `p` is erased, the names `ps` of
      that directory still lead to it, and none of its children is named
      like the erased one. */
  lemma SourceAfterRemove(root: Node, ps: seq<string>, p: seq<nat>, j: nat)
    requires root.Dir? && Walk(root, ps) == Some(p) && At(root, p).Dir? && StrictlySorted(At(root, p).children)
    requires j < |At(root, p).children|
    ensures var removed := RemoveAt(root, p, j);
            && removed.Dir? && Walk(removed, ps) == Some(p) && ValidPath(removed, p) && At(removed, p).Dir?
            && StrictlySorted(At(removed, p).children)
            && !HasChild(At(removed, p).children, At(root, p).children[j].name)
  {
    var cs := At(root, p).children;
    var m1 := At(root, p).(children := cs[..j] + cs[j + 1..]);
    WalkBeside(root, p, m1, ps, p);
    PutAt(root, p, m1);
    NoOtherWithName(cs, j);
    RemoveKeepsStrict(cs, j);
    RemoveAtUnfold(root, p, j);
  }

  /** A destination `/t1/.../tm` at which `/t1/.../tm/x` resolves to
      nothing holds no child `x`. */
  lemma DestLacksName(root: Node, ts: seq<string>, d: seq<nat>, x: string)
    requires root.Dir? && Segments(ts) && |ts| > 0 && Segment(x)
    requires Walk(root, ts) == Some(d) && At(root, d).Dir? && StrictlySorted(At(root, d).children)
    requires !NodeExists(root, Join(ts + [x]))
    ensures !HasChild(At(root, d).children, x)
  {
    StrictlySortedIsSorted(At(root, d).children);
    SegmentsSnoc(ts, x);
    LocateJoin(root, ts + [x]);
    WalkSnoc(root, ts, x);
  }

  /** The names of a path in the subtree of `/s1/.../sn/x` start with
      those of that path. */
  lemma SubtreeNames(ps: seq<string>, x: string, ts: seq<string>)
    requires Segments(ps) && Segment(x) && Segments(ts)
    ensures Segments(ps + [x] + ts) && Segments(ps + [x])
    ensures (ps + [x] + ts)[..|ps| + 1] == ps + [x]
  {
  }

  /** `Move` of `/s1/.../sn/x` to a directory in its own subtree,
      `/s1/.../sn/x/t1/.../tm` or the node itself, is not rejected: the
      node is erased from its directory, the destination goes with it, and
      the tree is what `Delete` of the node leaves. */
  lemma MoveIntoOwnSubtree(root: Node, ps: seq<string>, p: seq<nat>, x: string, ts: seq<string>)
    requires root.Dir? && Segments(ps) && |ps| > 0 && Segment(x) && Segments(ts)
    requires Walk(root, ps) == Some(p) && At(root, p).Dir?
    requires StrictlySorted(At(root, p).children) && HasChild(At(root, p).children, x)
    requires var dst := GetNodeInfo(root, Join(ps + [x] + ts)); dst.Some? && dst.value.Dir?
    ensures var r := Move(root, Join(ps + [x]), Join(ps + [x] + ts));
            && r.Ok?
            && r == Delete(root, Join(ps + [x]))
            && !NodeExists(r.value, Join(ps + [x]))
  {
    var cs := At(root, p).children;
    StrictlySortedIsSorted(cs);
    ChildLookup(root, ps, p, x);
    var j := Search(cs, x).value;
    var q := p + [j];
    var all := ps + [x] + ts;
    SubtreeNames(ps, x, ts);
    LocateJoin(root, all);
    LocateJoin(root, ps + [x]);
    var d := Walk(root, all).value;
    WalkPrefix(root, all, d, |ps| + 1);
    assert IsPrefix(q, d);
    MoveUnfold(root, Join(ps + [x]), Join(all), q, d, p);
    RemovedGone(cs, j);
    ShiftInside(d, p, j);
    DeleteUnfold(root, Join(ps + [x]), q, p);
    DeleteRemovesChild(root, ps, p, x);
  }

  // ---- Top-level paths ----

  /** The parent of a top-level path `/x` is `""`, which resolves to no
      node. */
  lemma TopLevelParent(root: Node, x: string)
    requires root.Dir? && Segment(x)
    ensures ExtractPath("/" + x) == "" && ExtractName("/" + x) == x
    ensures Locate(root, "").None?
  {
    ExtractJoin([x]);
    assert Join([x]) == "/" + x;
    assert [x][..0] == [];
    SplitPathOfRoot();
  }

  /** `Delete` of an existing top-level node dereferences a null parent. */
  lemma DeleteTopLevelUndefined(root: Node, x: string)
    requires root.Dir? && Segment(x) && NodeExists(root, "/" + x)
    ensures Delete(root, "/" + x) == Undefined
  {
    TopLevelParent(root, x);
  }

  /** `Rename` of an existing top-level node throws when the new name is
      taken and otherwise dereferences a null parent. */
  lemma RenameTopLevelUndefined(root: Node, x: string, y: string)
    requires root.Dir? && Segment(x) && NodeExists(root, "/" + x)
    ensures Rename(root, "/" + x, y) == if NodeExists(root, "/" + y) then Err(NODE_ALREADY_EXISTS) else Undefined
  {
    TopLevelParent(root, x);
    assert "" + "/" + y == "/" + y;
  }

  /** `Move` of an existing top-level node into a directory dereferences a
      null parent. */
  lemma MoveTopLevelUndefined(root: Node, x: string, to: string)
    requires root.Dir? && Segment(x) && NodeExists(root, "/" + x)
    requires GetNodeInfo(root, to).Some? && GetNodeInfo(root, to).value.Dir?
    ensures Move(root, "/" + x, to) == Undefined
  {
    TopLevelParent(root, x);
  }

  /** `Copy` to a free top-level name dereferences a null parent. */
  lemma CopyToTopLevelUndefined(root: Node, from: string, y: string)
    requires root.Dir? && Segment(y) && NodeExists(root, from) && !NodeExists(root, "/" + y)
    ensures Copy(root, from, "/" + y) == Undefined
  {
    TopLevelParent(root, y);
  }

  /** `Open` with `WRITE` of a missing top-level file creates nothing and
      returns no stream, without throwing. */
  lemma OpenTopLevelNoStream(root: Node, x: string, mode: Mode)
    requires root.Dir? && Segment(x) && !NodeExists(root, "/" + x) && Has(mode, WRITE)
    ensures Open(root, "/" + x, mode) == Ok((root, None))
  {
    TopLevelParent(root, x);
  }
}

=== FILE: facade_lemmas.dfy ===
/** Properties of the facade: every operation keeps child lists sorted, a
    path made by `CreateDir` resolves to a directory, and the operations do
    what their names say on well-formed paths, while the parent of a
    top-level path does not resolve. */
module VfsProperties {
  import opened Results
  import opened FileContent
  import opened Names
  import opened Nodes
  import opened Directory
  import opened Tree
  import opened Paths
  import opened Stream
  import opened Vfs

  // ---- Sortedness ----

  lemma {:induction false} CreateInKeepsSorted(n: Node, segs: seq<string>, force: bool)
    requires n.Dir? && SortedTree(n) && CreateIn(n, segs, force).Ok?
    ensures SortedTree(CreateIn(n, segs, force).value)
    decreases |segs|
  {
    if |segs| > 0 {
      var cs := n.children;
      match Search(cs, segs[0])
      case None =>
        var made := CreateIn(Dir(segs[0], []), segs[1..], force);
        CreateInKeepsSorted(Dir(segs[0], []), segs[1..], force);
        InsertedSorted(cs, made.value);
      case Some(k) =>
        var c := cs[k];
        CreateInKeepsSorted(c, segs[1..], force);
        var sub := CreateIn(c, segs[1..], force).value;
        assert SameNames(cs, cs[k := sub]);
        assert Sorted(cs[k := sub]);
    }
  }

  /** `CreateDir` keeps every child list sorted. */
  lemma CreateDirKeepsSorted(root: Node, path: string, force: bool)
    requires root.Dir? && SortedTree(root) && CreateDir(root, path, force).Ok?
    ensures SortedTree(CreateDir(root, path, force).value)
  {
    CreateInKeepsSorted(root, SplitPath(path), force);
  }

  /** `Open` keeps every child list sorted. */
  lemma OpenKeepsSorted(root: Node, path: string, mode: Mode)
    requires root.Dir? && SortedTree(root) && Open(root, path, mode).Ok?
    ensures SortedTree(Open(root, path, mode).value.0)
  {
    var p := Locate(root, path);
    if p.Some? {
      var node := At(root, p.value);
      PutSorted(root, p.value, node.(data := Construct(node.name, node.data, mode).data));
    } else if Locate(root, ExtractPath(path)).Some? {
      var pp := Locate(root, ExtractPath(path)).value;
      var name := ExtractName(path);
      AppendSorted(root, File(name, Construct(name, NewFile, mode).data), pp);
    }
  }

  /** `Rename` keeps every child list sorted. */
  lemma RenameKeepsSorted(root: Node, path: string, name: string)
    requires root.Dir? && SortedTree(root) && Rename(root, path, name).Ok?
    ensures SortedTree(Rename(root, path, name).value)
  {
    RenamedSorted(root, Locate(root, ExtractPath(path)).value, ExtractName(path), name);
  }

  /** `Delete` keeps every child list sorted. */
  lemma DeleteKeepsSorted(root: Node, path: string)
    requires root.Dir? && SortedTree(root) && Delete(root, path).Ok?
    ensures SortedTree(Delete(root, path).value)
  {
    var node := At(root, Locate(root, path).value);
    var pp := Locate(root, ExtractPath(path)).value;
    var k := EraseIndex(At(root, pp).children, node.name);
    if k.Some? {
      RemoveAtSorted(root, pp, k.value);
    }
  }

  /** `Copy` keeps every child list sorted. */
  lemma CopyKeepsSorted(root: Node, from: string, to: string)
    requires root.Dir? && SortedTree(root) && Copy(root, from, to).Ok?
    ensures SortedTree(Copy(root, from, to).value)
  {
    var src := Locate(root, from).value;
    var copy := CopyNode(At(root, src)).(name := ExtractName(to));
    CopySorted(root, src, ExtractName(to));
    AppendSorted(root, copy, Locate(root, ExtractPath(to)).value);
  }

  /** `Move` keeps every child list sorted. */
  lemma MoveKeepsSorted(root: Node, from: string, to: string)
    requires root.Dir? && SortedTree(root) && Move(root, from, to).Ok?
    ensures SortedTree(Move(root, from, to).value)
  {
    MoveNodeKeepsSorted(root, Locate(root, from).value, Locate(root, to).value,
                        Locate(root, ExtractPath(from)).value);
  }

  lemma MoveNodeKeepsSorted(root: Node, q: seq<nat>, d: seq<nat>, pp: seq<nat>)
    requires root.Dir? && ValidPath(root, q) && ValidPath(root, d) && At(root, d).Dir? && ValidPath(root, pp)
    requires SortedTree(root) && MoveNode(root, q, d, pp).Ok?
    ensures SortedTree(MoveNode(root, q, d, pp).value)
  {
    var node := At(root, q);
    var k := EraseIndex(At(root, pp).children, node.name);
    SubtreeSorted(root, q);
    if k.None? {
      AppendSorted(root, node, d);
    } else {
      var removed := RemoveAt(root, pp, k.value);
      RemoveAtSorted(root, pp, k.value);
      var d' := Shift(d, pp, k.value);
      var s := Shift(q, pp, k.value);
      if d'.Some? {
        ShiftAfterRemove(root, pp, k.value, d);
        if s.None? {
          AppendSorted(removed, node, d'.value);
        } else {
          ShiftAfterRemove(root, pp, k.value, q);
          SubtreeSorted(removed, s.value);
          AppendSorted(removed, At(removed, s.value), d'.value);
        }
      }
    }
  }

  // ---- Walking paths ----

  /** The walk one name further from the node at `p`: into a directory's
      child of that name, and nowhere from a file. */
  function Step(n: Node, p: seq<nat>, x: string): (r: Option<seq<nat>>)
    requires ValidPath(n, p)
  {
    var d := At(n, p);
    if !d.Dir? then None
    else
      match Search(d.children, x)
      case None => None
      case Some(k) => Some(p + [k])
  }

  /** A path through child `k` continues in that child. */
  lemma AtCons(n: Node, k: nat, q: seq<nat>)
    requires n.Dir? && k < |n.children| && ValidPath(n.children[k], q)
    ensures ValidPath(n, [k] + q) && At(n, [k] + q) == At(n.children[k], q)
  {
    assert ([k] + q)[1..] == q;
  }

  /** Walking one more name is one more `Step`. */
  lemma {:induction false} WalkSnoc(n: Node, ps: seq<string>, x: string)
    requires n.Dir?
    ensures Walk(n, ps + [x]) == (if Walk(n, ps).Some? then Step(n, Walk(n, ps).value, x) else None)
    decreases |ps|
  {
    if |ps| == 0 {
      WalkSnocEmpty(n, ps, x);
    } else {
      match Search(n.children, ps[0])
      case None =>
        assert (ps + [x])[0] == ps[0];
      case Some(k) =>
        if n.children[k].Dir? {
          WalkSnoc(n.children[k], ps[1..], x);
          WalkSnocInto(n, ps, x, k);
        } else {
          WalkSnocAtFile(n, ps, x, k);
        }
    }
  }

  lemma WalkSnocEmpty(n: Node, ps: seq<string>, x: string)
    requires n.Dir? && |ps| == 0
    ensures Walk(n, ps + [x]) == Step(n, [], x) && Walk(n, ps) == Some([])
  {
    assert ps + [x] == [x] && [x][1..] == [];
    match Search(n.children, x)
    case None =>
    case Some(k) =>
      if n.children[k].Dir? {
        assert Walk(n.children[k], []) == Some([]);
      }
      assert [k] + [] == [] + [k] == [k];
      assert Walk(n, [x]) == Some([k]);
      assert Step(n, [], x) == Some([k]);
  }

  /** `WalkSnoc` when the first name is a file: no walk goes past it. */
  lemma WalkSnocAtFile(n: Node, ps: seq<string>, x: string, k: nat)
    requires n.Dir? && |ps| > 0 && Search(n.children, ps[0]) == Some(k) && !n.children[k].Dir?
    ensures Walk(n, ps + [x]) == (if Walk(n, ps).Some? then Step(n, Walk(n, ps).value, x) else None)
  {
    assert (ps + [x])[0] == ps[0];
    if |ps| == 1 {
      AtCons(n, k, []);
      assert [k] + [] == [k];
    }
  }

  /** `WalkSnoc` when the first name is a directory, given `WalkSnoc`
      inside it. */
  lemma WalkSnocInto(n: Node, ps: seq<string>, x: string, k: nat)
    requires n.Dir? && |ps| > 0 && Search(n.children, ps[0]) == Some(k) && n.children[k].Dir?
    requires var c := n.children[k];
             Walk(c, ps[1..] + [x]) == (if Walk(c, ps[1..]).Some? then Step(c, Walk(c, ps[1..]).value, x) else None)
    ensures Walk(n, ps + [x]) == (if Walk(n, ps).Some? then Step(n, Walk(n, ps).value, x) else None)
  {
    var c := n.children[k];
    ConsSplit(ps, [x]);
    ConsSplit(ps, []);
    assert ps[1..] + [] == ps[1..];
    WalkCons(n, ps[0], ps[1..] + [x], k);
    WalkCons(n, ps[0], ps[1..], k);
    var w := Walk(c, ps[1..]);
    if w.Some? {
      StepCons(n, k, w.value, x);
    }
  }

  /** A step from a path through child `k` is a step inside that child. */
  lemma StepCons(n: Node, k: nat, w: seq<nat>, x: string)
    requires n.Dir? && k < |n.children| && ValidPath(n.children[k], w)
    ensures ValidPath(n, [k] + w)
    ensures Step(n, [k] + w, x) == Prefixed([k], Step(n.children[k], w, x))
  {
    var c := n.children[k];
    AtCons(n, k, w);
    var st := Step(c, w, x);
    if st.Some? {
      assert [k] + st.value == ([k] + w) + [st.value[|st.value| - 1]];
    }
  }

  /** A walk over names is a walk over the joined path. */
  lemma LocateJoin(root: Node, segs: seq<string>)
    requires root.Dir? && Segments(segs) && |segs| > 0
    ensures Locate(root, Join(segs)) == Walk(root, segs)
  {
    SplitPathJoin(segs);
  }

  /** A walk result below the node at `p`, seen from above it. */
  function Prefixed(p: seq<nat>, w: Option<seq<nat>>): Option<seq<nat>>
  {
    if w.Some? then Some(p + w.value) else None
  }

  lemma PrefixedTwice(a: seq<nat>, b: seq<nat>, w: Option<seq<nat>>)
    ensures Prefixed(a, Prefixed(b, w)) == Prefixed(a + b, w)
  {
    if w.Some? {
      assert a + (b + w.value) == (a + b) + w.value;
    }
  }

  /** A walk that finds a directory by its first name goes on inside it. */
  lemma WalkCons(n: Node, s: string, t: seq<string>, k: nat)
    requires n.Dir? && Search(n.children, s) == Some(k) && n.children[k].Dir?
    ensures Walk(n, [s] + t) == Prefixed([k], Walk(n.children[k], t))
  {
    assert ([s] + t)[0] == s && ([s] + t)[1..] == t;
  }

  /** A successful walk over a non-empty name list starts with the
      child the search finds for the first name and goes on inside it. */
  lemma WalkHead(n: Node, ps: seq<string>, p: seq<nat>)
    requires n.Dir? && |ps| > 0 && Walk(n, ps) == Some(p)
    ensures |p| > 0 && Search(n.children, ps[0]) == Some(p[0])
    ensures n.children[p[0]].Dir? ==> Walk(n.children[p[0]], ps[1..]) == Some(p[1..])
    ensures !n.children[p[0]].Dir? ==> |p| == 1
  {
  }

  /** A walk over the first `i` names stops at the first `i` indices of the
      whole walk. */
  lemma {:induction false} WalkPrefix(n: Node, ts: seq<string>, w: seq<nat>, i: nat)
    requires n.Dir? && Walk(n, ts) == Some(w) && i <= |ts|
    ensures Walk(n, ts[..i]) == Some(w[..i])
    decreases |ts|
  {
    if i == 0 {
      assert ts[..0] == [] && w[..0] == [];
    } else {
      WalkHead(n, ts, w);
      var k := w[0];
      var c := n.children[k];
      if c.Dir? {
        WalkPrefix(c, ts[1..], w[1..], i - 1);
        PrefixWalk(n, ts, k, i);
        assert [k] + w[1..][..i - 1] == w[..i];
      } else {
        assert ts[..i] == ts && w[..i] == w;
      }
    }
  }

  /** The names of a walk are those of the nodes it passes: two name lists
      that walk to the same indices are equal. */
  lemma {:induction false} WalkInjective(n: Node, a: seq<string>, b: seq<string>, w: seq<nat>)
    requires n.Dir? && Walk(n, a) == Some(w) && Walk(n, b) == Some(w)
    ensures a == b
    decreases |w|
  {
    if |w| > 0 {
      WalkHead(n, a, w);
      WalkHead(n, b, w);
      var c := n.children[w[0]];
      if c.Dir? {
        WalkInjective(c, a[1..], b[1..], w[1..]);
      }
      assert a == [a[0]] + a[1..] && b == [b[0]] + b[1..];
    }
  }

  /** Replacing a child by a directory of the same name keeps a walk
      through it going into the new child. */
  lemma WalkIntoReplaced(n: Node, s: string, t: seq<string>, k: nat, pc: Node)
    requires n.Dir? && Search(n.children, s) == Some(k)
    requires pc.Dir? && pc.name == n.children[k].name
    ensures Walk(n.(children := n.children[k := pc]), [s] + t) == Prefixed([k], Walk(pc, t))
  {
    var nn := n.(children := n.children[k := pc]);
    assert SameNames(n.children, nn.children);
    SearchNamesOnly(n.children, nn.children, s);
    WalkCons(nn, s, t, k);
  }

  lemma ConsSplit(ps: seq<string>, rest: seq<string>)
    requires |ps| > 0
    ensures ps + rest == [ps[0]] + (ps[1..] + rest)
  {
  }

  lemma WalkThroughPutRoot(n: Node, ps: seq<string>, p: seq<nat>, m: Node, rest: seq<string>)
    requires n.Dir? && |ps| == 0 && Walk(n, ps) == Some(p) && m.Dir?
    ensures Walk(Put(n, p, m), ps + rest) == Prefixed(p, Walk(m, rest))
  {
    assert p == [] && ps + rest == rest;
    if Walk(m, rest).Some? {
      assert p + Walk(m, rest).value == Walk(m, rest).value;
    }
  }

  /** Replacing the directory a walk reaches by another directory of the
      same name leaves the walk to it unchanged and continues it in the
      new directory. */
  lemma {:induction false} WalkThroughPut(n: Node, ps: seq<string>, p: seq<nat>, m: Node, rest: seq<string>)
    requires n.Dir? && Walk(n, ps) == Some(p) && At(n, p).Dir? && m.Dir? && m.name == At(n, p).name
    ensures Put(n, p, m).Dir?
    ensures Walk(Put(n, p, m), ps + rest) == Prefixed(p, Walk(m, rest))
    decreases |ps|
  {
    if |ps| == 0 {
      WalkThroughPutRoot(n, ps, p, m, rest);
    } else {
      WalkHead(n, ps, p);
      var k := p[0];
      var q := p[1..];
      var c := n.children[k];
      AtCons(n, k, q);
      assert p == [k] + q;
      assert c.Dir? by {
        if |q| == 0 {
          assert At(c, q) == c;
        }
      }
      var pc := Put(c, q, m);
      var nn := n.(children := n.children[k := pc]);
      assert Put(n, p, m) == nn;
      WalkThroughPut(c, ps[1..], q, m, rest);
      assert pc.Dir? && pc.name == c.name by {
        if |q| == 0 {
          assert At(c, q) == c;
        }
      }
      ConsSplit(ps, rest);
      WalkIntoReplaced(n, ps[0], ps[1..] + rest, k, pc);
      PrefixedTwice([k], q, Walk(m, rest));
      assert Walk(nn, ps + rest) == Prefixed(p, Walk(m, rest));
    }
  }

  /** Replacing a directory by another directory of the same name leaves
      every walk that does not go below it where it was. */
  lemma {:induction false} WalkBeside(n: Node, q: seq<nat>, m: Node, ts: seq<string>, w: seq<nat>)
    requires n.Dir? && ValidPath(n, q) && At(n, q).Dir? && m.Dir? && m.name == At(n, q).name
    requires Walk(n, ts) == Some(w) && !(IsPrefix(q, w) && |w| > |q|)
    ensures Put(n, q, m).Dir?
    ensures Walk(Put(n, q, m), ts) == Some(w)
    decreases |ts|
  {
    if |ts| > 0 {
      WalkHead(n, ts, w);
      var k := q[0];
      var c := n.children[k];
      var pc := Put(c, q[1..], m);
      var nn := n.(children := n.children[k := pc]);
      assert Put(n, q, m) == nn;
      assert pc.Dir? && pc.name == c.name && c.Dir? by {
        assert At(n, q) == At(c, q[1..]);
      }
      assert SameNames(n.children, nn.children);
      SearchNamesOnly(n.children, nn.children, ts[0]);
      if w[0] == k {
        PrefixCons(q, w);
        WalkBeside(c, q[1..], m, ts[1..], w[1..]);
        assert w == [k] + w[1..];
      }
    }
  }

  /** A walk from a directory whose first step lands on a child another
      directory also holds at `k2`, where the search for its name finds
      it, goes the same way below that child. */
  lemma WalkSwapChild(dir: Node, m: Node, rest: seq<string>, v: seq<nat>, k2: nat)
    requires dir.Dir? && m.Dir? && Walk(dir, rest) == Some(v) && |rest| > 0
    requires k2 < |m.children| && Search(m.children, m.children[k2].name) == Some(k2)
    requires |v| > 0 && v[0] < |dir.children| && m.children[k2] == dir.children[v[0]]
    ensures Walk(m, rest) == Some([k2] + v[1..])
    ensures ValidPath(m, [k2] + v[1..]) && At(m, [k2] + v[1..]) == At(dir, v)
  {
    WalkHead(dir, rest, v);
    var c := dir.children[v[0]];
    assert v == [v[0]] + v[1..];
    AtCons(dir, v[0], v[1..]);
    AtCons(m, k2, v[1..]);
    if !c.Dir? {
      assert [k2] + v[1..] == [k2];
    }
  }

  /** Replacing the child list of the directory at `q` by one that holds
      the child a walk goes through at `k2`, where the search for its name
      finds it: the walk now takes `k2` there and reaches the same node. */
  lemma WalkReindex(n: Node, q: seq<nat>, cs2: seq<Node>, k2: nat, ts: seq<string>, w: seq<nat>)
    requires n.Dir? && ValidPath(n, q) && At(n, q).Dir?
    requires Walk(n, ts) == Some(w) && IsPrefix(q, w) && |w| > |q|
    requires k2 < |cs2| && w[|q|] < |At(n, q).children|
    requires cs2[k2] == At(n, q).children[w[|q|]] && Search(cs2, cs2[k2].name) == Some(k2)
    ensures var r := WithChildren(n, q, cs2);
            && r.Dir?
            && Walk(r, ts) == Some(w[|q| := k2])
            && ValidPath(n, w) && ValidPath(r, w[|q| := k2])
            && At(r, w[|q| := k2]) == At(n, w)
  {
    var dir := At(n, q);
    var m := dir.(children := cs2);
    var i := |q|;
    WalkPrefix(n, ts, w, i);
    WalkSplit(n, ts, i, q, m);
    WalkSplit(n, ts, i, q, dir);
    PutSame(n, q);
    var v := Walk(dir, ts[i..]).value;
    WalkSwapChild(dir, m, ts[i..], v, k2);
    UpdateSplit(q, v, k2);
    PutAt(n, q, m);
    AtConcat(WithChildren(n, q, cs2), q, [k2] + v[1..]);
    AtConcat(n, q, v);
  }

  /** `WalkThroughPut` for a walk split after its first `i` names. */
  lemma WalkSplit(n: Node, ts: seq<string>, i: nat, q: seq<nat>, m: Node)
    requires n.Dir? && i <= |ts| && Walk(n, ts[..i]) == Some(q) && At(n, q).Dir? && m.Dir? && m.name == At(n, q).name
    ensures Put(n, q, m).Dir? && Walk(Put(n, q, m), ts) == Prefixed(q, Walk(m, ts[i..]))
  {
    WalkThroughPut(n, ts[..i], q, m, ts[i..]);
    SplitEq(ts, i);
    WalkEq(Put(n, q, m), ts[..i] + ts[i..], ts);
  }

  lemma SplitEq(ts: seq<string>, i: nat)
    requires i <= |ts|
    ensures ts[..i] + ts[i..] == ts
  {
  }

  lemma WalkEq(n: Node, a: seq<string>, b: seq<string>)
    requires n.Dir? && a == b
    ensures Walk(n, a) == Walk(n, b)
  {
  }

  /** Changing the index right after `q` on the path `q + v`. */
  lemma UpdateSplit(q: seq<nat>, v: seq<nat>, k: nat)
    requires |v| > 0
    ensures (q + v)[|q| := k] == q + ([k] + v[1..])
  {
  }

  // ---- CreateDir ----

  /** A child inserted into a sorted list without one of its name is what
      the search for its name then finds. */
  lemma InsertedFound(cs: seq<Node>, child: Node)
    requires Sorted(cs) && !HasChild(cs, child.name)
    ensures var r := InsertChild(cs, child);
            Search(r, child.name).Some? && r[Search(r, child.name).value] == child
  {
    var r := InsertChild(cs, child);
    var q :| 0 <= q <= |cs| && r == cs[..q] + [child] + cs[q..];
    assert r[q] == child;
    forall i | 0 <= i < |r| && i != q
      ensures r[i].name != child.name
    {
      if i < q {
        assert r[i] == cs[i];
      } else {
        assert r[i] == cs[i - 1];
      }
    }
  }

  lemma {:induction false} CreateInMakesPath(n: Node, segs: seq<string>, force: bool)
    requires n.Dir? && SortedTree(n) && CreateIn(n, segs, force).Ok?
    ensures var r := CreateIn(n, segs, force).value;
            Walk(r, segs).Some? && At(r, Walk(r, segs).value).Dir?
    decreases |segs|
  {
    if |segs| > 0 {
      var cs := n.children;
      var r := CreateIn(n, segs, force).value;
      match Search(cs, segs[0])
      case None =>
        var made := CreateIn(Dir(segs[0], []), segs[1..], force).value;
        CreateInMakesPath(Dir(segs[0], []), segs[1..], force);
        InsertedFound(cs, made);
        var j := Search(r.children, segs[0]).value;
        AtCons(r, j, Walk(made, segs[1..]).value);
      case Some(k) =>
        var c := cs[k];
        var sub := CreateIn(c, segs[1..], force).value;
        CreateInMakesPath(c, segs[1..], force);
        SearchNamesOnly(cs, r.children, segs[0]);
        AtCons(r, k, Walk(sub, segs[1..]).value);
    }
  }

  /** When `CreateDir` returns normally for a
      path with at least one name, `GetNodeInfo` of that path is a
      directory. */
  lemma CreateDirMakesPath(root: Node, path: string, force: bool)
    requires root.Dir? && SortedTree(root) && CreateDir(root, path, force).Ok? && |SplitPath(path)| > 0
    ensures var r := CreateDir(root, path, force).value;
            GetNodeInfo(r, path).Some? && GetNodeInfo(r, path).value.Dir?
  {
    CreateInMakesPath(root, SplitPath(path), force);
  }

  /** A walk over the names `segs[..i]` reaches a file. */
  predicate ReachesFile(n: Node, t: seq<string>)
    requires n.Dir?
  {
    var w := Walk(n, t);
    w.Some? && At(n, w.value).File?
  }

  /** Some name of `segs`, walked to from `n`, is a file. */
  predicate FileOnWay(n: Node, segs: seq<string>)
    requires n.Dir?
  {
    exists i :: 1 <= i <= |segs| && ReachesFile(n, segs[..i])
  }

  /** The names before the last do not lead to a node. */
  predicate ParentMissing(n: Node, segs: seq<string>)
    requires n.Dir?
  {
    |segs| > 1 && Walk(n, segs[..|segs| - 1]).None?
  }

  lemma HeadPrefix(segs: seq<string>, i: nat)
    requires 1 <= i <= |segs|
    ensures segs[..i] == [segs[0]] + segs[1..][..i - 1]
  {
  }

  /** A walk over the first `i` names, of which the first is found. */
  lemma PrefixWalk(n: Node, segs: seq<string>, k: nat, i: nat)
    requires n.Dir? && |segs| > 0 && Search(n.children, segs[0]) == Some(k) && n.children[k].Dir?
    requires 1 <= i <= |segs|
    ensures Walk(n, segs[..i]) == Prefixed([k], Walk(n.children[k], segs[1..][..i - 1]))
    ensures ReachesFile(n, segs[..i]) <==> ReachesFile(n.children[k], segs[1..][..i - 1])
  {
    HeadPrefix(segs, i);
    WalkCons(n, segs[0], segs[1..][..i - 1], k);
    var w := Walk(n.children[k], segs[1..][..i - 1]);
    if w.Some? {
      AtCons(n, k, w.value);
    }
  }

  /** A walk whose first name is missing leads nowhere. */
  lemma PrefixMissing(n: Node, segs: seq<string>, i: nat)
    requires n.Dir? && |segs| > 0 && Search(n.children, segs[0]).None? && 1 <= i <= |segs|
    ensures Walk(n, segs[..i]).None?
  {
    assert segs[..i][0] == segs[0];
  }

  /** `CreateDir` throws exactly when a name on
      the way is a file, or, without `force`, when a name before the last
      is missing. */
  lemma {:induction false} CreateInFails(n: Node, segs: seq<string>, force: bool)
    requires n.Dir?
    ensures CreateIn(n, segs, force).Err? <==> FileOnWay(n, segs) || (!force && ParentMissing(n, segs))
    decreases |segs|
  {
    if |segs| > 0 {
      match Search(n.children, segs[0])
      case None =>
        CreateInFailsMissing(n, segs, force);
      case Some(k) =>
        if !n.children[k].Dir? {
          CreateInFailsAtFile(n, segs, force, k);
        } else {
          CreateInFails(n.children[k], segs[1..], force);
          CreateInFailsBelow(n, segs, force, k);
        }
    }
  }

  /** `CreateIn` when the first name is missing: it throws exactly when
      more names follow and `force` is not set. */
  lemma CreateInFailsMissing(n: Node, segs: seq<string>, force: bool)
    requires n.Dir? && |segs| > 0 && Search(n.children, segs[0]).None?
    ensures CreateIn(n, segs, force).Err? <==> FileOnWay(n, segs) || (!force && ParentMissing(n, segs))
  {
    forall i | 1 <= i <= |segs|
      ensures !ReachesFile(n, segs[..i])
    {
      PrefixMissing(n, segs, i);
    }
    if |segs| > 1 {
      PrefixMissing(n, segs, |segs| - 1);
    }
    if force {
      CreateInNeverFails(Dir(segs[0], []), segs[1..]);
    }
  }

  /** `CreateIn` when the first name is a file: it throws. */
  lemma CreateInFailsAtFile(n: Node, segs: seq<string>, force: bool, k: nat)
    requires n.Dir? && |segs| > 0 && Search(n.children, segs[0]) == Some(k) && !n.children[k].Dir?
    ensures CreateIn(n, segs, force).Err? && FileOnWay(n, segs)
  {
    assert segs[..1] == [segs[0]];
    assert Walk(n, segs[..1]) == Some([k]);
    assert ReachesFile(n, segs[..1]);
  }

  /** `CreateIn` when the first name is a directory: it throws exactly
      when creating the other names below that directory throws. */
  lemma CreateInFailsBelow(n: Node, segs: seq<string>, force: bool, k: nat)
    requires n.Dir? && |segs| > 0 && Search(n.children, segs[0]) == Some(k) && n.children[k].Dir?
    requires var c := n.children[k];
             CreateIn(c, segs[1..], force).Err? <==> FileOnWay(c, segs[1..]) || (!force && ParentMissing(c, segs[1..]))
    ensures CreateIn(n, segs, force).Err? <==> FileOnWay(n, segs) || (!force && ParentMissing(n, segs))
  {
    assert CreateIn(n, segs, force).Err? <==> CreateIn(n.children[k], segs[1..], force).Err?;
    FileOnWayBelow(n, segs, k);
    ParentMissingBelow(n, segs, k);
  }

  /** Below a first name that is a directory, a file lies on the way
      exactly when one lies on the way of the other names. */
  lemma FileOnWayBelow(n: Node, segs: seq<string>, k: nat)
    requires n.Dir? && |segs| > 0 && Search(n.children, segs[0]) == Some(k) && n.children[k].Dir?
    ensures FileOnWay(n, segs) <==> FileOnWay(n.children[k], segs[1..])
  {
    var c := n.children[k];
    var t := segs[1..];
    if FileOnWay(n, segs) {
      var i :| 1 <= i <= |segs| && ReachesFile(n, segs[..i]);
      PrefixWalk(n, segs, k, i);
      assert ReachesFile(c, t[..i - 1]);
    }
    if FileOnWay(c, t) {
      var j :| 1 <= j <= |t| && ReachesFile(c, t[..j]);
      PrefixWalk(n, segs, k, j + 1);
    }
  }

  /** Below a first name that is a directory, the names before the last
      are missing exactly when those after the first are. */
  lemma ParentMissingBelow(n: Node, segs: seq<string>, k: nat)
    requires n.Dir? && |segs| > 0 && Search(n.children, segs[0]) == Some(k) && n.children[k].Dir?
    ensures ParentMissing(n, segs) <==> ParentMissing(n.children[k], segs[1..])
  {
    var c := n.children[k];
    var t := segs[1..];
    if |segs| > 1 {
      PrefixWalk(n, segs, k, |segs| - 1);
      if |t| == 1 {
        assert Walk(c, t[..0]) == Some([]);
      }
    }
  }

  /** With `force`, creating below a new empty directory always succeeds. */
  lemma {:induction false} CreateInNeverFails(n: Node, segs: seq<string>)
    requires n.Dir? && |n.children| == 0
    ensures CreateIn(n, segs, true).Ok?
    decreases |segs|
  {
    if |segs| > 0 {
      CreateInNeverFails(Dir(segs[0], []), segs[1..]);
    }
  }

  /** `CreateDir` throws exactly when a name of the path walks to a file,
      or, without `Force`, when the names before the last do not lead to a
      node. */
  lemma CreateDirFails(root: Node, path: string, force: bool)
    requires root.Dir?
    ensures CreateDir(root, path, force) == Err(CANT_CREATE_DIR) <==>
              FileOnWay(root, SplitPath(path)) || (!force && ParentMissing(root, SplitPath(path)))
  {
    CreateInFails(root, SplitPath(path), force);
  }
}

=== FILE: names.dfy ===
/** The ordering `std::string::operator<` puts on node names: lexicographic,
    character by character, a proper prefix sorting first. */
module Names {

  /** `a < b` on strings. */
  predicate Less(a: string, b: string)
    decreases |a|
  {
    if |b| == 0 then false
    else if |a| == 0 then true
    else if a[0] != b[0] then a[0] < b[0]
    else Less(a[1..], b[1..])
  }

  /** `a <= b` on strings. */
  predicate LessEq(a: string, b: string)
  {
    Less(a, b) || a == b
  }

  lemma {:induction false} LessIrreflexive(a: string)
    ensures !Less(a, a)
    decreases |a|
  {
    if |a| > 0 {
      LessIrreflexive(a[1..]);
    }
  }

  lemma {:induction false} LessAsymmetric(a: string, b: string)
    ensures !(Less(a, b) && Less(b, a))
    decreases |a|
  {
    if |a| > 0 && |b| > 0 && a[0] == b[0] {
      LessAsymmetric(a[1..], b[1..]);
    }
  }

  lemma {:induction false} LessTotal(a: string, b: string)
    ensures a == b || Less(a, b) || Less(b, a)
    decreases |a|
  {
    if |a| > 0 && |b| > 0 && a[0] == b[0] {
      LessTotal(a[1..], b[1..]);
      if a[1..] == b[1..] {
        assert a == [a[0]] + a[1..] && b == [b[0]] + b[1..];
      }
    }
  }

  lemma {:induction false} LessTransitive(a: string, b: string, c: string)
    requires Less(a, b) && Less(b, c)
    ensures Less(a, c)
    decreases |a|
  {
    if |a| > 0 && a[0] == b[0] && b[0] == c[0] {
      LessTransitive(a[1..], b[1..], c[1..]);
    }
  }

  /** Two names are related by exactly one of `<`, `==`, `>`. */
  lemma Trichotomy(a: string, b: string)
    ensures a == b || Less(a, b) || Less(b, a)
    ensures !(Less(a, b) && Less(b, a))
    ensures !Less(a, a)
  {
    LessTotal(a, b);
    LessAsymmetric(a, b);
    LessIrreflexive(a);
  }

  lemma LessEqTransitive(a: string, b: string, c: string)
    requires LessEq(a, b) && LessEq(b, c)
    ensures LessEq(a, c)
  {
    if Less(a, b) && Less(b, c) {
      LessTransitive(a, b, c);
    }
  }
}

=== FILE: nodes.dfy ===
/** The node tree: a directory holds its children in a sequence kept in
    ascending name order; a file holds chunked content. */
module Nodes {
  import opened FileContent
  import Names

  /** `CVFSNode` with its two kinds. Timestamps are not modelled. */
  datatype Node =
    | Dir(name: string, children: seq<Node>)
    | File(name: string, data: FileData)

  /** The order `InternalAppendChild` keeps: names never decrease. Equal
      names can occur, because `Move` does not check for them. */
  predicate Sorted(cs: seq<Node>)
  {
    forall i, j :: 0 <= i < j < |cs| ==> Names.LessEq(cs[i].name, cs[j].name)
  }

  /** Names strictly increase: no two siblings share a name. */
  predicate StrictlySorted(cs: seq<Node>)
  {
    forall i, j :: 0 <= i < j < |cs| ==> Names.Less(cs[i].name, cs[j].name)
  }

  /** Every directory in the tree keeps its children sorted. */
  predicate SortedTree(n: Node)
    decreases n
  {
    n.Dir? ==> Sorted(n.children) && forall i :: 0 <= i < |n.children| ==> SortedTree(n.children[i])
  }

  /** `Copy()`: the directory copy constructor copies every child in order,
      the file copy constructor copies the chunks and the size. The copy is
      structurally identical to the original. */
  function CopyNode(n: Node): (r: Node)
    ensures r == n
    decreases n
  {
    match n
    case File(name, data) => File(name, CopyData(data))
    case Dir(name, cs) =>
      var copied := seq(|cs|, i requires 0 <= i < |cs| => CopyNode(cs[i]));
      assert copied == cs;
      Dir(name, copied)
  }
}

=== FILE: paths.dfy ===
/** Path utilities of the facade: `SplitPath`, `ExtractPath` and `ExtractName`,
    together with the canonical form `/s1/s2/.../sn` they are meant for. */
module Paths {
  import opened Results

  /** A path segment as `SplitPath` produces it: non-empty, without `/`. */
  predicate Segment(s: string)
  {
    |s| > 0 && '/' !in s
  }

  predicate Segments(segs: seq<string>)
  {
    forall i :: 0 <= i < |segs| ==> Segment(segs[i])
  }

  /** All segments written one after another. */
  function Concat(segs: seq<string>): string
  {
    if |segs| == 0 then "" else segs[0] + Concat(segs[1..])
  }

  /** The path with every `/` deleted. */
  function RemoveSlashes(s: string): string
  {
    if |s| == 0 then ""
    else (if s[0] == '/' then "" else [s[0]]) + RemoveSlashes(s[1..])
  }

  /** The canonical absolute path `/s1/.../sn`; the empty sequence gives "". */
  function Join(segs: seq<string>): string
  {
    if |segs| == 0 then "" else "/" + segs[0] + Join(segs[1..])
  }

  /** `s.find(c)`: the first index holding `c`. */
  function FindFirst(s: string, c: char): (r: Option<nat>)
    ensures r.Some? ==> r.value < |s| && s[r.value] == c && c !in s[..r.value]
    ensures r.None? ==> c !in s
  {
    if |s| == 0 then None
    else if s[0] == c then Some(0)
    else match FindFirst(s[1..], c)
      case None => None
      case Some(i) => Some(i + 1)
  }

  /** `s.find_last_of(c, end - 1)`: the last index below `end` holding `c`. */
  function FindLast(s: string, c: char, end: nat): (r: Option<nat>)
    requires end <= |s|
    ensures r.Some? ==> r.value < end && s[r.value] == c && c !in s[r.value + 1..end]
    ensures r.None? ==> c !in s[..end]
  {
    if end == 0 then None
    else if s[end - 1] == c then Some(end - 1)
    else FindLast(s, c, end - 1)
  }

  /** The loop of `SplitPath` from a scan position on: `rest` is the text
      from that position to the end of the path. */
  function SplitRest(rest: string): (segs: seq<string>)
    ensures Segments(segs)
    ensures Concat(segs) == RemoveSlashes(rest)
    decreases |rest|
  {
    match FindFirst(rest, '/')
    case None =>
      NoSlashUnchanged(rest);
      if |rest| > 0 then [rest] else []
    case Some(p) =>
      var dir := rest[..p];
      var tail := SplitRest(rest[p + 1..]);
      SplitStep(rest, p, tail);
      if |dir| > 0 then [dir] + tail else tail
  }

  /** One cut of the `SplitPath` loop at the first `/`, at position `p`. */
  lemma SplitStep(rest: string, p: nat, tail: seq<string>)
    requires p < |rest| && rest[p] == '/' && '/' !in rest[..p]
    requires Segments(tail) && Concat(tail) == RemoveSlashes(rest[p + 1..])
    ensures var segs := if p > 0 then [rest[..p]] + tail else tail;
            Segments(segs) && Concat(segs) == RemoveSlashes(rest)
  {
    var dir := rest[..p];
    NoSlashUnchanged(dir);
    SlashCut(rest, p);
    RemoveSlashesAppend(dir, "/" + rest[p + 1..]);
    assert RemoveSlashes("/" + rest[p + 1..]) == RemoveSlashes(rest[p + 1..]) by {
      assert ("/" + rest[p + 1..])[1..] == rest[p + 1..];
    }
    if p > 0 {
      var segs := [dir] + tail;
      assert segs[0] == dir && segs[1..] == tail;
    }
  }

  lemma SlashCut(rest: string, p: nat)
    requires p < |rest| && rest[p] == '/'
    ensures rest == rest[..p] + ("/" + rest[p + 1..])
  {
  }

  /** `SplitPath`: skips one leading `/`, then cuts at every `/` and keeps
      only the non-empty pieces. */
  function SplitPath(path: string): (segs: seq<string>)
    ensures Segments(segs)
    ensures Concat(segs) == RemoveSlashes(path)
  {
    if |path| > 0 && path[0] == '/' then SplitRest(path[1..]) else SplitRest(path)
  }

  /** `ExtractPath`: the path up to (not including) the last `/`, skipping
      one trailing `/`. Positions are `size_t`: `Pos - 1` with `Pos == 0`
      wraps to `npos`, which searches the whole string again. */
  function ExtractPath(path: string): string
  {
    if |path| == 0 then ""
    else match FindLast(path, '/', |path|)
      case None => path
      case Some(k) =>
        if k == |path| - 1 then
          var again := if k == 0 then FindLast(path, '/', |path|) else FindLast(path, '/', k);
          match again
          case None => path
          case Some(j) => path[..j]
        else path[..k]
  }

  /** `ExtractName`: the text after the last `/`, skipping one trailing `/`.
      The `size_t` arithmetic of the C++ code is written out per case. */
  function ExtractName(path: string): string
  {
    if |path| == 0 then ""
    else match FindLast(path, '/', |path|)
      case None => ""
      case Some(k) =>
        if k == |path| - 1 then
          if k == 0 then ""
          else match FindLast(path, '/', k)
            case None => path[..k]
            case Some(j) => path[j + 1..k]
        else path[k + 1..]
  }

  // ---------------------------------------------------------------------
  // Helper facts about the reference definitions
  // ---------------------------------------------------------------------

  lemma {:induction false} NoSlashUnchanged(s: string)
    requires '/' !in s
    ensures RemoveSlashes(s) == s
    decreases |s|
  {
    if |s| > 0 {
      assert '/' !in s[1..];
      NoSlashUnchanged(s[1..]);
    }
  }

  lemma {:induction false} RemoveSlashesAppend(a: string, b: string)
    ensures RemoveSlashes(a + b) == RemoveSlashes(a) + RemoveSlashes(b)
    decreases |a|
  {
    if |a| > 0 {
      assert (a + b)[1..] == a[1..] + b;
      RemoveSlashesAppend(a[1..], b);
    } else {
      assert a + b == b;
    }
  }

  lemma {:induction false} JoinAppend(segs: seq<string>, x: string)
    ensures Join(segs + [x]) == Join(segs) + "/" + x
    decreases |segs|
  {
    if |segs| > 0 {
      assert (segs + [x])[1..] == segs[1..] + [x];
      JoinAppend(segs[1..], x);
    }
  }

  lemma {:induction false} SplitRestJoin(s: string, rest: seq<string>)
    requires Segment(s) && Segments(rest)
    ensures SplitRest(s + Join(rest)) == [s] + rest
    decreases |rest|
  {
    if |rest| == 0 {
      AppendEmptyString(s);
    } else {
      var t := rest[0] + Join(rest[1..]);
      Assoc("/", rest[0], Join(rest[1..]));
      SplitRestCut(s, t);
      SplitRestJoin(rest[0], rest[1..]);
      HeadSplit(rest);
    }
  }

  /** The loop cuts a leading segment off at the `/` that follows it. */
  lemma SplitRestCut(s: string, t: string)
    requires Segment(s)
    ensures SplitRest(s + ("/" + t)) == [s] + SplitRest(t)
  {
    SlashAfter(s, t);
  }

  /** In `s + "/" + t` with no `/` in `s`, the first `/` follows `s`. */
  lemma SlashAfter(s: string, t: string)
    requires '/' !in s
    ensures var path := s + ("/" + t);
            && FindFirst(path, '/') == Some(|s|) && path[..|s|] == s && path[|s| + 1..] == t
  {
    var path := s + ("/" + t);
    assert path[..|s|] == s;
    forall i | 0 <= i < |s|
      ensures path[i] != '/'
    {
      assert path[i] == s[i];
    }
    FindFirstAt(path, |s|);
  }

  lemma {:induction false} FindFirstAt(path: string, k: nat)
    requires k < |path| && path[k] == '/'
    requires forall i :: 0 <= i < k ==> path[i] != '/'
    ensures FindFirst(path, '/') == Some(k)
    decreases k
  {
    if k > 0 {
      var tail := path[1..];
      assert forall i :: 0 <= i < k - 1 ==> tail[i] == path[i + 1];
      FindFirstAt(tail, k - 1);
    }
  }

  lemma AppendEmptyString(s: string)
    ensures s + "" == s
  {
  }

  lemma TrailingCut(s: string, rest: seq<string>)
    requires |rest| > 0
    ensures s + Join(rest) + "/" == s + ("/" + (rest[0] + Join(rest[1..]) + "/"))
  {
    var a := rest[0];
    var b := Join(rest[1..]);
    assert Join(rest) == "/" + a + b;
    Regroup(s, a, b);
  }

  lemma Regroup(s: string, a: string, b: string)
    ensures s + ("/" + a + b) + "/" == s + ("/" + (a + b + "/"))
  {
    var l := s + ("/" + a + b) + "/";
    var r := s + ("/" + (a + b + "/"));
    assert |l| == |r|;
    forall i | 0 <= i < |l|
      ensures l[i] == r[i]
    {
    }
  }

  // ---------------------------------------------------------------------
  // Properties
  // ---------------------------------------------------------------------

  /** The empty path and the root path have no segments. */
  lemma SplitPathOfRoot()
    ensures SplitPath("") == []
    ensures SplitPath("/") == []
  {
    assert "/"[1..] == "";
  }

  /** `SplitPath` undoes `Join`: a canonical path splits into exactly the
      segments it was made of. The same holds with one trailing `/`. */
  lemma SplitPathJoin(segs: seq<string>)
    requires Segments(segs)
    ensures SplitPath(Join(segs)) == segs
    ensures SplitPath(Join(segs) + "/") == segs
  {
    if |segs| > 0 {
      SplitPathJoinPlain(segs);
      SplitPathJoinTrailing(segs);
    } else {
      assert Join(segs) + "/" == "/";
      SplitPathOfRoot();
    }
  }

  lemma SplitPathJoinPlain(segs: seq<string>)
    requires Segments(segs) && |segs| > 0
    ensures SplitPath(Join(segs)) == segs
  {
    var body := segs[0] + Join(segs[1..]);
    Assoc("/", segs[0], Join(segs[1..]));
    SplitPathSkipsSlash(body);
    SplitRestJoin(segs[0], segs[1..]);
    HeadSplit(segs);
  }

  lemma SplitPathJoinTrailing(segs: seq<string>)
    requires Segments(segs) && |segs| > 0
    ensures SplitPath(Join(segs) + "/") == segs
  {
    var body := segs[0] + Join(segs[1..]) + "/";
    Assoc4("/", segs[0], Join(segs[1..]), "/");
    SplitPathSkipsSlash(body);
    SplitTrailing(segs[0], segs[1..]);
    HeadSplit(segs);
  }

  lemma SplitPathSkipsSlash(body: string)
    ensures SplitPath("/" + body) == SplitRest(body)
  {
    assert ("/" + body)[1..] == body;
  }

  lemma Assoc<T>(a: seq<T>, b: seq<T>, c: seq<T>)
    ensures a + b + c == a + (b + c)
  {
  }

  lemma Assoc4<T>(a: seq<T>, b: seq<T>, c: seq<T>, d: seq<T>)
    ensures a + b + c + d == a + (b + c + d)
  {
  }

  lemma HeadSplit<T>(s: seq<T>)
    requires |s| > 0
    ensures [s[0]] + s[1..] == s
  {
  }

  lemma {:induction false} SplitTrailing(s: string, rest: seq<string>)
    requires Segment(s) && Segments(rest)
    ensures SplitRest(s + Join(rest) + "/") == [s] + rest
    decreases |rest|
  {
    if |rest| == 0 {
      assert Join(rest) == "";
      AppendEmptyString(s);
      AppendEmptyString("/");
      SplitRestCut(s, "");
    } else {
      var t := rest[0] + Join(rest[1..]) + "/";
      TrailingCut(s, rest);
      SplitRestCut(s, t);
      SplitTrailing(rest[0], rest[1..]);
      HeadSplit(rest);
    }
  }

  /** On a canonical path with at least one segment, with or without one
      trailing `/`, `ExtractPath` gives the parent's canonical path and
      `ExtractName` the last segment. For a top-level path the parent path
      is the empty string, not "/". */
  lemma ExtractJoin(segs: seq<string>)
    requires Segments(segs) && |segs| > 0
    ensures ExtractPath(Join(segs)) == Join(segs[..|segs| - 1])
    ensures ExtractName(Join(segs)) == segs[|segs| - 1]
    ensures ExtractPath(Join(segs) + "/") == Join(segs[..|segs| - 1])
    ensures ExtractName(Join(segs) + "/") == segs[|segs| - 1]
  {
    var pre := segs[..|segs| - 1];
    var x := segs[|segs| - 1];
    JoinLast(segs);
    ExtractPlain(Join(pre), x);
    ExtractTrailing(Join(pre), x);
  }

  /** The canonical path is its parent's path, a `/` and the last segment. */
  lemma JoinLast(segs: seq<string>)
    requires |segs| > 0
    ensures Join(segs) == Join(segs[..|segs| - 1]) + "/" + segs[|segs| - 1]
  {
    LastSplit(segs);
    JoinAppend(segs[..|segs| - 1], segs[|segs| - 1]);
  }

  lemma LastSplit<T>(s: seq<T>)
    requires |s| > 0
    ensures s == s[..|s| - 1] + [s[|s| - 1]]
  {
  }

  lemma ExtractPlain(parent: string, x: string)
    requires Segment(x)
    ensures ExtractPath(parent + "/" + x) == parent
    ensures ExtractName(parent + "/" + x) == x
  {
    var p := parent + "/" + x;
    var k := |parent|;
    assert p[k] == '/';
    assert p[k + 1..] == x;
    FindLastAfter(p, '/', k + 1, |p|);
    assert p[..k] == parent;
  }

  lemma ExtractTrailing(parent: string, x: string)
    requires Segment(x)
    ensures ExtractPath(parent + "/" + x + "/") == parent
    ensures ExtractName(parent + "/" + x + "/") == x
  {
    var q := parent + "/" + x + "/";
    var k := |parent|;
    var e := |q| - 1;
    assert q[e] == '/';
    assert FindLast(q, '/', |q|) == Some(e);
    assert q[k] == '/';
    assert q[k + 1..e] == x;
    FindLastAfter(q, '/', k + 1, e);
    assert q[..k] == parent;
  }

  /** With no `c` in `s[m..end]` and `c` at `m - 1`, the last `c` below `end` is at `m - 1`. */
  lemma {:induction false} FindLastAfter(s: string, c: char, m: nat, end: nat)
    requires 0 < m <= end <= |s| && s[m - 1] == c && c !in s[m..end]
    ensures FindLast(s, c, end) == Some(m - 1)
    decreases end
  {
    if end > m {
      assert s[end - 1] in s[m..end];
      assert s[m..end - 1] <= s[m..end];
      FindLastAfter(s, c, m, end - 1);
    }
  }
}

=== FILE: results.dfy ===
/** Error kinds and outcome types shared by every part of the filesystem model. */
module Results {

  /** The closed set of error kinds a `CVFSException` can carry. */
  datatype VFSError =
    | CANT_CREATE_DIR
    | CANT_CREATE_FILE
    | CANT_OPEN_FILE
    | OUT_OF_MEM
    | NODE_IS_FILE
    | NODE_IS_DIR
    | NODE_ALREADY_EXISTS
    | NODE_DOESNT_EXISTS

  /** A value that may be absent: a null `shared_ptr`, or "no such child". */
  datatype Option<+T> = None | Some(value: T)

  /** The outcome of an operation:
      - `Ok` is a normal return,
      - `Err` is a thrown `CVFSException` carrying its error kind,
      - `Undefined` is a point where the C++ code has undefined behaviour
        (a null dereference, an index past the end of a vector, or a copy
        from memory that holds no file content). */
  datatype Result<+T> = Ok(value: T) | Err(error: VFSError) | Undefined
}

=== FILE: stream.dfy ===
/** `CVFSFileStream`: a cursor over one file's content, gated by the mode
    bits it was opened with. */
module Stream {
  import opened Results
  import opened FileContent

  /** `FileMode`, a bit set over an `int`. */
  type Mode = bv32

  const READ: Mode := 1
  const WRITE: Mode := 2
  const RW: Mode := 3
  const APPEND: Mode := 4

  /** `(mode & flag) == flag`. */
  predicate Has(mode: Mode, flag: Mode)
  {
    mode & flag == flag
  }

  /** The origin of a `Seek`. */
  datatype Origin = BEG | CUR | END

  /** A stream over a file value: the file's name and content, the mode and
      the cursor `m_CurPos`. */
  datatype FileStream = FileStream(name: string, data: FileData, mode: Mode, cursor: nat)

  /** Number of `size_t` values; `size_t` arithmetic is taken modulo it. */
  const SIZE_T_RANGE: int := 0x1_0000_0000_0000_0000

  /** Conversion of a signed value to `size_t`. */
  function ToSizeT(x: int): nat
  {
    x % SIZE_T_RANGE
  }

  /** The constructor: the cursor starts at 0, and unless `APPEND` is set
      the file is cleared, for every other mode including read-only. */
  function Construct(name: string, data: FileData, mode: Mode): (s: FileStream)
    ensures s.name == name && s.mode == mode && s.cursor == 0
    ensures Has(mode, APPEND) ==> s.data == data
    ensures !Has(mode, APPEND) ==> |s.data.chunks| == 4 && Bytes(s.data) == [] && s.data.size == data.size
  {
    FileStream(name, if Has(mode, APPEND) then data else Clear(data), mode, 0)
  }

  function Size(s: FileStream): nat
  {
    s.data.size
  }

  function Tell(s: FileStream): nat
  {
    s.cursor
  }

  predicate IsEOF(s: FileStream)
  {
    s.cursor >= Size(s)
  }

  function Name(s: FileStream): string
  {
    s.name
  }

  /** `Write(Data, Size)`: appends through the file when the mode has
      `WRITE`, and otherwise writes nothing. The cursor is not moved: writes
      always go to the end of the content, wherever the cursor is. */
  function Write(s: FileStream, data: seq<char>): (r: Result<(FileStream, nat)>)
    ensures !r.Err?
    ensures r.Ok? ==> var (t, n) := r.value;
              && t.name == s.name && t.mode == s.mode && t.cursor == s.cursor
              && t.data.size == s.data.size + n
              && n == (if Has(s.mode, WRITE) then |data| else 0)
    ensures !Has(s.mode, WRITE) ==> r == Ok((s, 0))
  {
    if Has(s.mode, WRITE) then
      var w := FileContent.Write(s.data, data);
      if w.Ok? then Ok((s.(data := w.value.0), w.value.1)) else Undefined
    else Ok((s, 0))
  }

  /** `WriteLine`: writes the text, then a single `'\n'`, and returns the
      total written. */
  function WriteLine(s: FileStream, line: string): (r: Result<(FileStream, nat)>)
    ensures !r.Err?
    ensures r.Ok? ==> var (t, n) := r.value;
              && t.cursor == s.cursor && t.data.size == s.data.size + n
              && n == (if Has(s.mode, WRITE) then |line| + 1 else 0)
  {
    var first := Write(s, line);
    if first.Ok? then
      var second := Write(first.value.0, "\n");
      if second.Ok? then Ok((second.value.0, first.value.1 + second.value.1)) else Undefined
    else Undefined
  }

  /** `Read(Buf, Size)`: reads at the cursor and advances it by the count
      read, when the mode has `READ` and the file size is not 0; otherwise
      reads nothing and leaves the cursor where it is. */
  function Read(s: FileStream, n: nat): (r: Result<(FileStream, seq<char>)>)
    ensures !r.Err?
    ensures r.Ok? ==> |r.value.1| <= n && r.value.0 == s.(cursor := s.cursor + |r.value.1|)
    ensures r.Ok? && |r.value.1| > 0 ==> s.cursor + |r.value.1| <= |s.data.chunks| * CHUNK_SIZE
    ensures !Has(s.mode, READ) || s.data.size == 0 ==> r == Ok((s, []))
  {
    if Has(s.mode, READ) && Size(s) != 0 then
      var b := FileContent.Read(s.data, n, s.cursor);
      if b.Ok? then Ok((s.(cursor := s.cursor + |b.value|), b.value)) else Undefined
    else Ok((s, []))
  }

  /** The loop of `ReadLine` with the text `acc` gathered so far: reads one
      byte at a time, stops after a `'\n'` (which is not kept) or when a
      read returns nothing. */
  function ReadLineFrom(s: FileStream, acc: string): (r: Result<(FileStream, string)>)
    ensures !r.Err?
    ensures r.Ok? ==> |r.value.1| >= |acc| && r.value.1[..|acc|] == acc
    ensures r.Ok? ==> r.value.0.cursor >= s.cursor && r.value.0.data == s.data
    decreases |s.data.chunks| * CHUNK_SIZE - s.cursor
  {
    var step := Read(s, 1);
    if !step.Ok? then Undefined
    else
      var (t, b) := step.value;
      if |b| == 0 || b[0] == '\n' then Ok((t, acc))
      else
        var r := ReadLineFrom(t, acc + [b[0]]);
        if r.Ok? then
          assert r.value.1[..|acc|] == (acc + [b[0]])[..|acc|];
          r
        else r
  }

  /** `ReadLine`. */
  function ReadLine(s: FileStream): (r: Result<(FileStream, string)>)
    ensures !r.Err?
    ensures r.Ok? ==> r.value.0.cursor >= s.cursor && r.value.0.data == s.data
  {
    ReadLineFrom(s, "")
  }

  function Zeros(k: nat): (z: string)
    ensures |z| == k && forall i :: 0 <= i < k ==> z[i] == '\0'
  {
    seq(k, _ => '\0')
  }

  /** `Read()`: a string of `Size()` characters, filled by one cursor read
      of `Size()` bytes; whatever that read does not fill stays `'\0'`. */
  function ReadAll(s: FileStream): (r: Result<(FileStream, string)>)
    ensures !r.Err?
    ensures r.Ok? ==> |r.value.1| == Size(s)
    ensures r.Ok? ==> r.value.0.cursor >= s.cursor && r.value.0.data == s.data
    ensures r.Ok? ==> forall i :: r.value.0.cursor - s.cursor <= i < Size(s) ==> r.value.1[i] == '\0'
  {
    var step := Read(s, Size(s));
    if step.Ok? then
      var (t, b) := step.value;
      Ok((t, b + Zeros(Size(s) - |b|)))
    else Undefined
  }

  /** The cursor a `Seek` aims at, in plain integers. */
  function Target(s: FileStream, origin: Origin, bytes: int): int
  {
    match origin
    case BEG => bytes
    case CUR => s.cursor + bytes
    case END => Size(s) + bytes
  }

  /** `Seek`: does nothing on an empty file; otherwise computes the new
      position in `size_t` and clamps it to `Size()` when it is larger. A
      target below 0 wraps to a huge `size_t` value and so also ends up at
      `Size()`, not at 0. */
  function Seek(s: FileStream, origin: Origin, bytes: int): (r: FileStream)
    requires -0x8000_0000_0000_0000 <= bytes < 0x8000_0000_0000_0000
    ensures r.name == s.name && r.data == s.data && r.mode == s.mode
    ensures Size(s) == 0 ==> r == s
    ensures Size(s) != 0 ==> r.cursor <= Size(s)
    ensures Size(s) != 0 && s.cursor <= Size(s) < 0x8000_0000_0000_0000 ==>
              r.cursor == (var t := Target(s, origin, bytes); if 0 <= t <= Size(s) then t else Size(s))
  {
    if Size(s) == 0 then s
    else
      var newPos := match origin
        case BEG => ToSizeT(bytes)
        case CUR => ToSizeT(s.cursor + bytes)
        case END => ToSizeT(Size(s) + bytes);
      s.(cursor := if newPos > Size(s) then Size(s) else newPos)
  }
}

=== FILE: stream_lemmas.dfy ===
/** Properties of the stream: what `ReadLine`, `Read()`, `Write` and `Seek`
    do on a stream over consistent content, and the invariant
    `cursor <= Size()` they keep. */
module StreamProperties {
  import opened Results
  import opened FileContent
  import opened ContentProperties
  import opened Stream

  /** The state every stream operation keeps: consistent content and a
      cursor inside it. */
  predicate Valid(s: FileStream)
  {
    Consistent(s.data) && s.cursor <= s.data.size
  }

  /** Reference definition of a line's end: the first `'\n'` at or after
      `from`, or the end of the content. */
  function LineEnd(bytes: seq<char>, from: nat): (e: nat)
    requires from <= |bytes|
    ensures from <= e <= |bytes|
    ensures '\n' !in bytes[from..e]
    ensures e < |bytes| ==> bytes[e] == '\n'
    decreases |bytes| - from
  {
    if from == |bytes| || bytes[from] == '\n' then from
    else
      var e := LineEnd(bytes, from + 1);
      assert bytes[from..e] == [bytes[from]] + bytes[from + 1..e];
      e
  }

  /** The cursor after reading the line that starts at `s.cursor`. */
  function AfterLine(s: FileStream): nat
    requires Valid(s)
  {
    ConsistentLength(s.data);
    var e := LineEnd(Bytes(s.data), s.cursor);
    if e < s.data.size then e + 1 else s.data.size
  }

  /** One single-byte read on a valid readable stream: the byte at the
      cursor, or nothing at the end. */
  lemma ReadOneByte(s: FileStream)
    requires Valid(s) && Has(s.mode, READ)
    ensures |Bytes(s.data)| == s.data.size
    ensures s.cursor == s.data.size ==> Stream.Read(s, 1) == Ok((s, []))
    ensures s.cursor < s.data.size ==>
              Stream.Read(s, 1) == Ok((s.(cursor := s.cursor + 1), [Bytes(s.data)[s.cursor]]))
  {
    ConsistentLength(s.data);
    if s.cursor == s.data.size {
      if s.data.size != 0 {
        ReadAtEnd(s.data, 1);
      }
    } else {
      ReadWithinChunk(s.data, 1, s.cursor);
      assert Bytes(s.data)[s.cursor..s.cursor + 1] == [Bytes(s.data)[s.cursor]];
    }
  }

  /** `ReadLine`'s loop stops on a read that returns nothing or `'\n'`. */
  lemma ReadLineFromStops(s: FileStream, acc: string, t: FileStream, b: seq<char>)
    requires Stream.Read(s, 1) == Ok((t, b)) && (|b| == 0 || b[0] == '\n')
    ensures ReadLineFrom(s, acc) == Ok((t, acc))
  {
  }

  /** `ReadLine`'s loop goes on after any other byte. */
  lemma ReadLineFromGoesOn(s: FileStream, acc: string, t: FileStream, c: char)
    requires Stream.Read(s, 1) == Ok((t, [c])) && c != '\n'
    ensures ReadLineFrom(s, acc) == ReadLineFrom(t, acc + [c])
  {
  }

  lemma {:induction false} ReadLineFromSpec(s: FileStream, acc: string)
    requires Valid(s) && Has(s.mode, READ)
    ensures |Bytes(s.data)| == s.data.size
    ensures ReadLineFrom(s, acc)
            == Ok((s.(cursor := AfterLine(s)), acc + Bytes(s.data)[s.cursor..LineEnd(Bytes(s.data), s.cursor)]))
    decreases s.data.size - s.cursor
  {
    ReadOneByte(s);
    var bytes := Bytes(s.data);
    var e := LineEnd(bytes, s.cursor);
    if s.cursor == s.data.size {
      ReadLineFromStops(s, acc, s, []);
      assert e == s.cursor;
      assert acc + bytes[s.cursor..e] == acc;
    } else if bytes[s.cursor] == '\n' {
      ReadLineFromStops(s, acc, s.(cursor := s.cursor + 1), [bytes[s.cursor]]);
      assert e == s.cursor;
      assert acc + bytes[s.cursor..e] == acc;
    } else {
      var t := s.(cursor := s.cursor + 1);
      ReadLineFromGoesOn(s, acc, t, bytes[s.cursor]);
      ReadLineFromSpec(t, acc + [bytes[s.cursor]]);
      assert LineEnd(bytes, t.cursor) == e;
      assert AfterLine(t) == AfterLine(s);
      LineStep(bytes, s.cursor, e, acc);
      assert t.(cursor := AfterLine(t)) == s.(cursor := AfterLine(s));
    }
  }

  /** Reading one more byte of the line extends the accumulated prefix. */
  lemma LineStep(bytes: seq<char>, from: nat, e: nat, acc: string)
    requires from < e <= |bytes|
    ensures acc + [bytes[from]] + bytes[from + 1..e] == acc + bytes[from..e]
  {
    assert bytes[from..e] == [bytes[from]] + bytes[from + 1..e];
  }

  /** On a readable stream over
      consistent content `ReadLine` returns the bytes from the cursor up to but
      excluding the next `'\n'`, and leaves the cursor just past that
      `'\n'`, or at `Size()` when there is none. */
  lemma ReadLineReturnsLine(s: FileStream)
    requires Valid(s) && Has(s.mode, READ)
    ensures |Bytes(s.data)| == s.data.size
    ensures var e := LineEnd(Bytes(s.data), s.cursor);
            ReadLine(s) == Ok((s.(cursor := if e < Size(s) then e + 1 else Size(s)), Bytes(s.data)[s.cursor..e]))
  {
    ReadLineFromSpec(s, "");
    assert "" + Bytes(s.data)[s.cursor..LineEnd(Bytes(s.data), s.cursor)]
        == Bytes(s.data)[s.cursor..LineEnd(Bytes(s.data), s.cursor)];
  }

  /** `Read(buf, n)` keeps the stream valid and returns the bytes at the
      cursor. */
  lemma ReadKeepsValid(s: FileStream, n: nat)
    requires Valid(s) && Stream.Read(s, n).Ok?
    ensures var (t, b) := Stream.Read(s, n).value;
            Valid(t) && |Bytes(s.data)| == s.data.size && b == Bytes(s.data)[s.cursor..t.cursor]
  {
    ConsistentLength(s.data);
    var (t, b) := Stream.Read(s, n).value;
    if |b| > 0 {
      ReadSound(s.data, n, s.cursor);
    }
  }

  /** `Write` keeps the stream valid and appends exactly the written bytes
      when the mode has `WRITE`; the cursor does not move. */
  lemma WriteKeepsValid(s: FileStream, data: seq<char>)
    requires Valid(s) && Stream.Write(s, data).Ok?
    ensures var (t, n) := Stream.Write(s, data).value;
            && Valid(t) && t.cursor == s.cursor
            && Bytes(t.data) == Bytes(s.data) + (if Has(s.mode, WRITE) then data else [])
  {
    if Has(s.mode, WRITE) {
      WriteAppends(s.data, data);
    }
  }

  /** Writing a line that fits in the room left in the current chunk
      appends the text and one `'\n'`. */
  lemma WriteLineAppends(s: FileStream, line: string)
    requires Valid(s) && Has(s.mode, WRITE)
    requires |line| + 1 <= CHUNK_SIZE - s.data.size % CHUNK_SIZE
    ensures WriteLine(s, line).Ok?
    ensures var (t, n) := WriteLine(s, line).value;
            Valid(t) && n == |line| + 1 && Bytes(t.data) == Bytes(s.data) + line + "\n"
  {
    WriteFitsDefined(s.data, line);
    WriteKeepsValid(s, line);
    var t := Stream.Write(s, line).value.0;
    assert t.data.size % CHUNK_SIZE == s.data.size % CHUNK_SIZE + |line|;
    WriteFitsDefined(t.data, "\n");
    WriteKeepsValid(t, "\n");
  }

  /** The constructor yields a valid stream over consistent content exactly
      when it keeps the content (`APPEND`) or the file was empty: clearing
      keeps the old size, so a non-append open of a non-empty file leaves a
      stream whose size no longer matches its content. */
  lemma ConstructValid(name: string, data: FileData, mode: Mode)
    requires Consistent(data)
    ensures Valid(Construct(name, data, mode)) <==> Has(mode, APPEND) || data.size == 0
  {
    if !Has(mode, APPEND) {
      ClearKeepsSize(data);
    }
  }

  /** `Read()` returns `Size()` characters: the content from the cursor on,
      then `'\0'` for the rest, and moves the cursor to `Size()`. This is
      defined when the single read it makes needs one pass: at the end, on
      a file that fits one chunk read from the start, or when the cursor
      lies in the last chunk. */
  lemma ReadAllFromCursor(s: FileStream)
    requires Valid(s) && Has(s.mode, READ)
    requires s.cursor == Size(s) || (s.cursor == 0 && Size(s) <= CHUNK_SIZE)
             || s.cursor / CHUNK_SIZE + 1 >= |s.data.chunks|
    ensures |Bytes(s.data)| == Size(s)
    ensures ReadAll(s) == Ok((s.(cursor := Size(s)), Bytes(s.data)[s.cursor..] + Zeros(s.cursor)))
  {
    ConsistentLength(s.data);
    var f := s.data;
    var size := f.size;
    var bytes := Bytes(f);
    if size == 0 {
      assert bytes[s.cursor..] == [];
    } else if s.cursor == size {
      ReadAtEnd(f, size);
      assert bytes[s.cursor..] == [];
    } else {
      var p := s.cursor / CHUNK_SIZE;
      assert p < |f.chunks|;
      var c := f.chunks[p];
      var pos := s.cursor - p * CHUNK_SIZE;
      assert |c| == size - p * CHUNK_SIZE by {
        assert size <= (p + 1) * CHUNK_SIZE;
      }
      var count := if |c| - pos > size then size else |c| - pos;
      assert count == size - s.cursor;
      assert FileContent.Read(f, size, s.cursor) == Ok(c[pos..pos + count]);
      ReadSound(f, size, s.cursor);
      assert bytes[s.cursor..] == bytes[s.cursor..s.cursor + count];
    }
  }

  /** `Seek` with `Tell` and `IsEOF`: on an empty file
      nothing changes; otherwise the cursor becomes the target when it lies
      in `[0, Size()]` and `Size()` when it does not, negative targets
      included. Either way `0 <= Tell() <= Size()` and `IsEOF()` holds
      exactly when `Tell() == Size()`. */
  lemma SeekClamps(s: FileStream, origin: Origin, bytes: int)
    requires -0x8000_0000_0000_0000 <= bytes < 0x8000_0000_0000_0000
    requires s.cursor <= Size(s) < 0x8000_0000_0000_0000
    ensures var r := Seek(s, origin, bytes);
            && (Size(s) == 0 ==> r == s)
            && (Size(s) != 0 ==> Tell(r) == (var t := Target(s, origin, bytes); if 0 <= t <= Size(s) then t else Size(s)))
            && 0 <= Tell(r) <= Size(r)
            && (IsEOF(r) <==> Tell(r) == Size(r))
  {
  }

  /** `Seek` keeps the stream valid. */
  lemma SeekKeepsValid(s: FileStream, origin: Origin, bytes: int)
    requires -0x8000_0000_0000_0000 <= bytes < 0x8000_0000_0000_0000
    requires Valid(s)
    ensures Valid(Seek(s, origin, bytes))
  {
  }

  /** The scenario of a fresh read-write stream: writing `"ab\ncd\n"`, the
      first `ReadLine` gives `"ab"`, the second `"cd"`, and then the stream
      is at its end. */
  lemma TwoLinesScenario(name: string)
    ensures var s0 := Construct(name, NewFile, RW);
            var w := Stream.Write(s0, "ab\ncd\n");
            && w.Ok?
            && var s1 := w.value.0;
            && var l1 := ReadLine(s1);
            && l1.Ok? && l1.value.1 == "ab"
            && var l2 := ReadLine(l1.value.0);
            && l2.Ok? && l2.value.1 == "cd"
            && IsEOF(l2.value.0)
  {
    var s1 := TwoLinesWritten(name);
    TwoLinesRead(s1);
  }

  /** The write of the scenario leaves a readable stream at offset 0 over
      exactly the written text. */
  lemma TwoLinesWritten(name: string) returns (s1: FileStream)
    ensures var w := Stream.Write(Construct(name, NewFile, RW), "ab\ncd\n");
            w.Ok? && w.value.0 == s1
    ensures Valid(s1) && Has(s1.mode, READ) && s1.cursor == 0
    ensures Bytes(s1.data) == "ab\ncd\n" && s1.data.size == 6
  {
    var s0 := Construct(name, NewFile, RW);
    ClearKeepsSize(NewFile);
    assert Valid(s0);
    var text := "ab\ncd\n";
    WriteFitsDefined(s0.data, text);
    WriteKeepsValid(s0, text);
    s1 := Stream.Write(s0, text).value.0;
    assert Bytes(s1.data) == text;
    ConsistentLength(s1.data);
  }

  /** The two reads of the scenario. */
  lemma TwoLinesRead(s1: FileStream)
    requires Valid(s1) && Has(s1.mode, READ) && s1.cursor == 0
    requires Bytes(s1.data) == "ab\ncd\n" && s1.data.size == 6
    ensures var l1 := ReadLine(s1);
            && l1.Ok? && l1.value.1 == "ab"
            && var l2 := ReadLine(l1.value.0);
            && l2.Ok? && l2.value.1 == "cd"
            && IsEOF(l2.value.0)
  {
    var text := "ab\ncd\n";
    TwoLineEnds();
    ReadLineReturnsLine(s1);
    var s2 := s1.(cursor := 3);
    assert ReadLine(s1) == Ok((s2, text[0..2]));
    assert text[0..2] == "ab";
    ReadLineReturnsLine(s2);
    assert text[3..5] == "cd";
  }

  /** Where the lines of `"ab\ncd\n"` end. */
  lemma TwoLineEnds()
    ensures LineEnd("ab\ncd\n", 0) == 2 && LineEnd("ab\ncd\n", 3) == 5
  {
    var text := "ab\ncd\n";
    assert LineEnd(text, 2) == 2;
    assert LineEnd(text, 5) == 5;
  }
}

=== FILE: tree.dfy ===
/** Positions in the node tree. A `shared_ptr` to a node is modelled by the
    node's index path: the child index taken at each level from the root.
    Updating the node a pointer refers to is `Put` at its path. */
module Tree {
  import opened Results
  import opened Names
  import opened Nodes
  import opened Directory

  /** `p` leads from `n` through directories to some node. */
  predicate ValidPath(n: Node, p: seq<nat>)
    decreases |p|
  {
    |p| == 0 || (n.Dir? && p[0] < |n.children| && ValidPath(n.children[p[0]], p[1..]))
  }

  /** The node at path `p`. */
  function At(n: Node, p: seq<nat>): Node
    requires ValidPath(n, p)
    decreases |p|
  {
    if |p| == 0 then n else At(n.children[p[0]], p[1..])
  }

  /** `n` with the node at path `p` replaced by `m`. */
  function Put(n: Node, p: seq<nat>, m: Node): (r: Node)
    requires ValidPath(n, p)
    ensures |p| == 0 ==> r == m
    ensures |p| > 0 ==> r.Dir? && r.name == n.name && |r.children| == |n.children|
    decreases |p|
  {
    if |p| == 0 then m
    else n.(children := n.children[p[0] := Put(n.children[p[0]], p[1..], m)])
  }

  /** `a` is a prefix of `b`: the node at `b` lies in the subtree at `a`. */
  predicate IsPrefix(a: seq<nat>, b: seq<nat>)
  {
    |a| <= |b| && b[..|a|] == a
  }

  /** The directory at `p` with its child list replaced by `cs`. */
  function WithChildren(n: Node, p: seq<nat>, cs: seq<Node>): (r: Node)
    requires ValidPath(n, p) && At(n, p).Dir?
    ensures r.Dir? && r.name == n.name
  {
    Put(n, p, At(n, p).(children := cs))
  }

  /** `erase` of child `k` of the directory at `p`. */
  function RemoveAt(n: Node, p: seq<nat>, k: nat): (r: Node)
    requires ValidPath(n, p) && At(n, p).Dir? && k < |At(n, p).children|
    ensures r.Dir? && r.name == n.name
  {
    var cs := At(n, p).children;
    WithChildren(n, p, cs[..k] + cs[k + 1..])
  }

  /** A path at or below the erased child has no place after the erasure. */
  lemma ShiftInside(d: seq<nat>, p: seq<nat>, k: nat)
    requires IsPrefix(p + [k], d)
    ensures Shift(d, p, k).None?
  {
    assert d[..|p|] == (p + [k])[..|p|] == p;
    assert d[|p|] == (p + [k])[|p|] == k;
  }

  lemma RemoveAtUnfold(n: Node, p: seq<nat>, k: nat)
    requires ValidPath(n, p) && At(n, p).Dir? && k < |At(n, p).children|
    ensures RemoveAt(n, p, k) == WithChildren(n, p, At(n, p).children[..k] + At(n, p).children[k + 1..])
  {
  }

  /** Where the node that was at `q` sits after child `k` of the directory
      at `p` is erased: `None` when it was in the erased subtree, otherwise
      its path with the index under `p` moved down by one past `k`. */
  function Shift(q: seq<nat>, p: seq<nat>, k: nat): (r: Option<seq<nat>>)
    ensures r.Some? ==> |r.value| == |q|
  {
    if |q| > |p| && q[..|p|] == p then
      if q[|p|] == k then None
      else if q[|p|] > k then Some(q[|p| := q[|p|] - 1])
      else Some(q)
    else Some(q)
  }

  /** A path below a sibling of the erased child `k` takes an index one
      lower under `p` when it was past `k`. */
  lemma ShiftBelow(d: seq<nat>, p: seq<nat>, k: nat, i: nat)
    requires IsPrefix(p, d) && |d| > |p| && d[|p|] != k
    requires i == if d[|p|] < k then d[|p|] else d[|p|] - 1
    ensures Shift(d, p, k) == Some(d[|p| := i])
  {
    if d[|p|] < k {
      assert d[|p| := i] == d;
    }
  }

  lemma {:induction false} PutAt(n: Node, p: seq<nat>, m: Node)
    requires ValidPath(n, p)
    ensures ValidPath(Put(n, p, m), p) && At(Put(n, p, m), p) == m
    decreases |p|
  {
    if |p| > 0 {
      PutAt(n.children[p[0]], p[1..], m);
    }
  }

  /** The node at `a + b` is the node at `b` below the node at `a`. */
  lemma {:induction false} AtConcat(n: Node, a: seq<nat>, b: seq<nat>)
    requires ValidPath(n, a)
    ensures ValidPath(n, a + b) <==> ValidPath(At(n, a), b)
    ensures ValidPath(n, a + b) ==> At(n, a + b) == At(At(n, a), b)
    decreases |a|
  {
    if |a| == 0 {
      assert a + b == b;
    } else {
      AtConcat(n.children[a[0]], a[1..], b);
      assert (a + b)[0] == a[0] && (a + b)[1..] == a[1..] + b;
    }
  }

  /** Two paths that start with the same index are prefixes of each other
      exactly as their tails are. */
  lemma PrefixCons(a: seq<nat>, b: seq<nat>)
    requires |a| > 0 && |b| > 0 && a[0] == b[0]
    ensures IsPrefix(a, b) <==> IsPrefix(a[1..], b[1..])
  {
    if |a| <= |b| {
      assert b[..|a|] == [b[0]] + b[1..][..|a| - 1];
      assert a == [a[0]] + a[1..];
    }
  }

  /** A path that goes below the node at `p` passes through a directory
      there, taking one of its children. */
  lemma PathThrough(n: Node, p: seq<nat>, d: seq<nat>)
    requires ValidPath(n, d) && IsPrefix(p, d) && |d| > |p|
    ensures ValidPath(n, p) && At(n, p).Dir? && d[|p|] < |At(n, p).children|
  {
    PrefixValid(n, d, |p|);
    assert d == p + d[|p|..];
    AtConcat(n, p, d[|p|..]);
  }

  /** A prefix of a valid path is valid. */
  lemma {:induction false} PrefixValid(n: Node, d: seq<nat>, i: nat)
    requires ValidPath(n, d) && i <= |d|
    ensures ValidPath(n, d[..i])
    decreases |d|
  {
    if i > 0 {
      PrefixValid(n.children[d[0]], d[1..], i - 1);
      assert d[..i][1..] == d[1..][..i - 1];
    }
  }

  /** Putting back the node that is there changes nothing. */
  lemma {:induction false} PutSame(n: Node, p: seq<nat>)
    requires ValidPath(n, p)
    ensures Put(n, p, At(n, p)) == n
    decreases |p|
  {
    if |p| > 0 {
      PutSame(n.children[p[0]], p[1..]);
      assert n.children[p[0] := n.children[p[0]]] == n.children;
    }
  }

  /** A node that is not at or below the replaced one keeps its place. It
      is unchanged unless the replaced node lies below it; then, when the
      replacement keeps the name, it is a directory whose children keep
      their names. */
  lemma {:induction false} AtAfterPut(n: Node, q: seq<nat>, m: Node, a: seq<nat>)
    requires ValidPath(n, q) && ValidPath(n, a) && !IsPrefix(q, a)
    ensures ValidPath(Put(n, q, m), a)
    ensures !IsPrefix(a, q) ==> At(Put(n, q, m), a) == At(n, a)
    ensures IsPrefix(a, q) && m.name == At(n, q).name ==>
              && At(n, a).Dir? && At(Put(n, q, m), a).Dir?
              && SameNames(At(Put(n, q, m), a).children, At(n, a).children)
    decreases |a|
  {
    var k := q[0];
    var c := n.children[k];
    var pc := Put(c, q[1..], m);
    assert Put(n, q, m) == n.(children := n.children[k := pc]);
    if |a| == 0 {
      if m.name == At(n, q).name {
        assert pc.name == c.name by {
          assert At(n, q) == At(c, q[1..]);
        }
        assert SameNames(Put(n, q, m).children, n.children);
      }
    } else if a[0] != k {
      assert !IsPrefix(a, q) by {
        if |a| <= |q| {
          assert q[..|a|][0] == k;
        }
      }
    } else {
      assert IsPrefix(a, q) <==> IsPrefix(a[1..], q[1..]) by {
        if |a| <= |q| {
          assert q[..|a|] == [k] + q[1..][..|a| - 1];
          assert a == [k] + a[1..];
        }
      }
      AtAfterPut(c, q[1..], m, a[1..]);
    }
  }

  /** Every directory below a sorted tree is a sorted tree. */
  lemma {:induction false} SubtreeSorted(n: Node, p: seq<nat>)
    requires ValidPath(n, p)
    ensures SortedTree(n) ==> SortedTree(At(n, p))
    decreases |p|
  {
    if |p| > 0 {
      SubtreeSorted(n.children[p[0]], p[1..]);
    }
  }

  /** Replacing a node by a sorted tree of the same name keeps the whole
      tree sorted: the order of siblings depends on names only. */
  lemma {:induction false} PutSorted(n: Node, p: seq<nat>, m: Node)
    requires ValidPath(n, p) && SortedTree(n) && SortedTree(m)
    requires |p| > 0 ==> m.name == At(n, p).name
    ensures SortedTree(Put(n, p, m))
    decreases |p|
  {
    if |p| > 0 {
      var c := n.children[p[0]];
      PutSorted(c, p[1..], m);
      var cs := n.children[p[0] := Put(c, p[1..], m)];
      assert SameNames(n.children, cs);
      assert Sorted(cs);
    }
  }

  /** Changing a directory's child list keeps the tree sorted when the new
      list is sorted and made of sorted trees. */
  lemma WithChildrenSorted(n: Node, p: seq<nat>, cs: seq<Node>)
    requires ValidPath(n, p) && At(n, p).Dir? && SortedTree(n)
    requires Sorted(cs) && forall i :: 0 <= i < |cs| ==> SortedTree(cs[i])
    ensures SortedTree(WithChildren(n, p, cs))
  {
    assert SortedTree(At(n, p).(children := cs));
    PutSorted(n, p, At(n, p).(children := cs));
  }

  /** Erasing a child keeps the tree sorted. */
  lemma RemoveAtSorted(n: Node, p: seq<nat>, k: nat)
    requires ValidPath(n, p) && At(n, p).Dir? && k < |At(n, p).children| && SortedTree(n)
    ensures SortedTree(RemoveAt(n, p, k))
  {
    SubtreeSorted(n, p);
    var cs := At(n, p).children;
    RemoveKeepsSorted(cs, k);
    var rest := cs[..k] + cs[k + 1..];
    assert forall i :: 0 <= i < |rest| ==> SortedTree(rest[i]) by {
      forall i | 0 <= i < |rest|
        ensures SortedTree(rest[i])
      {
        if i < k { assert rest[i] == cs[i]; } else { assert rest[i] == cs[i + 1]; }
      }
    }
    WithChildrenSorted(n, p, rest);
  }

  /** A pointer that survives the erasure of child `k` at `p` still refers
      to a node of the same name and kind at its shifted path; the node is
      unchanged unless the erasure happened inside it. */
  lemma {:induction false} ShiftAfterRemove(n: Node, p: seq<nat>, k: nat, q: seq<nat>)
    requires ValidPath(n, p) && At(n, p).Dir? && k < |At(n, p).children| && ValidPath(n, q)
    requires Shift(q, p, k).Some?
    ensures var m := RemoveAt(n, p, k);
            var q' := Shift(q, p, k).value;
            && ValidPath(m, q')
            && At(m, q').name == At(n, q).name && At(m, q').Dir? == At(n, q).Dir?
            && (!IsPrefix(q, p) ==> At(m, q') == At(n, q))
    decreases |p|
  {
    var cs := At(n, p).children;
    var m := RemoveAt(n, p, k);
    var q' := Shift(q, p, k).value;
    if |p| == 0 {
      assert m == n.(children := cs[..k] + cs[k + 1..]);
      if |q| > 0 {
        assert q[..0] == p;
        var i := q'[0];
        assert m.children[i] == n.children[q[0]];
        assert q'[1..] == q[1..];
      }
    } else if |q| > 0 {
      var c := n.children[p[0]];
      assert At(c, p[1..]) == At(n, p);
      var mc := RemoveAt(c, p[1..], k);
      assert m == n.(children := n.children[p[0] := mc]);
      if q[0] == p[0] {
        ShiftAfterRemove(c, p[1..], k, q[1..]);
        ShiftCons(q, p, k);
        assert IsPrefix(q, p) <==> IsPrefix(q[1..], p[1..]);
        assert q'[1..] == Shift(q[1..], p[1..], k).value;
      } else {
        assert q' == q by {
          if |q| > |p| {
            assert q[..|p|][0] != p[0];
          }
        }
        assert !IsPrefix(q, p);
        assert m.children[q[0]] == n.children[q[0]];
      }
    }
  }

  /** `Shift` goes down one level when both paths start with the same index. */
  lemma ShiftCons(q: seq<nat>, p: seq<nat>, k: nat)
    requires |q| > 0 && |p| > 0 && q[0] == p[0]
    ensures Shift(q, p, k).Some? == Shift(q[1..], p[1..], k).Some?
    ensures Shift(q, p, k).Some? ==> Shift(q, p, k).value == [q[0]] + Shift(q[1..], p[1..], k).value
  {
    if |q| > |p| {
      assert q[..|p|] == p <==> q[1..][..|p| - 1] == p[1..] by {
        assert q[..|p|] == [q[0]] + q[1..][..|p| - 1];
        assert p == [p[0]] + p[1..];
      }
      assert q[|p|] == q[1..][|p| - 1];
      if q[..|p|] == p && q[|p|] > k {
        assert q[|p| := q[|p|] - 1] == [q[0]] + q[1..][|p| - 1 := q[|p|] - 1];
      }
    }
  }
}
